=== FILE: README.md ===
# ScheduleEditor core in Dafny

This project models the editing core of ScheduleEditor. ScheduleEditor is a desktop editor for the
schedule collections of Meadow devices. A collection holds named schedules. Each schedule holds events
of four kinds:

- a Daily clock time;
- a Weekday clock time on chosen days;
- an offset before or after sunrise on chosen days;
- an offset before or after sunset on chosen days.

Each event carries a payload ("true", "false" or free text) and a disabled flag.

An overlay (`ScheduleEventModel`) wraps each event. It stages edits of the type, clock time, offset size,
offset direction and days instead of writing them into the event. `CreateUpdatedEvent` folds the staged
values and the original into a new event. The payload and the disabled flag are written straight into the
wrapped event. `ScheduleModel.ApplyChanges` swaps every dirty overlay's event for its reconciled one and
rebuilds the overlays. `ScheduleCollectionModel` keeps one schedule model per schedule and owns the
timezone with its daylight-saving toggle. Around this sit:

- the value converters of the views;
- the main window's save, removal and selection flags;
- the serial-port menu state.

Modules, one file each:

| file | module | models |
|---|---|---|
| wrappers.dfy | Wrappers | nullable values |
| text.dfy | Text | `ToLower`, `string.Join` |
| calendar.dfy | Calendar | `DayOfWeek`, ticks, `TimeSpan`/`DateTime`, `hh:mm` text |
| actions.dfy | Actions | the "true"/"false" payload ↔ "Turn On"/"Turn Off" convention |
| schedule_event.dfy | ScheduleEvents | the four event classes of the scheduling library |
| event_model.dfy | EventModels | `ScheduleEventModel`: overlay, getters, setters, `CreateUpdatedEvent` |
| event_model_props.dfy | EventModelProps | what the setters and the reconciler promise |
| event_display.dfy | EventDisplay | `TimeDisplay`, `FormatOffset`, `FormatDaysOfWeek` |
| schedule_model.dfy | ScheduleModels | `ScheduleModel` |
| schedule_model_props.dfy | ScheduleModelProps | the shape of `ApplyChanges`, add/remove |
| collection_model.dfy | CollectionModels | `ScheduleCollectionModel`, `ApplyAllPendingChanges` |
| collection_props.dfy | CollectionProps | properties across collection operations |
| converters.dfy | Converters | `CommonConverters.cs` |
| serial_ports.dfy | SerialPorts | `SelectSerialPort` and the port-list rebuild |
| main_view.dfy | MainView | the main window: save, removals, event edits and timezone setters with their flags |

Modelling choices:

- **Object identity.** C# objects are shared by reference. The model gives every event and schedule a
  `ref: nat`. `List.Remove(x)` drops the first element with `x`'s ref.
  - A new event gets a ref above every ref in its list (`FreshRef`); a new schedule likewise (`FreshScheduleRef`).
  - A payload or disabled-flag write reaches every holder of the same event ref (`WriteThrough`).
  - A schedule changed through its model is written back to every collection entry with its ref (`WriteBack`).
- **Time.** `DateTime` and `TimeSpan` are counts of 100 ns ticks. The base date 1989-06-03 is day 726255 after 0001-01-01.
- **Outside inputs.** "Noon today (UTC)" in `GetEventDateTime` is a parameter. So is the local-time text of `TimeDisplay`.
- **Well-formedness.**
  - `Wf` (a schedule model): the overlays wrap the schedule's events in order, and no event object occurs twice.
  - `Coherent` (a collection): the models wrap the collection's schedules in order, no schedule object occurs twice, and every schedule model is `Wf`.

Behaviours of the code worth knowing:

- ApplyChanges appends each updated event at the end of the list and does not re-insert it in place.
- Once a day was toggled, turning every day off yields an empty day list, not `[Monday]`.
- A day never toggled falls back to the original event, day by day.
- A Weekday event that carries all seven days is shown with the seven names, not as "Daily". Only sun events show "daily".
- A Weekday event without a day list is shown as " at " and its time, with nothing in front.
- A missing payload is reconciled to "true".
- A sun offset is cut to whole minutes, truncating toward zero, when it is reconciled.
- A reconciled Daily or Weekday time moves onto 1989-06-03.

## Model

| member | source | states |
|---|---|---|
| Calendar.AbbrevReadsBack | Source/Models/ScheduleEventModel.cs:466 | The three-letter day name (`Substring(0, 3)`) determines the day: reading it back gives the day. |
| Calendar.TruncatedMinutes | Source/Models/ScheduleEventModel.cs:246-247 | `(int)Offset.TotalMinutes` truncates toward zero: its size is the offset's size divided by a minute, and it keeps the offset's sign. |
| Calendar.FromMinutes | Source/Models/ScheduleEventModel.cs:118 | `TimeSpan.FromMinutes(m)` is a whole number of minutes that divides back to `m`. |
| Calendar.OnBaseDateKeepsTimeOfDay | Source/Models/ScheduleEventModel.cs:102-103 | A time of day added to 1989-06-03 keeps that time of day and falls on that date. |
| Calendar.ClockTextReadsBack | Source/Models/ScheduleEventModel.cs:443-446 | The `HH:mm` text reads back as the hour and minute within the day. |
| ScheduleEvents.ParseKindName | Source/Models/ScheduleEventModel.cs:60-93 | Each of the four type names selects its own variant in the reconciler's switch. |
| ScheduleEvents.DaysOf | Source/Models/ScheduleEventModel.cs:142-151 | Only Weekday and sun events carry a day list. |
| Text.ToLower | Source/Converters/CommonConverters.cs:57 | Lower-casing keeps the length and lower-cases each character. |
| Actions.ActionLabel | Source/Models/ScheduleEventModel.cs:211-216 | "true"/"false" in any case show as "Turn On"/"Turn Off"; any other payload shows verbatim. |
| Actions.ActionData | Source/Models/ScheduleEventModel.cs:219-224 | Only the exact labels "Turn On"/"Turn Off" are stored as "true"/"false"; any other text is stored verbatim. |
| Actions.LabelRoundTrip | Source/Models/ScheduleEventModel.cs:209-230 | Storing an action label and showing the payload gives the label back. |
| Actions.DataRoundTrip | Source/Models/ScheduleEventModel.cs:209-230 | Showing a "true"/"false" payload and storing the label gives the payload in lower case. |
| Actions.OtherDataRoundTrip | Source/Models/ScheduleEventModel.cs:209-230 | Any other payload survives show-then-store, unless it is spelled exactly like a label. |
| EventModels.Wrap | Source/Models/ScheduleEventModel.cs:23-28 | A new overlay is clean, stages nothing, and its type name is the event's own; that name parses back to the event's variant. |
| EventModels.OffsetMinutes | Source/Models/ScheduleEventModel.cs:237-250 | Without a staged value the offset size is never negative. |
| EventModels.TickedAmong | Source/Models/ScheduleEventModel.cs:121-137 | The selected days are exactly the listed days whose checkbox is ticked. |
| EventModels.CreateUpdatedEvent | Source/Models/ScheduleEventModel.cs:52-95 | For a known type name the result has that variant, the new object, the payload (null becomes "true"), the disabled flag and a day list where the variant has one. For an unknown name it is the wrapped event itself. |
| EventModels.Apply | Source/Models/ScheduleEventModel.cs:163-340 | A setter that raises `Changed` leaves the overlay dirty. One that raises nothing changes nothing. No setter changes the wrapped event's identity or variant. |
| EventModels.MarkClean | Source/Models/ScheduleEventModel.cs:43-47 | Only the dirty flag is cleared; everything staged stays. |
| EventModelProps.ChangedIffEffective | Source/Models/ScheduleEventModel.cs:32-41 | A write raises `Changed` iff it takes effect. An effective write leaves the overlay dirty. An ignored one changes nothing. `IsDirty = false` equals MarkClean. |
| EventModelProps.WriteThrough | Source/Models/ScheduleEventModel.cs:183-204 | Only the Data, IsDisabled and ActionText writes touch the wrapped event, each only its own field. |
| EventModelProps.ReadBack | Source/Models/ScheduleEventModel.cs:163-340 | Every property reads back the value its setter was given; a null EventTime changes nothing. |
| EventModelProps.ActionTextReadsBack | Source/Models/ScheduleEventModel.cs:209-230 | Writing an action label to ActionText reads back that label. |
| EventModelProps.ToggleTouchesOneDay | Source/Models/ScheduleEventModel.cs:485-498 | Toggling one day leaves every other day's checkbox unchanged. |
| EventModelProps.SameTypeIsIgnored | Source/Models/ScheduleEventModel.cs:166-170 | Writing the current type name raises nothing and changes nothing. |
| EventModelProps.EditorFlagsFollowType | Source/Models/ScheduleEventModel.cs:345-360 | The checkbox, time-picker and offset-editor flags hold exactly for the types that carry days, a clock time or an offset. Time picker and offset editor never show together. |
| EventModelProps.UntoggledDayReadsOriginal | Source/Models/ScheduleEventModel.cs:469-483 | After any run of writes on a fresh overlay, an untoggled day reads as whether the original event carries it. |
| EventModelProps.UntoggledDayKeeps | Source/Models/ScheduleEventModel.cs:469-498 | Writes that do not toggle a day leave that day's checkbox and the event's day list as they were. |
| EventModelProps.RunNotifications | Source/Models/ScheduleEventModel.cs:32-41 | A run of writes raises at most one `Changed` per write. If it raises any, the overlay ends dirty; if none, the overlay is unchanged. |
| EventModelProps.FreshOverlay | Source/Models/ScheduleEventModel.cs:23-28 | A new overlay is clean, has the event's type, selects no days, and each checkbox reads the event's days. |
| EventModelProps.UntouchedClockEvent | Source/Models/ScheduleEventModel.cs:52-113 | Reconciling an untouched Daily or Weekday event keeps the variant, payload (null becomes "true"), flag, time of day and day list. The date becomes 1989-06-03, and a missing Weekday list becomes [Monday]. |
| EventModelProps.ReconciledClockTime | Source/Models/ScheduleEventModel.cs:97-113 | A staged time lands on the base date. Without one, a clock event's own time is used, re-based. A sun event turned into a clock event falls on today's noon. |
| EventModelProps.ReconciledOffset | Source/Models/ScheduleEventModel.cs:115-119 | A sun result's offset is the effective minutes, negated exactly when the effective direction is "before". |
| EventModelProps.UntouchedSunEvent | Source/Models/ScheduleEventModel.cs:237-285 | An untouched sun event keeps its variant, flag and days. Its offset is cut to whole minutes toward zero, so a whole-minute offset is unchanged. |
| EventModelProps.DirectionOnlyFlipsSign | Source/Models/ScheduleEventModel.cs:263-285 | Staging only the direction keeps the offset's size and sets its sign; choosing the other side flips it. |
| EventModelProps.FlipFifteenMinutesBefore | Source/Models/ScheduleEventModel.cs:115-119 | A sunrise 15 minutes before, switched to after, becomes 15 minutes after. |
| EventModelProps.TickedAmongKeepsOrder | Source/Models/ScheduleEventModel.cs:121-137 | The selected days keep Monday-to-Sunday order. |
| EventModelProps.ReconciledDaysAfterToggle | Source/Models/ScheduleEventModel.cs:121-140 | Once a day is toggled, the result lists exactly the ticked days, Monday to Sunday. An untoggled day is listed iff the original carries it. |
| EventModelProps.NothingTicked | Source/Models/ScheduleEventModel.cs:126-136 | With no checkbox ticked the selection is empty. |
| EventModelProps.AllDaysOffGivesEmpty | Source/Models/ScheduleEventModel.cs:136 | Toggling every day off gives an empty day list, not [Monday]. |
| EventModelProps.ReconciledDaysUntoggled | Source/Models/ScheduleEventModel.cs:58-88 | Without toggles the original list is kept; [Monday] is substituted only when there is none. |
| EventModelProps.MondayOnlyWhen | Source/Models/ScheduleEventModel.cs:58-88 | A result of [Monday] comes only from the default, from an original [Monday], or from toggles that leave only Monday ticked. |
| EventModelProps.DailyToWeekdayGetsMonday | Source/Models/ScheduleEventModel.cs:69-73 | A Daily event switched to Weekday gets [Monday]. |
| EventModelProps.MondayOffExample | Source/Models/ScheduleEventModel.cs:121-140 | Mon/Wed/Fri with Monday toggled off reconciles to [Wed, Fri]. |
| EventModelProps.TickedExactly | Source/Models/ScheduleEventModel.cs:121-137 | When exactly the days of an ordered list are ticked, that list is the selection. |
| EventModelProps.TypeChangeSelectsVariant | Source/Models/ScheduleEventModel.cs:60-91 | Choosing one of the four type names makes the result that variant. |
| EventModelProps.UnknownTypeKeepsEvent | Source/Models/ScheduleEventModel.cs:93 | Any other type name gives back the wrapped event, including the payload and flag written into it. |
| EventDisplay.FormatDaysOfWeek | Source/Models/ScheduleEventModel.cs:462-465 | A null, empty or seven-day list shows as "daily". |
| EventDisplay.FormatOffset | Source/Models/ScheduleEventModel.cs:456-460 | The text is "exactly" iff the offset is zero. |
| EventDisplay.DayNamesReadBack | Source/Models/ScheduleEventModel.cs:466 | A non-empty list's joined three-letter names read back as that list. |
| EventDisplay.FormatDaysReadsBack | Source/Models/ScheduleEventModel.cs:462-467 | The day text names the list iff it is present and neither empty nor of seven days. |
| EventDisplay.FormatOffsetReadsBack | Source/Models/ScheduleEventModel.cs:456-460 | A non-zero offset shows the hour and minute of its size and "before" for negative, "after" for positive. |
| EventDisplay.WeekdayNamesAllSevenDays | Source/Models/ScheduleEventModel.cs:435 | A Weekday event with seven days starts its text with their names, which read back as the list; the text never starts with "Daily". |
| EventDisplay.TimeDisplayReadsBack | Source/Models/ScheduleEventModel.cs:428-441 | Every list text reads back as its event's variant, hour and minute with the local text, Weekday day list (seven days included), and a sun event's side, offset and days, "daily" standing for none, empty or all seven. |
| EventDisplay.DaysPrefixReadsBack | Source/Models/ScheduleEventModel.cs:435 | The joined three-letter names at the head of a text read back as the list and end where the names end. |
| EventDisplay.SunRestReadsBack | Source/Models/ScheduleEventModel.cs:436-467 | The offset text, " on " and the day text of a sun event read back as the offset and the day list, or none for "daily". |
| ScheduleModels.Create | Source/Models/ScheduleModels.cs:17-23 | One overlay per event of the schedule, in order, each equal to the constructor's wrap of its event: clean, nothing staged, type name read from the event. |
| ScheduleModels.RefreshEvents | Source/Models/ScheduleModels.cs:55-64 | Rebuilding keeps the schedule and replaces every overlay with the constructor's wrap of its event, dropping staged edits. |
| ScheduleModels.EditEvent | Source/Models/ScheduleModels.cs:50-53 | The edited overlay becomes the overlay's own edit result, and the schedule keeps its ref and name. Every other overlay keeps everything but its event, and with distinct refs stays exactly as it was. An edit that raises `Changed` raises the schedule's `Events` change and leaves the overlay dirty; one that raises nothing changes nothing. The list stays mirrored and repeat-free. |
| ScheduleModels.AddEvent | Source/Models/ScheduleModels.cs:66-72 | The event is appended to the schedule, whose ref and name stay, and the constructor's wrap of it to the overlays. |
| ScheduleModels.RemoveRef | Source/Models/ScheduleModels.cs:76 | `List.Remove` drops the element at the object's first position, keeping the others in order; an absent object changes nothing. |
| ScheduleModels.RemoveRefKeepsDistinct | Source/Models/ScheduleModels.cs:76 | In a list without repeats, removal leaves no trace of the object. |
| ScheduleModels.RemoveModelOf | Source/Models/ScheduleModels.cs:77 | The overlay of the object's first occurrence leaves the overlay list, the others keep their order; with no such overlay nothing changes. |
| ScheduleModels.RemoveEvent | Source/Models/ScheduleModels.cs:74-78 | The event at its first position leaves the schedule, and the overlay at the same position leaves the overlays, the rest in order. An absent event leaves the schedule unchanged, and with the lists mirrored the whole model. |
| ScheduleModels.DirtyModels | Source/Models/ScheduleModels.cs:85 | The overlays chosen are dirty; there are none iff no overlay is dirty. |
| ScheduleModels.ApplyChanges | Source/Models/ScheduleModels.cs:83-105 | With nothing dirty the model is untouched. Otherwise the overlays are rebuilt from the new list as the constructor's wrap of each event. Either way nothing is dirty afterwards. |
| ScheduleModelProps.FreshIsCreated | Source/Models/ScheduleModels.cs:17-23 | A mirrored model whose overlays are all freshly built is exactly the model the constructor builds from its schedule. |
| ScheduleModelProps.CleanIsWithoutDirty | Source/Models/ScheduleModels.cs:85-95 | What the loop leaves of the old list is the clean overlays' events, in order. |
| ScheduleModelProps.ReplaceAllShape | Source/Models/ScheduleModels.cs:87-95 | The remove-then-append loop leaves the untouched events in order, followed by the new events in order. |
| ScheduleModelProps.ApplyChangesShape | Source/Models/ScheduleModels.cs:85-98 | The result is the clean events in order, then each dirty overlay's reconciled event in overlay order, with no repeated object. |
| ScheduleModelProps.ApplyChangesKeepsCount | Source/Models/ScheduleModels.cs:87-95 | ApplyChanges keeps the number of events and of overlays. |
| ScheduleModelProps.ApplyChangesTwice | Source/Models/ScheduleModels.cs:97-104 | A second ApplyChanges right after the first changes nothing. |
| ScheduleModelProps.AppliedEditReachesSchedule | Source/Models/ScheduleModels.cs:90-94 | Each dirty overlay's new event carries its payload, flag and type, under a new object, at its place after the clean events. |
| ScheduleModelProps.UpdatedEventAt | Source/Models/ScheduleModels.cs:90-94 | Behind the clean events, the k-th reconciled event carries the k-th dirty overlay's type, payload and flag under the k-th new object. |
| ScheduleModelProps.AddThenRemove | Source/Models/ScheduleModels.cs:66-78 | Removing a just-added new event restores the schedule model. |
| ScheduleModelProps.EditNotifiesSchedule | Source/Models/ScheduleModels.cs:45-53 | The schedule's `Events` change is raised iff the write takes effect, and then some overlay is dirty. |
| ScheduleModelProps.DataWriteReachesSchedule | Source/Models/ScheduleEventModel.cs:194-204 | A payload written through an overlay is in the schedule's event; no other event changes. |
| CollectionModels.RefreshSchedules | Source/Models/ScheduleCollectionModel.cs:96-104 | One model per schedule, in collection order, whose overlays are each the constructor's wrap of their event. |
| CollectionModels.New | Source/Models/ScheduleCollectionModel.cs:15-20 | The parameterless constructor gives an empty, coherent collection with the default timezone. |
| CollectionModels.FromCollection | Source/Models/ScheduleCollectionModel.cs:22-27 | The constructor mirrors the given collection with freshly built models (each overlay equal to the constructor's wrap of its event: clean, nothing staged, type name read from the event). |
| CollectionModels.SetCollection | Source/Models/ScheduleCollectionModel.cs:29-41 | Assigning a collection rebuilds the models from it (each overlay equal to the constructor's wrap of its event: clean, nothing staged, type name read from the event). |
| CollectionModels.RefreshAllEventDisplays | Source/Models/ScheduleCollectionModel.cs:106-112 | Every schedule model keeps its schedule and gets fresh overlays (each overlay equal to the constructor's wrap of its event: clean, nothing staged, type name read from the event). |
| CollectionModels.SetUtcOffsetHours | Source/Models/ScheduleCollectionModel.cs:65-74 | The offset is stored and every overlay is rebuilt as the constructor's wrap of its event; the schedules, the rest of the timezone and the file name are unchanged. |
| CollectionModels.RuleAfter | Source/Models/ScheduleCollectionModel.cs:79-88 | Setting on keeps an existing rule or creates the default one. Setting off removes the rule. |
| CollectionModels.SetHasDaylightSavingTime | Source/Models/ScheduleCollectionModel.cs:76-92 | The getter reads back the value set, the rule follows RuleAfter and the rest of the timezone stays, every overlay is rebuilt as the constructor's wrap of its event, and the schedules and file name are unchanged. |
| CollectionModels.AddSchedule | Source/Models/ScheduleCollectionModel.cs:114-119 | A new empty schedule with the name, a new object, is appended to both lists, keeping them mirrored; the timezone and file name stay. |
| CollectionModels.RemoveSchedule | Source/Models/ScheduleCollectionModel.cs:121-125 | The schedule at the object's first position leaves both lists, the rest in order; the timezone and file name stay; an absent schedule changes nothing. |
| CollectionModels.EditEventAt | Source/Models/ScheduleModels.cs:50-53 | Schedule model i becomes the edited model and the others stay; the timezone and file name stay; the schedule's change is raised iff the edit takes effect, and the collection stays coherent. |
| CollectionModels.ApplyFrom | Source/ViewModels/MainWindowViewModel.cs:356-360 | The loop applies ApplyChanges to every model from its position on, keeps the earlier ones, the timezone and the file name, and keeps the collection coherent. |
| CollectionModels.ApplyAllPendingChanges | Source/ViewModels/MainWindowViewModel.cs:354-361 | Every schedule model, not only the selected one, becomes its ApplyChanges result, and none is dirty; the timezone and file name stay. |
| CollectionProps.AddThenRemoveSchedule | Source/Models/ScheduleCollectionModel.cs:114-125 | Removing a just-added schedule gives back the collection model. |
| CollectionProps.ApplyFromClean | Source/ViewModels/MainWindowViewModel.cs:356-360 | With nothing dirty from a position on, the loop leaves a coherent collection alone. |
| CollectionProps.NothingPending | Source/Models/ScheduleModels.cs:101-104 | With nothing dirty, applying all pending changes changes nothing. |
| CollectionProps.ApplyAllTwice | Source/ViewModels/MainWindowViewModel.cs:354-361 | A second apply-all right after the first changes nothing. |
| CollectionProps.ApplyAllReachesCollection | Source/ViewModels/MainWindowViewModel.cs:357-360 | After apply-all the collection holds each model's applied schedule. |
| CollectionProps.DstToggleDropsEdits | Source/Models/ScheduleCollectionModel.cs:76-92 | After the daylight-saving toggle nothing is pending, so staged edits are lost. |
| CollectionProps.UtcOffsetDropsEdits | Source/Models/ScheduleCollectionModel.cs:65-74 | After a UTC-offset change nothing is pending either. |
| CollectionProps.DstSetterRules | Source/Models/ScheduleCollectionModel.cs:79-88 | Setting the same value twice changes nothing more. On keeps an existing rule. Off then on yields the default rule. |
| Converters.ToText | Source/Converters/CommonConverters.cs:64 | `value?.ToString()` is null exactly for null. |
| Converters.NullTestsAndNot | Source/Converters/CommonConverters.cs:11-17 | IsNull and IsNotNull are complements, IsNull agrees with a null ToString, and Not is an involution with no fixed point. |
| Converters.And | Source/Converters/CommonConverters.cs:23-26 | A null list gives false; otherwise true iff every element is boolean true. |
| Converters.AllTrue | Source/Converters/CommonConverters.cs:25 | The element-by-element walk holds iff every element is boolean true. |
| Converters.AndOfJoin | Source/Converters/CommonConverters.cs:23-26 | The conjunction of a joined list is the conjunction of its parts; the empty list gives true. |
| Converters.InvertBool | Source/Converters/CommonConverters.cs:36-48 | A boolean is negated; anything else gives false. |
| Converters.InvertBoolTwice | Source/Converters/CommonConverters.cs:36-48 | Converting twice restores a boolean and turns anything else into true. |
| Converters.ActionConvert | Source/Converters/CommonConverters.cs:53-65 | "true"/"false" in any case become the labels, other strings pass through, other values are printed. |
| Converters.ActionConvertBack | Source/Converters/CommonConverters.cs:67-79 | Exactly "Turn On"/"Turn Off" become "true"/"false", other strings pass through, other values are printed. |
| Converters.ActionLabelRoundTrip | Source/Converters/CommonConverters.cs:53-79 | Convert after ConvertBack gives back an action label. |
| Converters.PayloadRoundTrip | Source/Converters/CommonConverters.cs:53-79 | ConvertBack after Convert gives a "true"/"false" payload in lower case and any other payload unchanged, unless it is spelled like a label. |
| Converters.BooleanIsNotAnAction | Source/Converters/CommonConverters.cs:64 | A boolean is printed as "True"/"False", never shown as an action. |
| Converters.Checkmark | Source/Converters/CommonConverters.cs:86-91 | The check mark appears iff the value is boolean true; otherwise null. |
| SerialPorts.LessEqTotal | Source/ViewModels/MainWindowViewModel.cs:373 | The name order is total. |
| SerialPorts.LessEqTransitive | Source/ViewModels/MainWindowViewModel.cs:373 | The name order is transitive. |
| SerialPorts.LessEqAntisymmetric | Source/ViewModels/MainWindowViewModel.cs:373 | The name order is antisymmetric. |
| SerialPorts.Insert | Source/ViewModels/MainWindowViewModel.cs:373 | Inserting adds exactly the one name: the result holds the old names plus it, with multiplicity. |
| SerialPorts.InsertSorted | Source/ViewModels/MainWindowViewModel.cs:373 | Inserting into an ordered list keeps it ordered. |
| SerialPorts.Sort | Source/ViewModels/MainWindowViewModel.cs:373 | `OrderBy(p => p)` gives an ordered permutation of the names, duplicates kept. |
| SerialPorts.SortedUnique | Source/ViewModels/MainWindowViewModel.cs:373 | Only one ordered list holds given names, so the sort result is determined. |
| SerialPorts.RefreshPortList | Source/ViewModels/MainWindowViewModel.cs:371-389 | One entry per fetched name in ascending order, checked iff it equals the current choice. The choice is cleared iff it was non-empty and not fetched. |
| SerialPorts.FirstNamed | Source/ViewModels/MainWindowViewModel.cs:411 | `FirstOrDefault` finds the first entry with the name, or none exists. |
| SerialPorts.SelectSerialPort | Source/ViewModels/MainWindowViewModel.cs:402-420 | Only the first entry with the name is checked and becomes the choice. With no such entry, nothing is checked and the choice stays. |
| SerialPorts.SelectionIsSingle | Source/ViewModels/MainWindowViewModel.cs:405-416 | After a selection at most one entry is checked, under the chosen name. |
| SerialPorts.SelectTwice | Source/ViewModels/MainWindowViewModel.cs:402-420 | Selecting the same port twice is selecting it once. |
| SerialPorts.RefreshKeepsSelection | Source/ViewModels/MainWindowViewModel.cs:371-416 | A choice made from the list survives a rebuild with the same names, and every entry with that name is checked. |
| MainView.SaveChanges | Source/ViewModels/MainWindowViewModel.cs:344-352 | The collection becomes its apply-all result, so every schedule model applies its changes and the timezone and file name stay; nothing is unsaved, the file is marked modified and the selections stay. |
| MainView.SaveTwice | Source/ViewModels/MainWindowViewModel.cs:344-361 | A second save right after the first changes nothing. |
| MainView.RemoveSchedule | Source/ViewModels/MainWindowViewModel.cs:298-307 | With a selection, the window's collection is exactly the collection model's removal of it: the schedule at its first position leaves both lists, the rest in order, the timezone and file name stay, the selection is cleared and the file marked modified. Without one, nothing changes. |
| MainView.RemoveEvent | Source/ViewModels/MainWindowViewModel.cs:325-334 | With both selections, the selected schedule loses the event and its overlay by `List.Remove`, every other schedule and the timezone stay, the event selection is cleared and the file marked modified. Otherwise nothing changes. |
| MainView.EditSelectedEvent | Source/ViewModels/MainWindowViewModel.cs:570-576 | An edit of the selected event changes only its schedule model, as EditEvent does, and sets the unsaved flag iff it takes effect (or it was set); the file flag, selections, timezone and file name stay. |
| MainView.IneffectiveEditKeepsWindow | Source/ViewModels/MainWindowViewModel.cs:570-576 | An edit that takes no effect leaves the whole window as it was. |
| MainView.SetDaylightSaving | Source/ViewModels/MainWindowViewModel.cs:564-568 | The collection becomes the setter's result (rule by RuleAfter, every overlay rebuilt), the toggle reads back, schedules, file name and selections stay, and the file is marked modified. |
| MainView.SetUtcOffset | Source/ViewModels/MainWindowViewModel.cs:564-568 | The collection becomes the setter's result (offset stored, every overlay rebuilt); schedules, file name and selections stay, and the file is marked modified. |
| MainView.SaveAfterDaylightSaving | Source/Models/ScheduleCollectionModel.cs:76-92 | A save right after the daylight-saving toggle changes no schedule, since the toggle's rebuild dropped every staged edit. |
| MainView.SaveAfterUtcOffset | Source/Models/ScheduleCollectionModel.cs:65-74 | A save right after a UTC-offset change changes no schedule either. |

## Left out

- File, JSON and device I/O (`OpenFile`, `SaveFile`, `SaveAsFile`, `LoadFromDevice`, `SaveToDevice`, `ScheduleCollection.LoadFrom`): foreign libraries and I/O.
- The asynchronous fetch of port names in `RefreshSerialPorts`: device I/O. The rebuild takes the fetched names as input. The error branch that reports an empty list is not modelled.
- `FormatLocalTime` and the timezone library's conversion and daylight-saving queries: a foreign library and floating-point formatting. `TimeDisplay` takes the local-time text as a function, and `UtcOffsetHours` is carried as an opaque `real`.
- `DateTime.UtcNow` in `GetEventDateTime`: a clock. Noon of the current UTC day is a parameter, and one value serves a whole ApplyChanges.
- `DateTimeOffset` offsets and the implicit `DateTime` to `DateTimeOffset` conversion: the model works on UTC ticks only.
- Property-change notifications, ReactiveUI commands, `WindowTitle`, `StatusMessage`, the menu-building view code and the `SerialPortsUpdated` event: UI plumbing. Modelled as flags are the `Changed` → `Events` forwarding and the two window handlers that react to it and to the timezone setters.
- The `TimezoneName`, `FileName` and `Name` setters and `AddEvent`/`AddSchedule` of the window: plain stores, or dialog stubs that pick a default name or time.
- `OnScheduleCollectionPropertyChanged` for the `TimezoneName` and `FileName` setters: these are plain stores in the model, so the file flag they set is not modelled for them. For the two timezone setters it is modelled by `SetDaylightSaving` and `SetUtcOffset`.
- Stale model objects: a schedule or event model is found by the object it wraps. A removal that names an overlay or schedule model removes the current one for that object, not a detached copy. Likewise `EditSelectedEvent` stages an edit on the current overlay of the selected event's object. In the code, a save or a timezone change rebuilds the overlays and leaves the window's selected overlay detached, so an edit staged on it afterwards would be lost at the next save; the model does not show that loss.
- Text.ToLower: folds ASCII letters only, not the culture-sensitive lower-casing of .NET.
- SerialPorts.Sort: uses ordinal character order, not the culture-sensitive comparer of `OrderBy`.
- EventModels.OffsetMinutes: unbounded integers; the 32-bit overflow of `int` and `Math.Abs(int.MinValue)` is not modelled.
- EventDisplay.FormatOffset: negates every negative offset; `TimeSpan.Negate` throws for `TimeSpan.MinValue`, and that exception is not modelled.
- Calendar.TruncatedMinutes: the `double` `TotalMinutes` is computed exactly, without rounding.

=== FILE: actions.dfy ===
/**
 * The convention for an event's payload: "true" and "false" (in any case)
 * switch the output on or off and are shown as the actions "Turn On" and
 * "Turn Off"; any other payload is shown and stored verbatim. Both the
 * event model's ActionText and BooleanToActionConverter apply it.
 */
module Actions {
  import opened Text

  const TurnOn: string := "Turn On"
  const TurnOff: string := "Turn Off"

  /** The action shown for a payload. */
  function ActionLabel(data: string): (r: string)
    ensures ToLower(data) == "true" ==> r == TurnOn
    ensures ToLower(data) == "false" ==> r == TurnOff
    ensures ToLower(data) != "true" && ToLower(data) != "false" ==> r == data
  {
    var lower := ToLower(data);
    if lower == "true" then TurnOn
    else if lower == "false" then TurnOff
    else data
  }

  /** The payload stored for an action: only the two exact labels are translated. */
  function ActionData(action: string): (r: string)
    ensures action == TurnOn ==> r == "true"
    ensures action == TurnOff ==> r == "false"
    ensures action != TurnOn && action != TurnOff ==> r == action
  {
    if action == TurnOn then "true"
    else if action == TurnOff then "false"
    else action
  }

  /** Storing an action label and showing it again gives the same label. */
  lemma LabelRoundTrip(action: string)
    requires action == TurnOn || action == TurnOff
    ensures ActionLabel(ActionData(action)) == action
  {
    ToLowerOfLower("true");
    ToLowerOfLower("false");
  }

  /** Showing a "true"/"false" payload and storing the action gives the payload in lower case. */
  lemma DataRoundTrip(data: string)
    requires ToLower(data) == "true" || ToLower(data) == "false"
    ensures ActionData(ActionLabel(data)) == ToLower(data)
  {
  }

  /**
   * Every other payload comes back unchanged, except one spelled exactly
   * like an action label, which comes back as "true" or "false".
   */
  lemma OtherDataRoundTrip(data: string)
    requires ToLower(data) != "true" && ToLower(data) != "false"
    ensures data != TurnOn && data != TurnOff ==> ActionData(ActionLabel(data)) == data
    ensures data == TurnOn ==> ActionData(ActionLabel(data)) == "true"
  {
  }
}

=== FILE: calendar.dfy ===
/**
 * Days of the week, .NET time quantities and the "HH:mm" clock text the
 * editor prints. Time is counted in .NET ticks (100 ns); a DateTime is the
 * tick count of its clock reading, a TimeSpan a signed tick count.
 */
module Calendar {
  import opened Wrappers

  /** System.DayOfWeek, in declaration order (Sunday is 0). */
  datatype Day = Sunday | Monday | Tuesday | Wednesday | Thursday | Friday | Saturday

  /** The order in which the editor shows its checkboxes and builds day lists. */
  const MondayFirst: seq<Day> := [Monday, Tuesday, Wednesday, Thursday, Friday, Saturday, Sunday]

  /** Position of a day in `MondayFirst`. */
  function Rank(d: Day): (k: nat)
    ensures k < 7 && MondayFirst[k] == d
  {
    match d
    case Monday => 0
    case Tuesday => 1
    case Wednesday => 2
    case Thursday => 3
    case Friday => 4
    case Saturday => 5
    case Sunday => 6
  }

  /** `DayOfWeek.ToString()`. */
  function DayName(d: Day): string {
    match d
    case Sunday => "Sunday"
    case Monday => "Monday"
    case Tuesday => "Tuesday"
    case Wednesday => "Wednesday"
    case Thursday => "Thursday"
    case Friday => "Friday"
    case Saturday => "Saturday"
  }

  /** `d.ToString().Substring(0, 3)`: the three-letter name used in day lists. */
  function Abbrev(d: Day): (r: string)
    ensures |r| == 3
  {
    DayName(d)[..3]
  }

  /** The day a three-letter name stands for, if any. */
  function DayFromAbbrev(s: string): (r: Option<Day>)
    ensures r.Some? ==> Abbrev(r.value) == s
  {
    if s == "Sun" then Some(Sunday)
    else if s == "Mon" then Some(Monday)
    else if s == "Tue" then Some(Tuesday)
    else if s == "Wed" then Some(Wednesday)
    else if s == "Thu" then Some(Thursday)
    else if s == "Fri" then Some(Friday)
    else if s == "Sat" then Some(Saturday)
    else None
  }

  /** The three-letter names are distinct, so a name determines its day. */
  lemma AbbrevReadsBack(d: Day)
    ensures DayFromAbbrev(Abbrev(d)) == Some(d)
  {
    match d
    case Sunday => assert Abbrev(d) == "Sun";
    case Monday => assert Abbrev(d) == "Mon";
    case Tuesday => assert Abbrev(d) == "Tue";
    case Wednesday => assert Abbrev(d) == "Wed";
    case Thursday => assert Abbrev(d) == "Thu";
    case Friday => assert Abbrev(d) == "Fri";
    case Saturday => assert Abbrev(d) == "Sat";
  }

  const TicksPerMinute: int := 600_000_000
  const TicksPerHour: int := 60 * TicksPerMinute
  const TicksPerDay: int := 24 * TicksPerHour

  /** System.TimeSpan: a signed duration in ticks. */
  datatype TimeSpan = TimeSpan(ticks: int)

  /** A clock reading (the tick count of a DateTime or of a DateTimeOffset's clock time). */
  datatype DateTime = DateTime(ticks: int)

  /** `TimeSpan.FromMinutes(m)` for a whole number of minutes. */
  function FromMinutes(m: int): (s: TimeSpan)
    ensures s.ticks / TicksPerMinute == m && s.ticks % TicksPerMinute == 0
  {
    TimeSpan(m * TicksPerMinute)
  }

  function Abs(x: int): (r: nat)
    ensures r == x || r == -x
  {
    if x < 0 then -x else x
  }

  /** `(int)span.TotalMinutes`: whole minutes, the fraction dropped toward zero. */
  function TruncatedMinutes(s: TimeSpan): (m: int)
    ensures Abs(m) == Abs(s.ticks) / TicksPerMinute
    ensures s.ticks < 0 ==> m <= 0
    ensures s.ticks >= 0 ==> m >= 0
  {
    if s.ticks < 0 then -((-s.ticks) / TicksPerMinute) else s.ticks / TicksPerMinute
  }

  /** `DateTime.TimeOfDay`: the part of the reading past midnight. */
  function TimeOfDay(t: DateTime): (s: TimeSpan)
    ensures 0 <= s.ticks < TicksPerDay
    ensures (t.ticks - s.ticks) % TicksPerDay == 0
  {
    TimeSpan(t.ticks % TicksPerDay)
  }

  /** `DateTime.Date`: the reading truncated to midnight. */
  function DateOf(t: DateTime): (d: DateTime)
    ensures d.ticks % TicksPerDay == 0
    ensures d.ticks + TimeOfDay(t).ticks == t.ticks
  {
    DateTime(t.ticks - t.ticks % TicksPerDay)
  }

  /** Days from 0001-01-01 to 1989-06-03. */
  const BaseDateDays: nat := 726255

  /** `new DateTime(1989, 6, 3)`: the fixed date every edited clock time is placed on. */
  const BaseDate: DateTime := DateTime(BaseDateDays * TicksPerDay)

  /** `baseDate.Date.Add(span)`. */
  function OnBaseDate(s: TimeSpan): DateTime {
    DateTime(BaseDate.ticks + s.ticks)
  }

  /** A time of day placed on the base date reads back as the same time of day on the base date. */
  lemma OnBaseDateKeepsTimeOfDay(s: TimeSpan)
    requires 0 <= s.ticks < TicksPerDay
    ensures TimeOfDay(OnBaseDate(s)) == s
    ensures DateOf(OnBaseDate(s)) == BaseDate
  {
    var t := OnBaseDate(s).ticks;
    assert t == BaseDateDays * TicksPerDay + s.ticks;
    ModOfMultiplePlus(BaseDateDays, TicksPerDay, s.ticks);
  }

  /** Euclidean remainder is unique: `q * d + x` leaves `x` when `0 <= x < d`. */
  lemma ModOfMultiplePlus(q: int, d: int, x: int)
    requires d > 0 && 0 <= x < d
    ensures (q * d + x) % d == x
  {
    var a := q * d + x;
    var z := q - a / d;
    assert d * z == a % d - x by {
      assert a == d * (a / d) + a % d;
      assert d * z == d * q - d * (a / d);
    }
    MultipleOutsideUnit(d, z);
  }

  lemma MultipleOutsideUnit(d: int, z: int)
    requires d > 0
    ensures z >= 1 ==> d * z >= d
    ensures z <= -1 ==> d * z <= -d
  {
    if z >= 1 {
      assert d * z == d + d * (z - 1);
    } else if z <= -1 {
      assert d * z == -d + d * (z + 1);
    }
  }

  /** Hour component of a clock reading or duration ("HH" / "hh"). */
  function HourOf(ticks: int): (h: int)
    ensures 0 <= h < 24
  {
    (ticks / TicksPerHour) % 24
  }

  /** Minute component of a clock reading or duration ("mm"). */
  function MinuteOf(ticks: int): (m: int)
    ensures 0 <= m < 60
  {
    (ticks / TicksPerMinute) % 60
  }

  function Digit(n: nat): (c: char)
    requires n < 10
    ensures '0' <= c <= '9' && (c as int) - ('0' as int) == n
  {
    (('0' as int) + n) as char
  }

  /** A number below 100 as two digits with a leading zero. */
  function TwoDigits(n: nat): (r: string)
    requires n < 100
    ensures |r| == 2
  {
    [Digit(n / 10), Digit(n % 10)]
  }

  /** The "HH:mm" (or, for a duration, "hh\:mm") rendering of a tick count. */
  function ClockText(ticks: int): (r: string)
    ensures |r| == 5 && r[2] == ':'
  {
    TwoDigits(HourOf(ticks)) + ":" + TwoDigits(MinuteOf(ticks))
  }

  predicate IsDigit(c: char) {
    '0' <= c <= '9'
  }

  function DigitValue(c: char): int {
    (c as int) - ('0' as int)
  }

  /** Reads "hh:mm" back as (hours, minutes). */
  function ReadClock(s: string): Option<(int, int)> {
    if |s| == 5 && s[2] == ':' && IsDigit(s[0]) && IsDigit(s[1]) && IsDigit(s[3]) && IsDigit(s[4]) then
      Some((10 * DigitValue(s[0]) + DigitValue(s[1]), 10 * DigitValue(s[3]) + DigitValue(s[4])))
    else
      None
  }

  /** The clock text names exactly the hour and minute components of its input. */
  lemma ClockTextReadsBack(ticks: int)
    ensures ReadClock(ClockText(ticks)) == Some((HourOf(ticks), MinuteOf(ticks)))
  {
    var h, m := HourOf(ticks), MinuteOf(ticks);
    var s := ClockText(ticks);
    assert s[0] == Digit(h / 10) && s[1] == Digit(h % 10);
    assert s[3] == Digit(m / 10) && s[4] == Digit(m % 10);
  }
}

=== FILE: collection_model.dfy ===
/**
 * ScheduleCollectionModel: the collection of schedules with its timezone,
 * and one ScheduleModel per schedule.
 *
 * In the source a ScheduleModel holds the very Schedule object the
 * collection holds, so a change made through the model is a change of the
 * collection. Here both lists hold values; an operation that changes a
 * schedule through its model writes the new value back to every entry of
 * the collection that is the same object (`WriteBack`).
 */
module CollectionModels {
  import opened Wrappers
  import opened Calendar
  import opened ScheduleEvents
  import opened EventModels
  import opened ScheduleModels
  import opened EventModelProps
  import opened ScheduleModelProps

  /** The timezone library's daylight-saving rule; only its presence is read here. */
  datatype DstRule = DefaultRule | Rule(id: nat)

  /** The collection's timezone. The UTC offset is carried, never computed with. */
  datatype Timezone = Timezone(name: string, utcOffsetHours: real, daylightSavingTime: Option<DstRule>)

  /** The library's ScheduleCollection: schedules in order and a timezone. */
  datatype ScheduleCollection = ScheduleCollection(schedules: seq<Schedule>, timezone: Timezone)

  datatype CollectionModel = CollectionModel(collection: ScheduleCollection, schedules: seq<ScheduleModel>, fileName: string)

  function SchedulesOf(sms: seq<ScheduleModel>): (ss: seq<Schedule>)
    ensures |ss| == |sms| && forall i :: 0 <= i < |sms| ==> ss[i] == sms[i].schedule
  {
    seq(|sms|, i requires 0 <= i < |sms| => sms[i].schedule)
  }

  predicate DistinctSchedules(ss: seq<Schedule>) {
    forall i, j :: 0 <= i < j < |ss| ==> ss[i].ref != ss[j].ref
  }

  /** One model per schedule, in collection order. */
  predicate Mirrors(cm: CollectionModel) {
    SchedulesOf(cm.schedules) == cm.collection.schedules
  }

  /** Mirrored, no schedule object twice, and every schedule model well formed. */
  predicate Coherent(cm: CollectionModel) {
    && Mirrors(cm)
    && DistinctSchedules(cm.collection.schedules)
    && forall i :: 0 <= i < |cm.schedules| ==> ScheduleModels.Wf(cm.schedules[i])
  }

  /** Every schedule model freshly built from its schedule. */
  predicate AllRebuilt(sms: seq<ScheduleModel>) {
    forall i :: 0 <= i < |sms| ==> ScheduleModels.Mirrors(sms[i]) && AllFresh(sms[i].events)
  }

  predicate EventsDistinct(ss: seq<Schedule>) {
    forall i :: 0 <= i < |ss| ==> DistinctRefs(ss[i].events)
  }

  /** RefreshSchedules: a new model for each schedule of the collection, in order. */
  function RefreshSchedules(cm: CollectionModel): (r: CollectionModel)
    ensures r.collection == cm.collection && r.fileName == cm.fileName
    ensures Mirrors(r) && AllRebuilt(r.schedules)
    ensures DistinctSchedules(cm.collection.schedules) && EventsDistinct(cm.collection.schedules) ==> Coherent(r)
  {
    var ss := cm.collection.schedules;
    var sms := seq(|ss|, i requires 0 <= i < |ss| => Create(ss[i]));
    assert SchedulesOf(sms) == ss;
    cm.(schedules := sms)
  }

  /** The parameterless constructor: an empty collection with the library's default timezone. */
  function New(defaultTimezone: Timezone): (r: CollectionModel)
    ensures r.collection == ScheduleCollection([], defaultTimezone) && r.schedules == [] && r.fileName == ""
    ensures Coherent(r)
  {
    RefreshSchedules(CollectionModel(ScheduleCollection([], defaultTimezone), [], ""))
  }

  /** The constructor over an existing collection. */
  function FromCollection(c: ScheduleCollection): (r: CollectionModel)
    ensures r.collection == c && r.fileName == ""
    ensures Mirrors(r) && AllRebuilt(r.schedules)
  {
    RefreshSchedules(CollectionModel(c, [], ""))
  }

  /** The ScheduleCollection setter: the models are rebuilt from the new collection. */
  function SetCollection(cm: CollectionModel, c: ScheduleCollection): (r: CollectionModel)
    ensures r.collection == c && r.fileName == cm.fileName
    ensures Mirrors(r) && AllRebuilt(r.schedules)
  {
    RefreshSchedules(cm.(collection := c))
  }

  /** RefreshAllEventDisplays: every schedule model rebuilds its event overlays. */
  function RefreshAllEventDisplays(cm: CollectionModel): (r: CollectionModel)
    ensures r.collection == cm.collection && r.fileName == cm.fileName
    ensures |r.schedules| == |cm.schedules| && AllRebuilt(r.schedules)
    ensures forall i :: 0 <= i < |cm.schedules| ==> r.schedules[i].schedule == cm.schedules[i].schedule
    ensures Coherent(cm) ==> Coherent(r)
  {
    var sms := seq(|cm.schedules|, i requires 0 <= i < |cm.schedules| => RefreshEvents(cm.schedules[i]));
    assert SchedulesOf(sms) == SchedulesOf(cm.schedules);
    cm.(schedules := sms)
  }

  /** The UtcOffsetHours setter: stores the offset, then rebuilds every event overlay. */
  function SetUtcOffsetHours(cm: CollectionModel, hours: real): (r: CollectionModel)
    ensures r.collection == cm.collection.(timezone := cm.collection.timezone.(utcOffsetHours := hours))
    ensures r.fileName == cm.fileName
    ensures AllRebuilt(r.schedules) && SchedulesOf(r.schedules) == SchedulesOf(cm.schedules)
    ensures Coherent(cm) ==> Coherent(r)
  {
    RefreshAllEventDisplays(cm.(collection := cm.collection.(timezone := cm.collection.timezone.(utcOffsetHours := hours))))
  }

  /** The HasDaylightSavingTime getter. */
  predicate HasDaylightSavingTime(cm: CollectionModel) {
    cm.collection.timezone.daylightSavingTime.Some?
  }

  /** The daylight-saving rule after the setter: a default one only when turning on with none. */
  function RuleAfter(rule: Option<DstRule>, value: bool): (r: Option<DstRule>)
    ensures r.Some? <==> value
    ensures value && rule.Some? ==> r == rule
    ensures value && rule.None? ==> r == Some(DefaultRule)
  {
    if value && rule.None? then Some(DefaultRule)
    else if !value then None
    else rule
  }

  /** The HasDaylightSavingTime setter: updates the rule, then rebuilds every event overlay. */
  function SetHasDaylightSavingTime(cm: CollectionModel, value: bool): (r: CollectionModel)
    ensures HasDaylightSavingTime(r) == value
    ensures r.collection.timezone == cm.collection.timezone.(daylightSavingTime := RuleAfter(cm.collection.timezone.daylightSavingTime, value))
    ensures r.collection.schedules == cm.collection.schedules && r.fileName == cm.fileName
    ensures AllRebuilt(r.schedules) && SchedulesOf(r.schedules) == SchedulesOf(cm.schedules)
    ensures Coherent(cm) ==> Coherent(r)
  {
    var tz := cm.collection.timezone;
    RefreshAllEventDisplays(cm.(collection := cm.collection.(timezone := tz.(daylightSavingTime := RuleAfter(tz.daylightSavingTime, value)))))
  }

  /**
   * A schedule reference no schedule of the list uses: one above the largest.
   * Schedules and events draw their references apart, so this mirrors
   * `FreshRef` over schedules instead of events.
   */
  function FreshScheduleRef(ss: seq<Schedule>): (r: Ref)
    ensures forall i :: 0 <= i < |ss| ==> ss[i].ref < r
  {
    if |ss| == 0 then 0
    else
      var rest := FreshScheduleRef(ss[1..]);
      assert forall i :: 1 <= i < |ss| ==> ss[i].ref == ss[1..][i - 1].ref;
      if ss[0].ref < rest then rest else ss[0].ref + 1
  }

  /** AddSchedule: a new, empty schedule with the name joins the end of both lists. */
  function AddSchedule(cm: CollectionModel, name: string): (r: CollectionModel)
    ensures |r.schedules| == |cm.schedules| + 1 && r.schedules[..|cm.schedules|] == cm.schedules
    ensures var s := r.schedules[|cm.schedules|].schedule;
      s.name == name && s.events == [] && forall i :: 0 <= i < |cm.collection.schedules| ==> cm.collection.schedules[i].ref != s.ref
    ensures r.collection.schedules == cm.collection.schedules + [r.schedules[|cm.schedules|].schedule]
    ensures r.collection.timezone == cm.collection.timezone && r.fileName == cm.fileName
    ensures Mirrors(cm) ==> Mirrors(r)
    ensures Coherent(cm) ==> Coherent(r)
  {
    var s := Schedule(FreshScheduleRef(cm.collection.schedules), name, []);
    var sms := cm.schedules + [Create(s)];
    assert sms[..|cm.schedules|] == cm.schedules;
    assert Mirrors(cm) ==> SchedulesOf(sms) == cm.collection.schedules + [s];
    cm.(collection := cm.collection.(schedules := cm.collection.schedules + [s]), schedules := sms)
  }

  /** Position of the first schedule that is object `r`. */
  function IndexOfSchedule(ss: seq<Schedule>, r: Ref): (k: Option<nat>)
    ensures k.Some? ==> k.value < |ss| && ss[k.value].ref == r && forall j :: 0 <= j < k.value ==> ss[j].ref != r
    ensures k.None? ==> forall j :: 0 <= j < |ss| ==> ss[j].ref != r
  {
    if |ss| == 0 then None
    else if ss[0].ref == r then Some(0)
    else match IndexOfSchedule(ss[1..], r)
      case Some(k) => Some(k + 1)
      case None => None
  }

  /** The list without the first schedule that is object `r`, if any. */
  function DropSchedule(ss: seq<Schedule>, r: Ref): seq<Schedule> {
    match IndexOfSchedule(ss, r)
    case None => ss
    case Some(k) => DropAt(ss, k)
  }

  /** The model list without the first model wrapping schedule object `r`, if any. */
  function DropModel(sms: seq<ScheduleModel>, r: Ref): seq<ScheduleModel> {
    match IndexOfSchedule(SchedulesOf(sms), r)
    case None => sms
    case Some(k) => DropAt(sms, k)
  }

  /**
   * RemoveSchedule: the model's schedule object leaves the collection and
   * the model leaves the list; a model is found by the schedule it wraps.
   */
  function RemoveSchedule(cm: CollectionModel, sm: ScheduleModel): (r: CollectionModel)
    ensures Mirrors(cm) ==> Mirrors(r)
    ensures Coherent(cm) ==> Coherent(r)
    ensures Coherent(cm) ==> forall i :: 0 <= i < |r.collection.schedules| ==> r.collection.schedules[i].ref != sm.schedule.ref
    ensures r.collection.timezone == cm.collection.timezone && r.fileName == cm.fileName
    ensures match IndexOfSchedule(cm.collection.schedules, sm.schedule.ref)
      case None => r.collection == cm.collection && (Mirrors(cm) ==> r.schedules == cm.schedules)
      case Some(k) =>
        && r.collection.schedules == DropAt(cm.collection.schedules, k)
        && (Mirrors(cm) ==> r.schedules == DropAt(cm.schedules, k))
  {
    RemoveKeepsMirrors(cm, sm.schedule.ref);
    RemoveKeepsCoherent(cm, sm.schedule.ref);
    cm.(collection := cm.collection.(schedules := DropSchedule(cm.collection.schedules, sm.schedule.ref)),
        schedules := DropModel(cm.schedules, sm.schedule.ref))
  }

  lemma DropAtMirrors(sms: seq<ScheduleModel>, k: nat)
    requires k < |sms|
    ensures SchedulesOf(DropAt(sms, k)) == DropAt(SchedulesOf(sms), k)
  {
  }

  lemma RemoveKeepsMirrors(cm: CollectionModel, r: Ref)
    ensures Mirrors(cm) ==> SchedulesOf(DropModel(cm.schedules, r)) == DropSchedule(cm.collection.schedules, r)
  {
    if Mirrors(cm) {
      match IndexOfSchedule(cm.collection.schedules, r)
      case None =>
      case Some(k) => DropAtMirrors(cm.schedules, k);
    }
  }

  /** Dropping entry `k` of a list without repeats leaves no repeats and no trace of that object. */
  lemma DropAtDistinct(ss: seq<Schedule>, k: nat)
    requires DistinctSchedules(ss) && k < |ss|
    ensures DistinctSchedules(DropAt(ss, k))
    ensures forall i :: 0 <= i < |DropAt(ss, k)| ==> DropAt(ss, k)[i].ref != ss[k].ref
  {
  }

  lemma RemoveKeepsCoherent(cm: CollectionModel, r: Ref)
    ensures Coherent(cm) ==> var ss' := DropSchedule(cm.collection.schedules, r);
      var sms' := DropModel(cm.schedules, r);
      && DistinctSchedules(ss')
      && (forall i :: 0 <= i < |ss'| ==> ss'[i].ref != r)
      && (forall i :: 0 <= i < |sms'| ==> ScheduleModels.Wf(sms'[i]))
  {
    var ss := cm.collection.schedules;
    if Coherent(cm) {
      match IndexOfSchedule(ss, r)
      case None =>
      case Some(k) =>
        DropAtDistinct(ss, k);
        var sms' := DropAt(cm.schedules, k);
        forall i | 0 <= i < |sms'| ensures ScheduleModels.Wf(sms'[i]) {
          assert sms'[i] == cm.schedules[if i < k then i else i + 1];
        }
    }
  }

  /** A changed schedule value written to every entry that is the same object. */
  function WriteBack(ss: seq<Schedule>, s: Schedule): (r: seq<Schedule>)
    ensures |r| == |ss|
    ensures forall i :: 0 <= i < |ss| ==> r[i] == if ss[i].ref == s.ref then s else ss[i]
  {
    seq(|ss|, i requires 0 <= i < |ss| => if ss[i].ref == s.ref then s else ss[i])
  }

  /** The model list with model `i` replaced, its schedule written back to the collection. */
  function Replace(cm: CollectionModel, i: nat, sm: ScheduleModel): (r: CollectionModel)
    requires i < |cm.schedules|
    ensures |r.schedules| == |cm.schedules| && r.schedules[i] == sm
    ensures forall j :: 0 <= j < |cm.schedules| && j != i ==> r.schedules[j] == cm.schedules[j]
    ensures r.collection.timezone == cm.collection.timezone && r.fileName == cm.fileName
    ensures Coherent(cm) && sm.schedule.ref == cm.schedules[i].schedule.ref && ScheduleModels.Wf(sm) ==> Coherent(r)
  {
    var r := cm.(collection := cm.collection.(schedules := WriteBack(cm.collection.schedules, sm.schedule)),
                 schedules := cm.schedules[i := sm]);
    if Coherent(cm) && sm.schedule.ref == cm.schedules[i].schedule.ref then
      assert SchedulesOf(r.schedules) == r.collection.schedules by {
        forall j | 0 <= j < |r.schedules| ensures SchedulesOf(r.schedules)[j] == r.collection.schedules[j] {
          if j != i {
            assert cm.collection.schedules[j].ref != cm.collection.schedules[i].ref;
          }
        }
      }
      r
    else r
  }

  /** The collection after an edit, and whether the edit raised the schedule's `Events` change. */
  datatype CollectionEdited = CollectionEdited(model: CollectionModel, eventsChanged: bool)

  /** A property write on overlay `j` of schedule `i`. */
  function EditEventAt(cm: CollectionModel, i: nat, j: nat, edit: Edit): (r: CollectionEdited)
    requires i < |cm.schedules| && j < |cm.schedules[i].events|
    ensures |r.model.schedules| == |cm.schedules|
    ensures r.model.schedules[i] == EditEvent(cm.schedules[i], j, edit).model
    ensures forall k :: 0 <= k < |cm.schedules| && k != i ==> r.model.schedules[k] == cm.schedules[k]
    ensures r.model.collection.timezone == cm.collection.timezone && r.model.fileName == cm.fileName
    ensures r.eventsChanged <==> TakesEffect(cm.schedules[i].events[j], edit)
    ensures r.eventsChanged ==> AnyDirty(r.model.schedules[i].events)
    ensures Coherent(cm) ==> Coherent(r.model)
  {
    var e := EditEvent(cm.schedules[i], j, edit);
    EditNotifiesSchedule(cm.schedules[i], j, edit);
    assert e.eventsChanged ==> e.model.events[j].isDirty;
    CollectionEdited(Replace(cm, i, e.model), e.eventsChanged)
  }

  /** The loop of ApplyAllPendingChanges from model `i` on. */
  function ApplyFrom(cm: CollectionModel, i: nat, todayNoon: DateTime): (r: CollectionModel)
    requires i <= |cm.schedules|
    ensures |r.schedules| == |cm.schedules| && r.collection.timezone == cm.collection.timezone
    ensures r.fileName == cm.fileName
    ensures forall j :: 0 <= j < i ==> r.schedules[j] == cm.schedules[j]
    ensures forall j :: i <= j < |cm.schedules| ==> r.schedules[j] == ApplyChanges(cm.schedules[j], todayNoon)
    ensures Coherent(cm) ==> Coherent(r)
    decreases |cm.schedules| - i
  {
    if i == |cm.schedules| then cm
    else
      var sm := ApplyChanges(cm.schedules[i], todayNoon);
      var next := Replace(cm, i, sm);
      if Coherent(cm) then
        ApplyChangesShape(cm.schedules[i], todayNoon);
        ApplyFrom(next, i + 1, todayNoon)
      else ApplyFrom(next, i + 1, todayNoon)
  }

  /**
   * ApplyAllPendingChanges: ApplyChanges on every schedule model in turn,
   * not only the selected one.
   */
  function ApplyAllPendingChanges(cm: CollectionModel, todayNoon: DateTime): (r: CollectionModel)
    ensures |r.schedules| == |cm.schedules|
    ensures r.collection.timezone == cm.collection.timezone && r.fileName == cm.fileName
    ensures forall j :: 0 <= j < |cm.schedules| ==> r.schedules[j] == ApplyChanges(cm.schedules[j], todayNoon)
    ensures forall j :: 0 <= j < |r.schedules| ==> !AnyDirty(r.schedules[j].events)
    ensures Coherent(cm) ==> Coherent(r)
  {
    ApplyFrom(cm, 0, todayNoon)
  }
}

=== FILE: collection_props.dfy ===
/**
 * Properties of the collection model that relate several operations:
 * adding and removing a schedule, applying all pending changes twice, and
 * the timezone setters dropping staged edits.
 */
module CollectionProps {
  import opened Wrappers
  import opened Calendar
  import opened ScheduleEvents
  import opened EventModels
  import opened ScheduleModels
  import opened CollectionModels

  /** A schedule object appended behind objects all different from it is found at the end. */
  lemma {:induction false} IndexOfAppendedSchedule(ss: seq<Schedule>, s: Schedule)
    requires forall i :: 0 <= i < |ss| ==> ss[i].ref != s.ref
    ensures IndexOfSchedule(ss + [s], s.ref) == Some(|ss|)
  {
    if |ss| > 0 {
      assert (ss + [s])[1..] == ss[1..] + [s];
      IndexOfAppendedSchedule(ss[1..], s);
    }
  }

  /** Removing a schedule just added gives back the collection model it was added to. */
  lemma AddThenRemoveSchedule(cm: CollectionModel, name: string)
    requires CollectionModels.Mirrors(cm)
    ensures var added := AddSchedule(cm, name);
      RemoveSchedule(added, added.schedules[|cm.schedules|]) == cm
  {
    var added := AddSchedule(cm, name);
    var s := added.schedules[|cm.schedules|].schedule;
    var ss := cm.collection.schedules;
    IndexOfAppendedSchedule(ss, s);
    assert DropAt(ss + [s], |ss|) == ss;
    assert SchedulesOf(added.schedules) == ss + [s];
    assert DropAt(added.schedules, |ss|) == cm.schedules;
  }

  /** Writing a model's own schedule back into a coherent collection changes nothing. */
  lemma ReplaceWithItself(cm: CollectionModel, i: nat)
    requires Coherent(cm) && i < |cm.schedules|
    ensures Replace(cm, i, cm.schedules[i]) == cm
  {
    var ss := cm.collection.schedules;
    var s := cm.schedules[i].schedule;
    forall j | 0 <= j < |ss| ensures WriteBack(ss, s)[j] == ss[j] {
      assert ss[j] == SchedulesOf(cm.schedules)[j];
      assert ss[i] == s;
      if j < i {
        assert ss[j].ref != s.ref;
      } else if j > i {
        assert ss[i].ref != ss[j].ref;
      }
    }
    assert WriteBack(ss, s) == ss;
    assert cm.schedules[i := cm.schedules[i]] == cm.schedules;
  }

  /** With nothing dirty from model `i` on, the apply loop leaves a coherent collection alone. */
  lemma {:induction false} ApplyFromClean(cm: CollectionModel, i: nat, todayNoon: DateTime)
    requires Coherent(cm) && i <= |cm.schedules|
    requires forall j :: i <= j < |cm.schedules| ==> !AnyDirty(cm.schedules[j].events)
    ensures ApplyFrom(cm, i, todayNoon) == cm
    decreases |cm.schedules| - i
  {
    if i < |cm.schedules| {
      ReplaceWithItself(cm, i);
      ApplyFromClean(cm, i + 1, todayNoon);
    }
  }

  /** Applying all pending changes when nothing is pending changes nothing. */
  lemma NothingPending(cm: CollectionModel, todayNoon: DateTime)
    requires Coherent(cm)
    requires forall j :: 0 <= j < |cm.schedules| ==> !AnyDirty(cm.schedules[j].events)
    ensures ApplyAllPendingChanges(cm, todayNoon) == cm
  {
    ApplyFromClean(cm, 0, todayNoon);
  }

  /** A second ApplyAllPendingChanges right after the first has nothing left to do. */
  lemma ApplyAllTwice(cm: CollectionModel, noon1: DateTime, noon2: DateTime)
    requires Coherent(cm)
    ensures var once := ApplyAllPendingChanges(cm, noon1);
      ApplyAllPendingChanges(once, noon2) == once
  {
    NothingPending(ApplyAllPendingChanges(cm, noon1), noon2);
  }

  /** After ApplyAllPendingChanges the collection holds each model's applied schedule. */
  lemma ApplyAllReachesCollection(cm: CollectionModel, todayNoon: DateTime)
    requires Coherent(cm)
    ensures var r := ApplyAllPendingChanges(cm, todayNoon);
      && |r.collection.schedules| == |cm.collection.schedules|
      && forall j :: 0 <= j < |cm.schedules| ==>
           r.collection.schedules[j] == ApplyChanges(cm.schedules[j], todayNoon).schedule
  {
    var r := ApplyAllPendingChanges(cm, todayNoon);
    assert SchedulesOf(r.schedules) == r.collection.schedules;
  }

  /** Freshly rebuilt models have nothing pending. */
  lemma RebuiltIsClean(sms: seq<ScheduleModel>)
    requires AllRebuilt(sms)
    ensures forall j :: 0 <= j < |sms| ==> !AnyDirty(sms[j].events)
  {
    forall j | 0 <= j < |sms| ensures !AnyDirty(sms[j].events) {
      assert forall k :: 0 <= k < |sms[j].events| ==> !sms[j].events[k].isDirty;
    }
  }

  /**
   * Toggling daylight saving time drops every staged edit: saving right
   * afterwards changes nothing.
   */
  lemma DstToggleDropsEdits(cm: CollectionModel, value: bool, todayNoon: DateTime)
    requires Coherent(cm)
    ensures var r := SetHasDaylightSavingTime(cm, value);
      ApplyAllPendingChanges(r, todayNoon) == r
  {
    var r := SetHasDaylightSavingTime(cm, value);
    RebuiltIsClean(r.schedules);
    NothingPending(r, todayNoon);
  }

  /** Changing the UTC offset drops every staged edit the same way. */
  lemma UtcOffsetDropsEdits(cm: CollectionModel, hours: real, todayNoon: DateTime)
    requires Coherent(cm)
    ensures var r := SetUtcOffsetHours(cm, hours);
      ApplyAllPendingChanges(r, todayNoon) == r
  {
    var r := SetUtcOffsetHours(cm, hours);
    RebuiltIsClean(r.schedules);
    NothingPending(r, todayNoon);
  }

  /**
   * The daylight-saving setter: switching on keeps an existing rule, a
   * second identical write changes no rule, and off-then-on yields the
   * default rule whatever rule there was.
   */
  lemma DstSetterRules(cm: CollectionModel, value: bool)
    ensures var once := SetHasDaylightSavingTime(cm, value);
      SetHasDaylightSavingTime(once, value).collection == once.collection
    ensures HasDaylightSavingTime(cm) ==> SetHasDaylightSavingTime(cm, true).collection == cm.collection
    ensures SetHasDaylightSavingTime(SetHasDaylightSavingTime(cm, false), true).collection.timezone.daylightSavingTime == Some(DefaultRule)
  {
  }
}

=== FILE: converters.dfy ===
/**
 * The value converters the editor's views bind through. A bound value is
 * any .NET object or null; only strings and booleans are told apart.
 */
module Converters {
  import opened Wrappers
  import opened Text
  import opened Actions

  /** A bound value: null, a string, a boolean, or any other object with its ToString text. */
  datatype Obj = Null | Str(s: string) | Bool(b: bool) | Other(text: string)

  /** `value?.ToString()`: a boolean prints as "True" or "False". */
  function ToText(o: Obj): (r: Option<string>)
    ensures r.None? <==> o.Null?
  {
    match o
    case Null => None
    case Str(s) => Some(s)
    case Bool(b) => Some(if b then "True" else "False")
    case Other(t) => Some(t)
  }

  // ------------------------------------------------------------- ObjectConverters and BoolConverters

  /** ObjectConverters.IsNull. */
  predicate IsNull(o: Obj) {
    o.Null?
  }

  /** ObjectConverters.IsNotNull. */
  predicate IsNotNull(o: Obj) {
    !o.Null?
  }

  /** BoolConverters.Not. */
  function Not(x: bool): bool {
    !x
  }

  /** IsNull and IsNotNull are complements, and Not undoes itself. */
  lemma NullTestsAndNot(o: Obj, x: bool)
    ensures IsNull(o) != IsNotNull(o)
    ensures IsNull(o) <==> ToText(o).None?
    ensures Not(Not(x)) == x && Not(x) != x
  {
  }

  /**
   * BooleanAndConverter.Convert: true when there is a list and every
   * element is the boolean true; a missing list gives false.
   */
  function And(values: Option<seq<Obj>>): (r: bool)
    ensures values.None? ==> !r
    ensures values.Some? ==> (r <==> forall i :: 0 <= i < |values.value| ==> values.value[i] == Bool(true))
  {
    match values
    case None => false
    case Some(vs) => AllTrue(vs)
  }

  /** `All(v => v is bool b && b)`, element by element from the front. */
  function AllTrue(vs: seq<Obj>): (r: bool)
    ensures r <==> forall i :: 0 <= i < |vs| ==> vs[i] == Bool(true)
  {
    if |vs| == 0 then true
    else
      match vs[0]
      case Bool(b) => b && AllTrue(vs[1..])
      case _ => false
  }

  /** The conjunction of two joined lists is the conjunction of the two; the empty list is true. */
  lemma AndOfJoin(a: seq<Obj>, b: seq<Obj>)
    ensures And(Some(a + b)) == (And(Some(a)) && And(Some(b)))
    ensures And(Some([]))
  {
    if And(Some(a)) && And(Some(b)) {
      forall i | 0 <= i < |a + b| ensures (a + b)[i] == Bool(true) {
        if i < |a| { assert (a + b)[i] == a[i]; } else { assert (a + b)[i] == b[i - |a|]; }
      }
    }
    if And(Some(a + b)) {
      forall i | 0 <= i < |a| ensures a[i] == Bool(true) { assert (a + b)[i] == a[i]; }
      forall i | 0 <= i < |b| ensures b[i] == Bool(true) { assert (a + b)[|a| + i] == b[i]; }
    }
  }

  // ------------------------------------------------------------- InvertBoolConverter

  /** InvertBoolConverter.Convert and ConvertBack, which do the same: negate a boolean, false for anything else. */
  function InvertBool(o: Obj): (r: Obj)
    ensures r.Bool?
    ensures o.Bool? ==> r.b == !o.b
    ensures !o.Bool? ==> r == Bool(false)
  {
    match o
    case Bool(b) => Bool(!b)
    case _ => Bool(false)
  }

  /** On booleans the converter is its own inverse; anything else comes back as true after two passes. */
  lemma InvertBoolTwice(o: Obj)
    ensures o.Bool? ==> InvertBool(InvertBool(o)) == o
    ensures !o.Bool? ==> InvertBool(InvertBool(o)) == Bool(true)
  {
  }

  // ------------------------------------------------------------- BooleanToActionConverter

  /** BooleanToActionConverter.Convert: a payload string shown as its action; anything else printed. */
  function ActionConvert(o: Obj): (r: Option<string>)
    ensures o.Str? && ToLower(o.s) == "true" ==> r == Some(TurnOn)
    ensures o.Str? && ToLower(o.s) == "false" ==> r == Some(TurnOff)
    ensures o.Str? && ToLower(o.s) != "true" && ToLower(o.s) != "false" ==> r == Some(o.s)
    ensures !o.Str? ==> r == ToText(o)
  {
    match o
    case Str(s) => Some(ActionLabel(s))
    case _ => ToText(o)
  }

  /** BooleanToActionConverter.ConvertBack: an action label stored as its payload; anything else printed. */
  function ActionConvertBack(o: Obj): (r: Option<string>)
    ensures o == Str(TurnOn) ==> r == Some("true")
    ensures o == Str(TurnOff) ==> r == Some("false")
    ensures o.Str? && o.s != TurnOn && o.s != TurnOff ==> r == Some(o.s)
    ensures !o.Str? ==> r == ToText(o)
  {
    match o
    case Str(s) => Some(ActionData(s))
    case _ => ToText(o)
  }

  /** Storing an action label and showing the stored text gives the label back. */
  lemma ActionLabelRoundTrip(action: string)
    requires action == TurnOn || action == TurnOff
    ensures var stored := ActionConvertBack(Str(action));
      stored.Some? && ActionConvert(Str(stored.value)) == Some(action)
  {
    LabelRoundTrip(action);
  }

  /**
   * Showing a payload and storing the shown text gives the payload in
   * lower case for "true"/"false" in any case, and the payload itself for
   * any other text that is not spelled like an action label.
   */
  lemma PayloadRoundTrip(data: string)
    ensures var shown := ActionConvert(Str(data));
      && shown.Some?
      && (ToLower(data) == "true" || ToLower(data) == "false" ==>
            ActionConvertBack(Str(shown.value)) == Some(ToLower(data)))
      && (ToLower(data) != "true" && ToLower(data) != "false" && data != TurnOn && data != TurnOff ==>
            ActionConvertBack(Str(shown.value)) == Some(data))
  {
    if ToLower(data) == "true" || ToLower(data) == "false" {
      DataRoundTrip(data);
    } else {
      OtherDataRoundTrip(data);
    }
  }

  /** A boolean bound to the action converter shows as its printed form, not as an action. */
  lemma BooleanIsNotAnAction(b: bool)
    ensures ActionConvert(Bool(b)) == Some(if b then "True" else "False")
    ensures ActionConvert(Bool(b)) != Some(TurnOn) && ActionConvert(Bool(b)) != Some(TurnOff)
  {
  }

  // ------------------------------------------------------------- BoolToCheckmarkConverter

  /** BoolToCheckmarkConverter.Convert: a check mark for true, null otherwise. */
  function Checkmark(o: Obj): (r: Option<string>)
    ensures r.Some? <==> o == Bool(true)
    ensures r.Some? ==> r.value == "✓"
  {
    if o == Bool(true) then Some("✓") else None
  }
}

=== FILE: event_display.dfy ===
/**
 * The text an event shows in the schedule list (ScheduleEventModel.TimeDisplay
 * and its formatters). The local-time part of a clock event's text comes
 * from the timezone library and is passed in as a function.
 */
module EventDisplay {
  import opened Wrappers
  import opened Calendar
  import opened Text
  import opened ScheduleEvents

  /** The three-letter names of a day list joined with ", ". */
  function DayNames(ds: seq<Day>): string {
    Join(", ", AbbrevAll(ds))
  }

  function AbbrevAll(ds: seq<Day>): (r: seq<string>)
    ensures |r| == |ds| && forall i :: 0 <= i < |ds| ==> r[i] == Abbrev(ds[i])
  {
    if |ds| == 0 then [] else [Abbrev(ds[0])] + AbbrevAll(ds[1..])
  }

  /** A day list for a sun event: "daily" for no list, an empty one or all seven entries. */
  function FormatDaysOfWeek(days: Option<seq<Day>>): (r: string)
    ensures days.None? || |days.value| == 0 || |days.value| == 7 ==> r == "daily"
  {
    if days.None? || |days.value| == 0 then "daily"
    else if |days.value| == 7 then "daily"
    else DayNames(days.value)
  }

  /** A sun offset: "exactly", or its hours and minutes followed by "before" or "after". */
  function FormatOffset(offset: TimeSpan): (r: string)
    ensures r == "exactly" <==> offset.ticks == 0
  {
    if offset.ticks == 0 then "exactly"
    else if offset.ticks < 0 then ClockText(-offset.ticks) + " before"
    else ClockText(offset.ticks) + " after"
  }

  /** The list text of an event; `localTime` renders the local reading of a UTC clock time. */
  function TimeDisplay(e: ScheduleEvent, localTime: DateTime -> string): string {
    match e
    case Daily(_, t, _, _) =>
      "Daily at " + ClockText(t.ticks) + " (" + localTime(t) + ")"
    case Weekday(_, t, days, _, _) =>
      DayNames(days.GetOr([])) + " at " + ClockText(t.ticks) + " (" + localTime(t) + ")"
    case SunriseOffset(_, o, days, _, _) =>
      "Sunrise " + FormatOffset(o) + " on " + FormatDaysOfWeek(days)
    case SunsetOffset(_, o, days, _, _) =>
      "Sunset " + FormatOffset(o) + " on " + FormatDaysOfWeek(days)
  }

  // ------------------------------------------------------------- readers

  /** Reads a ", "-joined list of three-letter day names back. */
  function ReadDayNames(s: string): Option<seq<Day>>
    decreases |s|
  {
    if |s| == 3 then
      match DayFromAbbrev(s)
      case Some(d) => Some([d])
      case None => None
    else if |s| > 5 && s[3..5] == ", " then
      match (DayFromAbbrev(s[..3]), ReadDayNames(s[5..]))
      case (Some(d), Some(rest)) => Some([d] + rest)
      case _ => None
    else None
  }

  lemma {:induction false} DayNamesLength(ds: seq<Day>)
    requires |ds| > 0
    ensures |DayNames(ds)| == 5 * |ds| - 2
  {
    if |ds| > 1 {
      DayNamesLength(ds[1..]);
      assert AbbrevAll(ds)[1..] == AbbrevAll(ds[1..]);
    }
  }

  /** A non-empty day list's text reads back as the list. */
  lemma {:induction false} DayNamesReadBack(ds: seq<Day>)
    requires |ds| > 0
    ensures ReadDayNames(DayNames(ds)) == Some(ds)
  {
    AbbrevReadsBack(ds[0]);
    if |ds| == 1 {
      assert DayNames(ds) == Abbrev(ds[0]);
      assert [ds[0]] == ds;
    } else {
      var s := DayNames(ds);
      var tail := DayNames(ds[1..]);
      assert AbbrevAll(ds)[1..] == AbbrevAll(ds[1..]);
      assert s == Abbrev(ds[0]) + ", " + tail;
      DayNamesLength(ds[1..]);
      assert s[..3] == Abbrev(ds[0]);
      assert s[3..5] == ", ";
      assert s[5..] == tail;
      DayNamesReadBack(ds[1..]);
      assert [ds[0]] + ds[1..] == ds;
    }
  }

  /**
   * The day text of a sun event names its days exactly when there is a
   * list whose length is neither 0 nor 7; otherwise it is "daily", which
   * names no list.
   */
  lemma FormatDaysReadsBack(days: Option<seq<Day>>)
    ensures ReadDayNames(FormatDaysOfWeek(days)) ==
      if days.Some? && |days.value| > 0 && |days.value| != 7 then days else None
  {
    if days.Some? && |days.value| > 0 && |days.value| != 7 {
      DayNamesReadBack(days.value);
    } else {
      assert "daily"[3..5] == "ly";
    }
  }

  /** What an offset text says. */
  datatype OffsetReading = Exactly | Before(hours: int, minutes: int) | After(hours: int, minutes: int)

  /** Reads an offset text back. */
  function ReadOffset(s: string): Option<OffsetReading> {
    if s == "exactly" then Some(Exactly)
    else if |s| == 12 && s[5..] == " before" then
      match ReadClock(s[..5])
      case Some((h, m)) => Some(Before(h, m))
      case None => None
    else if |s| == 11 && s[5..] == " after" then
      match ReadClock(s[..5])
      case Some((h, m)) => Some(After(h, m))
      case None => None
    else None
  }

  /**
   * An offset text says "exactly" for zero, and otherwise the side of the
   * sun event and the hour (within the day) and minute of the offset's size.
   */
  lemma FormatOffsetReadsBack(offset: TimeSpan)
    ensures var size := Abs(offset.ticks);
      ReadOffset(FormatOffset(offset)) == Some(
        if offset.ticks == 0 then Exactly
        else if offset.ticks < 0 then Before(HourOf(size), MinuteOf(size))
        else After(HourOf(size), MinuteOf(size)))
  {
    var s := FormatOffset(offset);
    if offset.ticks < 0 {
      ClockTextReadsBack(-offset.ticks);
      assert s[..5] == ClockText(-offset.ticks);
      assert s[5..] == " before";
    } else if offset.ticks > 0 {
      ClockTextReadsBack(offset.ticks);
      assert s[..5] == ClockText(offset.ticks);
      assert s[5..] == " after";
    }
  }

  /** A day list's text starts with the first day's name. */
  lemma DayNamesStart(ds: seq<Day>)
    requires |ds| > 0
    ensures |DayNames(ds)| >= 3 && DayNames(ds)[..3] == Abbrev(ds[0])
  {
    DayNamesLength(ds);
    if |ds| > 1 {
      assert AbbrevAll(ds)[1..] == AbbrevAll(ds[1..]);
    }
  }

  /** A Weekday event's text: its day names, " at ", its clock time and the local reading. */
  lemma WeekdayText(e: ScheduleEvent, localTime: DateTime -> string)
    requires e.Weekday?
    ensures TimeDisplay(e, localTime) ==
      DayNames(e.daysOfWeek.GetOr([])) + (" at " + ClockText(e.eventTime.ticks) + " (" + localTime(e.eventTime) + ")")
  {
  }

  /**
   * A Weekday event names its days even when it carries seven: its text
   * starts with the list of names, which reads back as the list, and not
   * with "Daily".
   */
  lemma WeekdayNamesAllSevenDays(e: ScheduleEvent, localTime: DateTime -> string)
    requires e.Weekday? && e.daysOfWeek.Some? && |e.daysOfWeek.value| == 7
    ensures var t := TimeDisplay(e, localTime);
      var names := DayNames(e.daysOfWeek.value);
      && |t| >= |names| >= 3
      && t[..|names|] == names
      && ReadDayNames(names) == e.daysOfWeek
      && t[..3] == Abbrev(e.daysOfWeek.value[0]) != "Dai"
  {
    var ds := e.daysOfWeek.value;
    var names := DayNames(ds);
    var rest := " at " + ClockText(e.eventTime.ticks) + " (" + localTime(e.eventTime) + ")";
    WeekdayText(e, localTime);
    DayNamesReadBack(ds);
    DayNamesStart(ds);
    assert (names + rest)[..|names|] == names;
    assert (names + rest)[..3] == names[..3];
  }

  // ------------------------------------------------------------- reading a whole text back

  /** What a list text says: the variant, its clock time or offset, its days and the local-time part. */
  datatype DisplayReading =
    | DailyAt(hour: int, minute: int, local: string)
    | DaysAt(days: seq<Day>, hour: int, minute: int, local: string)
    | SunAt(sunrise: bool, offset: OffsetReading, sunDays: Option<seq<Day>>)

  /** The reading an offset text gives: "exactly", or the side and the size's hour and minute. */
  function OffsetReadingOf(offset: TimeSpan): OffsetReading {
    var size := Abs(offset.ticks);
    if offset.ticks == 0 then Exactly
    else if offset.ticks < 0 then Before(HourOf(size), MinuteOf(size))
    else After(HourOf(size), MinuteOf(size))
  }

  /**
   * What the text of an event should say about it: the clock time's hour
   * and minute and the local-time text for clock events (with the day list,
   * or none, for Weekday), and for sun events the side, the offset, and the
   * day list unless it shows as "daily".
   */
  function ExpectedReading(e: ScheduleEvent, localTime: DateTime -> string): DisplayReading {
    match e
    case Daily(_, t, _, _) => DailyAt(HourOf(t.ticks), MinuteOf(t.ticks), localTime(t))
    case Weekday(_, t, days, _, _) => DaysAt(days.GetOr([]), HourOf(t.ticks), MinuteOf(t.ticks), localTime(t))
    case SunriseOffset(_, o, days, _, _) =>
      SunAt(true, OffsetReadingOf(o), if days.Some? && |days.value| > 0 && |days.value| != 7 then days else None)
    case SunsetOffset(_, o, days, _, _) =>
      SunAt(false, OffsetReadingOf(o), if days.Some? && |days.value| > 0 && |days.value| != 7 then days else None)
  }

  /** Reads " at hh:mm (local)" back as the hour, the minute and the local text. */
  function ReadAtClock(s: string): Option<(int, int, string)> {
    if |s| >= 12 && s[..4] == " at " && s[9..11] == " (" && s[|s| - 1] == ')' then
      match ReadClock(s[4..9])
      case Some((h, m)) => Some((h, m, s[11..|s| - 1]))
      case None => None
    else None
  }

  /** Reads the day names at the start of a text; gives the days and how many characters they take. */
  function ReadDaysPrefix(s: string): Option<(seq<Day>, nat)>
    decreases |s|
  {
    if |s| < 3 then None
    else match DayFromAbbrev(s[..3])
      case None => None
      case Some(d) =>
        if |s| >= 5 && s[3..5] == ", " then
          match ReadDaysPrefix(s[5..])
          case Some((rest, n)) => Some(([d] + rest, n + 5))
          case None => None
        else Some(([d], 3))
  }

  /** The length of the offset text at the start of `s`, or 0 when none is there. */
  function OffsetTextLength(s: string): nat {
    if |s| >= 7 && s[..7] == "exactly" then 7
    else if |s| >= 12 && s[5..12] == " before" then 12
    else if |s| >= 11 && s[5..11] == " after" then 11
    else 0
  }

  /** Reads "<offset> on <days>" back; "daily" names no day list. */
  function ReadSunRest(s: string): Option<(OffsetReading, Option<seq<Day>>)> {
    var n := OffsetTextLength(s);
    if n == 0 || |s| < n + 4 || s[n..n + 4] != " on " then None
    else
      var days := s[n + 4..];
      match ReadOffset(s[..n])
      case None => None
      case Some(o) =>
        if days == "daily" || ReadDayNames(days).Some? then Some((o, ReadDayNames(days))) else None
  }

  /** Reads a whole list text back. */
  function ReadTimeDisplay(t: string): Option<DisplayReading> {
    if |t| >= 5 && t[..5] == "Daily" then
      match ReadAtClock(t[5..])
      case Some((h, m, l)) => Some(DailyAt(h, m, l))
      case None => None
    else if |t| >= 8 && t[..8] == "Sunrise " then
      match ReadSunRest(t[8..])
      case Some((o, ds)) => Some(SunAt(true, o, ds))
      case None => None
    else if |t| >= 7 && t[..7] == "Sunset " then
      match ReadSunRest(t[7..])
      case Some((o, ds)) => Some(SunAt(false, o, ds))
      case None => None
    else if |t| >= 4 && t[..4] == " at " then
      match ReadAtClock(t)
      case Some((h, m, l)) => Some(DaysAt([], h, m, l))
      case None => None
    else
      match ReadDaysPrefix(t)
      case None => None
      case Some((ds, n)) =>
        if n > |t| then None
        else match ReadAtClock(t[n..])
          case Some((h, m, l)) => Some(DaysAt(ds, h, m, l))
          case None => None
  }

  lemma AtClockReadsBack(ticks: int, local: string)
    ensures ReadAtClock(" at " + ClockText(ticks) + " (" + local + ")") == Some((HourOf(ticks), MinuteOf(ticks), local))
  {
    var s := " at " + ClockText(ticks) + " (" + local + ")";
    assert s[..4] == " at " && s[4..9] == ClockText(ticks) && s[9..11] == " (";
    assert s[11..|s| - 1] == local;
    ClockTextReadsBack(ticks);
  }

  /** Day names followed by text that does not go on with ", " read back as the list and its length. */
  lemma DaysPrefixReadsBack(ds: seq<Day>, tail: string)
    requires |ds| > 0 && (|tail| < 2 || tail[..2] != ", ")
    ensures ReadDaysPrefix(DayNames(ds) + tail) == Some((ds, |DayNames(ds)|))
  {
    var names := AbbrevAll(ds);
    forall i | 0 <= i < |ds| ensures |names[i]| == 3 && DayFromAbbrev(names[i]) == Some(ds[i]) {
      AbbrevReadsBack(ds[i]);
    }
    assert NamesDays(names, ds);
    JoinedNamesPrefix(names, ds, tail);
  }

  /** Each name is the three-letter name of the day at the same position. */
  predicate NamesDays(names: seq<string>, ds: seq<Day>) {
    |names| == |ds| && forall i :: 0 <= i < |ds| ==> |names[i]| == 3 && DayFromAbbrev(names[i]) == Some(ds[i])
  }

  lemma NamesDaysTail(names: seq<string>, ds: seq<Day>)
    requires NamesDays(names, ds) && |ds| > 0
    ensures NamesDays(names[1..], ds[1..]) && |names[0]| == 3 && DayFromAbbrev(names[0]) == Some(ds[0])
  {
    forall i | 0 <= i < |ds| - 1 ensures names[1..][i] == names[i + 1] && ds[1..][i] == ds[i + 1] { }
  }

  /** Three-letter names joined with ", " and followed by text that does not go on with ", " read back as their days. */
  lemma {:induction false} JoinedNamesPrefix(names: seq<string>, ds: seq<Day>, tail: string)
    requires NamesDays(names, ds) && |ds| > 0
    requires |tail| < 2 || tail[..2] != ", "
    ensures ReadDaysPrefix(Join(", ", names) + tail) == Some((ds, |Join(", ", names)|))
  {
    NamesDaysTail(names, ds);
    if |ds| == 1 {
      assert Join(", ", names) == names[0];
      OneDayPrefix(names[0], ds[0], tail);
      assert [ds[0]] == ds;
    } else {
      JoinedNamesPrefix(names[1..], ds[1..], tail);
      JoinedNamesCons(names, ds, tail);
    }
  }

  /** The step of the induction: one more name in front adds its day in front. */
  lemma JoinedNamesCons(names: seq<string>, ds: seq<Day>, tail: string)
    requires |names| == |ds| > 1 && |names[0]| == 3 && DayFromAbbrev(names[0]) == Some(ds[0])
    requires ReadDaysPrefix(Join(", ", names[1..]) + tail) == Some((ds[1..], |Join(", ", names[1..])|))
    ensures ReadDaysPrefix(Join(", ", names) + tail) == Some((ds, |Join(", ", names)|))
  {
    JoinCons(names, tail);
    ConsDayPrefix(names[0], ds[0], Join(", ", names[1..]) + tail, ds[1..], |Join(", ", names[1..])|);
    assert [ds[0]] + ds[1..] == ds;
  }

  /** Joining two or more three-letter names puts the first and ", " in front of the rest. */
  lemma JoinCons(names: seq<string>, tail: string)
    requires |names| > 1 && |names[0]| == 3
    ensures Join(", ", names) + tail == names[0] + ", " + (Join(", ", names[1..]) + tail)
    ensures |Join(", ", names)| == |Join(", ", names[1..])| + 5
  {
    var rest := Join(", ", names[1..]);
    assert Join(", ", names) == names[0] + ", " + rest;
    assert names[0] + ", " + rest + tail == names[0] + ", " + (rest + tail);
  }

  /** One name followed by text that does not go on with ", " is read as that day alone. */
  lemma OneDayPrefix(a: string, d: Day, tail: string)
    requires |a| == 3 && DayFromAbbrev(a) == Some(d)
    requires |tail| < 2 || tail[..2] != ", "
    ensures ReadDaysPrefix(a + tail) == Some(([d], 3))
  {
    var s := a + tail;
    assert s[..3] == a;
    if |s| >= 5 {
      assert s[3..5] == tail[..2];
    }
  }

  /** A name and ", " in front of a readable prefix add that day in front. */
  lemma ConsDayPrefix(a: string, d: Day, more: string, rest: seq<Day>, n: nat)
    requires |a| == 3 && DayFromAbbrev(a) == Some(d)
    requires ReadDaysPrefix(more) == Some((rest, n))
    ensures ReadDaysPrefix(a + ", " + more) == Some(([d] + rest, n + 5))
  {
    var s := a + ", " + more;
    assert s[..3] == a && s[3..5] == ", " && s[5..] == more;
  }

  /** An offset text followed by " on " is found to have its own length. */
  lemma OffsetTextLengthOf(o: TimeSpan, tail: string)
    requires |tail| >= 4 && tail[..4] == " on "
    ensures OffsetTextLength(FormatOffset(o) + tail) == |FormatOffset(o)|
  {
    if o.ticks < 0 {
      BeforeTextLength(ClockText(-o.ticks), tail);
    } else if o.ticks > 0 {
      AfterTextLength(ClockText(o.ticks), tail);
    } else {
      assert (FormatOffset(o) + tail)[..7] == "exactly";
    }
  }

  lemma BeforeTextLength(c: string, tail: string)
    requires |c| == 5 && |tail| >= 4 && tail[..4] == " on "
    ensures OffsetTextLength(c + " before" + tail) == 12
  {
    var s := c + " before" + tail;
    assert s[..7][5] != "exactly"[5];
    assert s[5..12] == " before";
  }

  lemma AfterTextLength(c: string, tail: string)
    requires |c| == 5 && |tail| >= 4 && tail[..4] == " on "
    ensures OffsetTextLength(c + " after" + tail) == 11
  {
    var s := c + " after" + tail;
    assert s[..7][5] != "exactly"[5];
    assert s[5..12][1] != " before"[1];
    assert s[5..11] == " after";
  }

  lemma SunRestReadsBack(o: TimeSpan, days: Option<seq<Day>>)
    ensures ReadSunRest(FormatOffset(o) + " on " + FormatDaysOfWeek(days)) ==
      Some((OffsetReadingOf(o), if days.Some? && |days.value| > 0 && |days.value| != 7 then days else None))
  {
    var d := FormatDaysOfWeek(days);
    OffsetTextLengthOf(o, " on " + d);
    assert FormatOffset(o) + " on " + d == FormatOffset(o) + (" on " + d);
    FormatOffsetReadsBack(o);
    FormatDaysReadsBack(days);
    SunRestParts(FormatOffset(o), d, OffsetReadingOf(o));
  }

  /** An offset text, " on " and a day text read back as the offset's reading and the day text's list. */
  lemma SunRestParts(off: string, d: string, x: OffsetReading)
    requires OffsetTextLength(off + " on " + d) == |off| > 0 && ReadOffset(off) == Some(x)
    requires d == "daily" || ReadDayNames(d).Some?
    ensures ReadSunRest(off + " on " + d) == Some((x, ReadDayNames(d)))
  {
    var s := off + " on " + d;
    var n := |off|;
    assert s[..n] == off && s[n..n + 4] == " on " && s[n + 4..] == d;
  }

  /**
   * Every list text reads back as what it should say about its event: the
   * variant, the clock time's hour and minute with the local text, the day
   * list of a Weekday event (even with seven days), and a sun event's side,
   * offset and days, where "daily" stands for no list, an empty one or all
   * seven days.
   */
  lemma TimeDisplayReadsBack(e: ScheduleEvent, localTime: DateTime -> string)
    ensures ReadTimeDisplay(TimeDisplay(e, localTime)) == Some(ExpectedReading(e, localTime))
  {
    match e
    case Daily(_, _, _, _) => DailyReadsBack(e, localTime);
    case Weekday(_, _, _, _, _) => WeekdayReadsBack(e, localTime);
    case SunriseOffset(_, _, _, _, _) => SunriseReadsBack(e, localTime);
    case SunsetOffset(_, _, _, _, _) => SunsetReadsBack(e, localTime);
  }

  lemma DailyReadsBack(e: ScheduleEvent, localTime: DateTime -> string)
    requires e.Daily?
    ensures ReadTimeDisplay(TimeDisplay(e, localTime)) == Some(ExpectedReading(e, localTime))
  {
    var et := e.eventTime;
    var t := TimeDisplay(e, localTime);
    var rest := " at " + ClockText(et.ticks) + " (" + localTime(et) + ")";
    assert t == "Daily" + rest;
    assert t[..5] == "Daily" && t[5..] == rest;
    AtClockReadsBack(et.ticks, localTime(et));
  }

  lemma WeekdayReadsBack(e: ScheduleEvent, localTime: DateTime -> string)
    requires e.Weekday?
    ensures ReadTimeDisplay(TimeDisplay(e, localTime)) == Some(ExpectedReading(e, localTime))
  {
    var et := e.eventTime;
    var t := TimeDisplay(e, localTime);
    var rest := " at " + ClockText(et.ticks) + " (" + localTime(et) + ")";
    var ds := e.daysOfWeek.GetOr([]);
    WeekdayText(e, localTime);
    AtClockReadsBack(et.ticks, localTime(et));
    assert rest[..4] == " at " && rest[1] == 'a';
    if |ds| == 0 {
      assert t == rest;
      assert t[..5][0] != "Daily"[0];
      assert t[..8][0] != "Sunrise "[0];
      assert t[..7][0] != "Sunset "[0];
    } else {
      WeekdayPrefix(ds, rest);
      DaysPrefixReadsBack(ds, rest);
      ReadNamedDaysText(t, ds, |DayNames(ds)|, rest);
    }
  }

  /** A text that starts with day names and none of the other heads is read as a day list and a clock part. */
  lemma ReadNamedDaysText(t: string, ds: seq<Day>, n: nat, rest: string)
    requires n <= |t| && t[n..] == rest
    requires !(|t| >= 5 && t[..5] == "Daily") && !(|t| >= 8 && t[..8] == "Sunrise ")
    requires !(|t| >= 7 && t[..7] == "Sunset ") && !(|t| >= 4 && t[..4] == " at ")
    requires ReadDaysPrefix(t) == Some((ds, n))
    ensures ReadTimeDisplay(t) ==
      match ReadAtClock(rest)
      case Some((h, m, l)) => Some(DaysAt(ds, h, m, l))
      case None => None
  {
  }

  lemma SunriseReadsBack(e: ScheduleEvent, localTime: DateTime -> string)
    requires e.SunriseOffset?
    ensures ReadTimeDisplay(TimeDisplay(e, localTime)) == Some(ExpectedReading(e, localTime))
  {
    var rest := FormatOffset(e.offset) + " on " + FormatDaysOfWeek(e.daysOfWeek);
    var x := OffsetReadingOf(e.offset);
    var ds := if e.daysOfWeek.Some? && |e.daysOfWeek.value| > 0 && |e.daysOfWeek.value| != 7 then e.daysOfWeek else None;
    assert ExpectedReading(e, localTime) == SunAt(true, x, ds);
    assert TimeDisplay(e, localTime) == "Sunrise " + rest;
    SunRestReadsBack(e.offset, e.daysOfWeek);
    ReadSunriseHead(rest);
  }

  lemma SunsetReadsBack(e: ScheduleEvent, localTime: DateTime -> string)
    requires e.SunsetOffset?
    ensures ReadTimeDisplay(TimeDisplay(e, localTime)) == Some(ExpectedReading(e, localTime))
  {
    var rest := FormatOffset(e.offset) + " on " + FormatDaysOfWeek(e.daysOfWeek);
    var x := OffsetReadingOf(e.offset);
    var ds := if e.daysOfWeek.Some? && |e.daysOfWeek.value| > 0 && |e.daysOfWeek.value| != 7 then e.daysOfWeek else None;
    assert ExpectedReading(e, localTime) == SunAt(false, x, ds);
    assert TimeDisplay(e, localTime) == "Sunset " + rest;
    SunRestReadsBack(e.offset, e.daysOfWeek);
    ReadSunsetHead(rest);
  }

  /** A text that starts with "Sunrise " is read as a sunrise and the rest as offset and days. */
  lemma ReadSunriseHead(rest: string)
    ensures ReadTimeDisplay("Sunrise " + rest) ==
      match ReadSunRest(rest)
      case Some((o, ds)) => Some(SunAt(true, o, ds))
      case None => None
  {
    var t := "Sunrise " + rest;
    assert t[..5][1] != "Daily"[1];
    assert t[..8] == "Sunrise " && t[8..] == rest;
  }

  /** A text that starts with "Sunset " is read as a sunset and the rest as offset and days. */
  lemma ReadSunsetHead(rest: string)
    ensures ReadTimeDisplay("Sunset " + rest) ==
      match ReadSunRest(rest)
      case Some((o, ds)) => Some(SunAt(false, o, ds))
      case None => None
  {
    var t := "Sunset " + rest;
    assert t[..5][1] != "Daily"[1];
    assert |t| < 8 || t[..8][3] != "Sunrise "[3];
    assert t[..7] == "Sunset " && t[7..] == rest;
  }

  /** A Weekday text with days starts with neither "Daily", "Sunrise ", "Sunset " nor " at ". */
  lemma WeekdayPrefix(ds: seq<Day>, rest: string)
    requires |ds| > 0 && |rest| >= 4 && rest[..4] == " at "
    ensures var t := DayNames(ds) + rest;
      && !(|t| >= 5 && t[..5] == "Daily")
      && !(|t| >= 8 && t[..8] == "Sunrise ")
      && !(|t| >= 7 && t[..7] == "Sunset ")
      && !(|t| >= 4 && t[..4] == " at ")
  {
    var t := DayNames(ds) + rest;
    DayNamesStart(ds);
    DayNamesLength(ds);
    assert t[..3] == Abbrev(ds[0]);
    if |ds| > 1 {
      assert AbbrevAll(ds)[1..] == AbbrevAll(ds[1..]);
      assert t[3] == ',';
    } else {
      assert t[3..] == rest;
      assert t[3] == ' ';
    }
  }
}

=== FILE: event_model.dfy ===
/**
 * ScheduleEventModel: the editing overlay over one schedule event.
 *
 * The wrapped event is immutable in spirit, so the overlay stages edits of
 * the type, the clock time, the sun offset and the days as optional
 * overrides, and `CreateUpdatedEvent` folds overrides and original into a
 * new event. The payload (Data) and the disabled flag are not staged: they
 * are written straight into the wrapped event. Every effective edit marks
 * the overlay dirty and raises its `Changed` notification.
 */
module EventModels {
  import opened Wrappers
  import opened Calendar
  import opened Actions
  import opened ScheduleEvents

  datatype EventModel = EventModel(
    event: ScheduleEvent,              // the wrapped event, Data and IsDisabled written through
    selectedType: Option<string>,      // the type name chosen in the picker
    offsetMinutes: Option<int>,
    isOffsetBefore: Option<bool>,
    daySelections: map<Day, bool>,     // days toggled so far (the source's dictionary, absent = empty)
    eventTime: Option<TimeSpan>,
    isDirty: bool)

  /** Nothing staged apart from the type name, which starts out as the event's own. */
  predicate NoOverrides(m: EventModel) {
    && m.offsetMinutes == None
    && m.isOffsetBefore == None
    && m.daySelections == map[]
    && m.eventTime == None
  }

  /** The constructor: a clean overlay that reads every field from `e`. */
  function Wrap(e: ScheduleEvent): (m: EventModel)
    ensures m.event == e && !m.isDirty && NoOverrides(m)
    ensures EventType(m) == KindName(KindOf(e))
    ensures ParseKind(EventType(m)) == Some(KindOf(e))
  {
    ParseKindName(KindOf(e));
    EventModel(e, Some(KindName(KindOf(e))), None, None, map[], None, false)
  }

  // Effective values: the override when there is one, else the wrapped event's field.

  function EventType(m: EventModel): string {
    m.selectedType.GetOr(KindName(KindOf(m.event)))
  }

  function Data(m: EventModel): Option<string> {
    m.event.data
  }

  function IsDisabled(m: EventModel): bool {
    m.event.isDisabled
  }

  /** The payload shown as an action; a missing payload shows as "". */
  function ActionText(m: EventModel): string {
    match Data(m)
    case None => ""
    case Some(d) => ActionLabel(d)
  }

  /** Offset size in minutes; unstaged, it is the truncated size of the event's own offset. */
  function OffsetMinutes(m: EventModel): (r: int)
    ensures m.offsetMinutes == None ==> r >= 0
  {
    match m.offsetMinutes
    case Some(v) => v
    case None =>
      match m.event
      case SunriseOffset(_, o, _, _, _) => Abs(TruncatedMinutes(o))
      case SunsetOffset(_, o, _, _, _) => Abs(TruncatedMinutes(o))
      case _ => 0
  }

  /** Whether the offset lies before the sun event; unstaged, whether the event's offset is negative. */
  function IsOffsetBefore(m: EventModel): bool {
    match m.isOffsetBefore
    case Some(b) => b
    case None =>
      match m.event
      case SunriseOffset(_, o, _, _, _) => o.ticks < 0
      case SunsetOffset(_, o, _, _, _) => o.ticks < 0
      case _ => false
  }

  function OffsetBeforeAfterText(m: EventModel): string {
    if IsOffsetBefore(m) then "before" else "after"
  }

  /** The clock time; unstaged, the time of day of a Daily or Weekday event, else none. */
  function EventTime(m: EventModel): Option<TimeSpan> {
    match m.eventTime
    case Some(t) => Some(t)
    case None =>
      match m.event
      case Daily(_, t, _, _) => Some(TimeOfDay(t))
      case Weekday(_, t, _, _, _) => Some(TimeOfDay(t))
      case _ => None
  }

  /** Whether the wrapped event's own variant carries days (not the staged type). */
  function SupportsDaysOfWeek(m: EventModel): bool {
    HasDays(KindOf(m.event))
  }

  function IsWeekdayEvent(m: EventModel): bool {
    var t := EventType(m);
    t == "Weekday" || t == "SunriseOffset" || t == "SunsetOffset"
  }

  function SupportsTimePicker(m: EventModel): bool {
    var t := EventType(m);
    t == "Daily" || t == "Weekday"
  }

  function SupportsOffsetEditor(m: EventModel): bool {
    var t := EventType(m);
    t == "SunriseOffset" || t == "SunsetOffset"
  }

  /** A day's checkbox: the toggled value if the day was toggled, else whether the event carries it. */
  function DaySelected(m: EventModel, d: Day): bool {
    if d in m.daySelections then m.daySelections[d] else CarriesDay(m.event, d)
  }

  /** The days of `ds` whose checkbox is ticked, in the order of `ds`. */
  function TickedAmong(m: EventModel, ds: seq<Day>): (r: seq<Day>)
    ensures forall d :: d in r <==> d in ds && DaySelected(m, d)
    ensures |r| <= |ds|
  {
    if |ds| == 0 then []
    else (if DaySelected(m, ds[0]) then [ds[0]] else []) + TickedAmong(m, ds[1..])
  }

  /** The ticked days Monday to Sunday once any day was toggled; none before that. */
  function GetSelectedDaysOfWeek(m: EventModel): Option<seq<Day>> {
    if |m.daySelections| > 0 then Some(TickedAmong(m, MondayFirst)) else None
  }

  function GetOriginalDaysOfWeek(m: EventModel): Option<seq<Day>> {
    DaysOf(m.event)
  }

  /**
   * The instant for a Daily or Weekday result: the effective clock time on
   * the base date; without one (a sun event converted to a clock event),
   * noon of the current UTC day, which the caller passes in.
   */
  function GetEventDateTime(m: EventModel, todayNoon: DateTime): DateTime {
    match EventTime(m)
    case Some(t) => OnBaseDate(t)
    case None =>
      match m.event
      case Daily(_, t, _, _) => t
      case Weekday(_, t, _, _, _) => t
      case _ => todayNoon
  }

  /** The signed offset for a sun result: minus the minutes before the sun event, plus after. */
  function GetOffsetTimeSpan(m: EventModel): TimeSpan {
    var minutes := OffsetMinutes(m);
    if IsOffsetBefore(m) then FromMinutes(-minutes) else FromMinutes(minutes)
  }

  /**
   * Folds the overlay into a new event of the effective type, with the new
   * object's reference `newRef`. An effective type outside the four names
   * gives back the wrapped event itself.
   */
  function CreateUpdatedEvent(m: EventModel, newRef: Ref, todayNoon: DateTime): (r: ScheduleEvent)
    ensures ParseKind(EventType(m)) == None ==> r == m.event
    ensures ParseKind(EventType(m)).Some? ==>
      && KindOf(r) == ParseKind(EventType(m)).value
      && r.ref == newRef
      && r.data == Some(Data(m).GetOr("true"))
      && r.isDisabled == IsDisabled(m)
      && (HasDays(KindOf(r)) ==> DaysOf(r).Some?)
  {
    var eventData := Data(m).GetOr("true");
    var daysOfWeek := GetSelectedDaysOfWeek(m).OrElse(GetOriginalDaysOfWeek(m));
    match ParseKind(EventType(m))
    case Some(DailyKind) =>
      Daily(newRef, GetEventDateTime(m, todayNoon), Some(eventData), IsDisabled(m))
    case Some(WeekdayKind) =>
      Weekday(newRef, GetEventDateTime(m, todayNoon), Some(daysOfWeek.GetOr([Monday])), Some(eventData), IsDisabled(m))
    case Some(SunriseOffsetKind) =>
      SunriseOffset(newRef, GetOffsetTimeSpan(m), Some(daysOfWeek.GetOr([Monday])), Some(eventData), IsDisabled(m))
    case Some(SunsetOffsetKind) =>
      SunsetOffset(newRef, GetOffsetTimeSpan(m), Some(daysOfWeek.GetOr([Monday])), Some(eventData), IsDisabled(m))
    case None => m.event
  }

  /** One property write of the editor. */
  datatype Edit =
    | SetEventType(name: string)
    | SetData(data: Option<string>)
    | SetDisabled(disabled: bool)
    | SetActionText(action: string)
    | SetOffsetMinutes(minutes: int)
    | SetOffsetBefore(before: bool)
    | SetOffsetSelection(selection: string)
    | SetEventTime(time: Option<TimeSpan>)
    | SetDaySelected(day: Day, selected: bool)
    | SetDirty(dirty: bool)

  /** The overlay after a write, and whether the write raised `Changed`. */
  datatype Step = Step(model: EventModel, changed: bool)

  /** `IsDirty = true`, which raises `Changed`. */
  function MarkDirty(m: EventModel): Step {
    Step(m.(isDirty := true), true)
  }

  /** The `Data` setter: writes through to the event. */
  function WriteData(m: EventModel, d: Option<string>): Step {
    MarkDirty(m.(event := m.event.(data := d)))
  }

  /** The `IsOffsetBefore` setter. */
  function WriteOffsetBefore(m: EventModel, b: bool): Step {
    MarkDirty(m.(isOffsetBefore := Some(b)))
  }

  /** The edit's setter applied to `m`. */
  function Apply(m: EventModel, e: Edit): (s: Step)
    ensures s.changed ==> s.model.isDirty
    ensures !s.changed && !e.SetDirty? ==> s.model == m
    ensures s.model.event.ref == m.event.ref && KindOf(s.model.event) == KindOf(m.event)
  {
    match e
    case SetEventType(name) =>
      if m.selectedType != Some(name) then MarkDirty(m.(selectedType := Some(name))) else Step(m, false)
    case SetData(d) => WriteData(m, d)
    case SetDisabled(b) => MarkDirty(m.(event := m.event.(isDisabled := b)))
    case SetActionText(action) =>
      var newData := ActionData(action);
      if Data(m) != Some(newData) then WriteData(m, Some(newData)) else Step(m, false)
    case SetOffsetMinutes(v) => MarkDirty(m.(offsetMinutes := Some(v)))
    case SetOffsetBefore(b) => WriteOffsetBefore(m, b)
    case SetOffsetSelection(selection) =>
      var isBefore := selection == "before";
      if IsOffsetBefore(m) != isBefore then WriteOffsetBefore(m, isBefore) else Step(m, false)
    case SetEventTime(t) =>
      if t.Some? then MarkDirty(m.(eventTime := Some(t.value))) else Step(m, false)
    case SetDaySelected(d, b) => MarkDirty(m.(daySelections := m.daySelections[d := b]))
    case SetDirty(b) => Step(m.(isDirty := b), b)
  }

  /** Clears the dirty flag, keeps the overrides and raises no `Changed`. */
  function MarkClean(m: EventModel): (r: EventModel)
    ensures !r.isDirty
    ensures r.(isDirty := m.isDirty) == m
  {
    m.(isDirty := false)
  }
}

=== FILE: event_model_props.dfy ===
/**
 * What the editing overlay promises: how each write changes what the
 * overlay reads back and whether it raises `Changed`, and how
 * `CreateUpdatedEvent` resolves every field of the new event.
 */
module EventModelProps {
  import opened Wrappers
  import opened Calendar
  import opened Actions
  import opened ScheduleEvents
  import opened EventModels

  // ---------------------------------------------------------------- writes

  /** The writes that take effect; the others are ignored by their setters. */
  predicate TakesEffect(m: EventModel, e: Edit) {
    match e
    case SetEventType(name) => m.selectedType != Some(name)
    case SetActionText(action) => Data(m) != Some(ActionData(action))
    case SetOffsetSelection(selection) => IsOffsetBefore(m) != (selection == "before")
    case SetEventTime(t) => t.Some?
    case SetDirty(b) => b
    case _ => true
  }

  /**
   * A write raises `Changed` exactly when it takes effect, and then leaves
   * the overlay dirty; a write that does not take effect changes nothing
   * (the public `IsDirty = false` aside, which only clears the flag).
   */
  lemma ChangedIffEffective(m: EventModel, e: Edit)
    ensures Apply(m, e).changed <==> TakesEffect(m, e)
    ensures TakesEffect(m, e) ==> Apply(m, e).model.isDirty
    ensures !TakesEffect(m, e) && !e.SetDirty? ==> Apply(m, e).model == m
    ensures e == SetDirty(false) ==> Apply(m, e).model == MarkClean(m)
  {
  }

  /**
   * Only the payload and disabled-flag writes touch the wrapped event, and
   * each touches only its own field.
   */
  lemma WriteThrough(m: EventModel, e: Edit)
    ensures var ev := Apply(m, e).model.event;
      && (e.SetData? ==> ev == m.event.(data := e.data))
      && (e.SetDisabled? ==> ev == m.event.(isDisabled := e.disabled))
      && (e.SetActionText? ==> ev == m.event || ev == m.event.(data := Some(ActionData(e.action))))
      && (!e.SetData? && !e.SetDisabled? && !e.SetActionText? ==> ev == m.event)
  {
  }

  /** Each setter's property reads back the value written. */
  lemma ReadBack(m: EventModel, e: Edit)
    ensures var m' := Apply(m, e).model;
      && (e.SetEventType? ==> EventType(m') == e.name)
      && (e.SetData? ==> Data(m') == e.data)
      && (e.SetDisabled? ==> IsDisabled(m') == e.disabled)
      && (e.SetActionText? ==> Data(m') == Some(ActionData(e.action)))
      && (e.SetOffsetMinutes? ==> OffsetMinutes(m') == e.minutes)
      && (e.SetOffsetBefore? ==> IsOffsetBefore(m') == e.before)
      && (e.SetOffsetSelection? ==> OffsetBeforeAfterText(m') == (if e.selection == "before" then "before" else "after"))
      && (e.SetEventTime? ==> EventTime(m') == if e.time.Some? then e.time else EventTime(m))
      && (e.SetDaySelected? ==> DaySelected(m', e.day) == e.selected)
  {
  }

  /** Showing a label chosen from the action picker reads the same label back. */
  lemma ActionTextReadsBack(m: EventModel, action: string)
    requires action == TurnOn || action == TurnOff
    ensures ActionText(Apply(m, SetActionText(action)).model) == action
  {
    LabelRoundTrip(action);
  }

  /** Toggling one day leaves every other day's checkbox as it was. */
  lemma ToggleTouchesOneDay(m: EventModel, d: Day, b: bool, other: Day)
    requires other != d
    ensures DaySelected(Apply(m, SetDaySelected(d, b)).model, other) == DaySelected(m, other)
  {
  }

  /** Writing the type the overlay already holds is ignored. */
  lemma SameTypeIsIgnored(m: EventModel)
    requires m.selectedType.Some?
    ensures Apply(m, SetEventType(EventType(m))) == Step(m, false)
  {
  }

  /** The editors shown follow the effective type name. */
  lemma EditorFlagsFollowType(m: EventModel)
    ensures IsWeekdayEvent(m) <==> ParseKind(EventType(m)).Some? && HasDays(ParseKind(EventType(m)).value)
    ensures SupportsTimePicker(m) <==> ParseKind(EventType(m)).Some? && HasClockTime(ParseKind(EventType(m)).value)
    ensures SupportsOffsetEditor(m) <==> ParseKind(EventType(m)).Some? && HasOffset(ParseKind(EventType(m)).value)
    ensures ParseKind(EventType(m)).Some? ==> SupportsTimePicker(m) != SupportsOffsetEditor(m)
  {
  }

  /** The overlay after a run of writes, and how many `Changed` notifications they raised. */
  function Run(m: EventModel, edits: seq<Edit>): (EventModel, nat)
    decreases |edits|
  {
    if |edits| == 0 then (m, 0)
    else
      var s := Apply(m, edits[0]);
      var (m', n) := Run(s.model, edits[1..]);
      (m', n + if s.changed then 1 else 0)
  }

  predicate TogglesDay(e: Edit, d: Day) {
    e.SetDaySelected? && e.day == d
  }

  /**
   * Whatever else was written, a day never toggled still reads as whether
   * the original event carries it.
   */
  lemma {:induction false} UntoggledDayReadsOriginal(e: ScheduleEvent, edits: seq<Edit>, d: Day)
    requires forall i :: 0 <= i < |edits| ==> !TogglesDay(edits[i], d)
    ensures DaySelected(Run(Wrap(e), edits).0, d) == CarriesDay(e, d)
  {
    UntoggledDayKeeps(Wrap(e), edits, d);
  }

  lemma {:induction false} UntoggledDayKeeps(m: EventModel, edits: seq<Edit>, d: Day)
    requires forall i :: 0 <= i < |edits| ==> !TogglesDay(edits[i], d)
    ensures DaySelected(Run(m, edits).0, d) == DaySelected(m, d)
    ensures DaysOf(Run(m, edits).0.event) == DaysOf(m.event)
    decreases |edits|
  {
    if |edits| > 0 {
      var s := Apply(m, edits[0]);
      assert !TogglesDay(edits[0], d);
      UntoggledStep(m, edits[0], d);
      assert forall i :: 0 <= i < |edits[1..]| ==> edits[1..][i] == edits[i + 1];
      UntoggledDayKeeps(s.model, edits[1..], d);
    }
  }

  /** One write that does not toggle the day keeps its checkbox and the event's day list. */
  lemma UntoggledStep(m: EventModel, e: Edit, d: Day)
    requires !TogglesDay(e, d)
    ensures DaySelected(Apply(m, e).model, d) == DaySelected(m, d)
    ensures DaysOf(Apply(m, e).model.event) == DaysOf(m.event)
  {
    WriteThrough(m, e);
  }

  /** A run raises one notification per write that takes effect, and leaves the overlay dirty if it raised any. */
  lemma {:induction false} RunNotifications(m: EventModel, edits: seq<Edit>)
    requires forall i :: 0 <= i < |edits| ==> !edits[i].SetDirty?
    ensures Run(m, edits).1 <= |edits|
    ensures Run(m, edits).1 > 0 ==> Run(m, edits).0.isDirty
    ensures Run(m, edits).1 == 0 ==> Run(m, edits).0 == m
    decreases |edits|
  {
    if |edits| > 0 {
      var s := Apply(m, edits[0]);
      assert forall i :: 0 <= i < |edits[1..]| ==> edits[1..][i] == edits[i + 1];
      RunNotifications(s.model, edits[1..]);
      var (m', n) := Run(s.model, edits[1..]);
      if n == 0 {
        assert m' == s.model;
      }
    }
  }

  // ------------------------------------------------------- reconciliation

  /** A freshly wrapped event is clean, untouched and reads every day from the event. */
  lemma FreshOverlay(e: ScheduleEvent)
    ensures !Wrap(e).isDirty
    ensures EventType(Wrap(e)) == KindName(KindOf(e))
    ensures GetSelectedDaysOfWeek(Wrap(e)) == None
    ensures forall d :: DaySelected(Wrap(e), d) == CarriesDay(e, d)
  {
  }

  /**
   * Reconciling an untouched Daily or Weekday event keeps its variant,
   * payload, flag, time of day and (for Weekday) day list; the date moves
   * to 1989-06-03 and a missing payload becomes "true".
   */
  lemma UntouchedClockEvent(e: ScheduleEvent, newRef: Ref, todayNoon: DateTime)
    requires HasClockTime(KindOf(e))
    ensures var r := CreateUpdatedEvent(Wrap(e), newRef, todayNoon);
      && KindOf(r) == KindOf(e)
      && r.ref == newRef
      && r.isDisabled == e.isDisabled
      && (e.data.Some? ==> r.data == e.data)
      && (e.data.None? ==> r.data == Some("true"))
      && TimeOfDay(r.eventTime) == TimeOfDay(e.eventTime)
      && DateOf(r.eventTime) == BaseDate
      && (e.Weekday? && e.daysOfWeek.Some? ==> r.daysOfWeek == e.daysOfWeek)
      && (e.Weekday? && e.daysOfWeek.None? ==> r.daysOfWeek == Some([Monday]))
  {
    OnBaseDateKeepsTimeOfDay(TimeOfDay(e.eventTime));
  }

  /**
   * A Daily or Weekday result takes the effective clock time on the base
   * date; a sun event converted to a clock event with no time chosen falls
   * on today's noon.
   */
  lemma ReconciledClockTime(m: EventModel, newRef: Ref, todayNoon: DateTime)
    requires ParseKind(EventType(m)).Some? && HasClockTime(ParseKind(EventType(m)).value)
    ensures var r := CreateUpdatedEvent(m, newRef, todayNoon);
      && (m.eventTime.Some? && 0 <= m.eventTime.value.ticks < TicksPerDay ==>
            TimeOfDay(r.eventTime) == m.eventTime.value && DateOf(r.eventTime) == BaseDate)
      && (m.eventTime.None? && HasClockTime(KindOf(m.event)) ==>
            TimeOfDay(r.eventTime) == TimeOfDay(m.event.eventTime) && DateOf(r.eventTime) == BaseDate)
      && (m.eventTime.None? && HasOffset(KindOf(m.event)) ==> r.eventTime == todayNoon)
  {
    if m.eventTime.Some? && 0 <= m.eventTime.value.ticks < TicksPerDay {
      OnBaseDateKeepsTimeOfDay(m.eventTime.value);
    } else if m.eventTime.None? && HasClockTime(KindOf(m.event)) {
      OnBaseDateKeepsTimeOfDay(TimeOfDay(m.event.eventTime));
    }
  }

  /**
   * The offset of a sun result is the effective minutes, negated when the
   * effective direction is "before": staged minutes, else the truncated
   * size of the original offset; staged direction, else the original's sign.
   */
  lemma ReconciledOffset(m: EventModel, newRef: Ref, todayNoon: DateTime)
    requires ParseKind(EventType(m)).Some? && HasOffset(ParseKind(EventType(m)).value)
    ensures var r := CreateUpdatedEvent(m, newRef, todayNoon);
      var minutes := match m.offsetMinutes
        case Some(v) => v
        case None => if HasOffset(KindOf(m.event)) then Abs(TruncatedMinutes(m.event.offset)) else 0;
      var before := match m.isOffsetBefore
        case Some(b) => b
        case None => HasOffset(KindOf(m.event)) && m.event.offset.ticks < 0;
      r.offset.ticks == (if before then -minutes else minutes) * TicksPerMinute
  {
  }

  /**
   * An untouched sun event keeps its offset to the minute: the offset is
   * truncated toward zero to whole minutes, so a whole-minute offset comes
   * back unchanged.
   */
  lemma UntouchedSunEvent(e: ScheduleEvent, newRef: Ref, todayNoon: DateTime)
    requires HasOffset(KindOf(e))
    ensures var r := CreateUpdatedEvent(Wrap(e), newRef, todayNoon);
      && KindOf(r) == KindOf(e)
      && r.isDisabled == e.isDisabled
      && r.offset.ticks == TruncatedMinutes(e.offset) * TicksPerMinute
      && (e.offset.ticks % TicksPerMinute == 0 ==> r.offset == e.offset)
      && (e.daysOfWeek.Some? ==> r.daysOfWeek == e.daysOfWeek)
  {
    if e.offset.ticks % TicksPerMinute == 0 {
      WholeMinutesKept(e.offset);
    }
  }

  /** Truncating a whole-minute span to minutes loses nothing. */
  lemma WholeMinutesKept(s: TimeSpan)
    requires s.ticks % TicksPerMinute == 0
    ensures TruncatedMinutes(s) * TicksPerMinute == s.ticks
  {
    var o := s.ticks;
    var q := o / TicksPerMinute;
    assert o == q * TicksPerMinute;
    if o < 0 {
      assert (-o) / TicksPerMinute == -q;
    }
  }

  /**
   * Staging only the direction keeps the minute size and sets the sign:
   * choosing the side opposite to the original flips a whole-minute offset.
   */
  lemma DirectionOnlyFlipsSign(e: ScheduleEvent, before: bool, newRef: Ref, todayNoon: DateTime)
    requires HasOffset(KindOf(e))
    requires e.offset.ticks % TicksPerMinute == 0
    ensures var m := Apply(Wrap(e), SetOffsetBefore(before)).model;
      var r := CreateUpdatedEvent(m, newRef, todayNoon);
      && Abs(r.offset.ticks) == Abs(e.offset.ticks)
      && (r.offset.ticks < 0 <==> before && e.offset.ticks != 0)
      && (before != (e.offset.ticks < 0) ==> r.offset.ticks == -e.offset.ticks)
  {
    var m := Apply(Wrap(e), SetOffsetBefore(before)).model;
    UntouchedSunEvent(e, newRef, todayNoon);
    ReconciledOffset(m, newRef, todayNoon);
    ReconciledOffset(Wrap(e), newRef, todayNoon);
  }

  /** A sunrise 15 minutes before, switched to "after", becomes a sunrise 15 minutes after. */
  lemma FlipFifteenMinutesBefore(newRef: Ref, todayNoon: DateTime)
    ensures var e := SunriseOffset(0, FromMinutes(-15), Some([Monday]), Some("true"), false);
      var m := Apply(Wrap(e), SetOffsetBefore(false)).model;
      CreateUpdatedEvent(m, newRef, todayNoon).offset == FromMinutes(15)
  {
    var e := SunriseOffset(0, FromMinutes(-15), Some([Monday]), Some("true"), false);
    DirectionOnlyFlipsSign(e, false, newRef, todayNoon);
  }

  /** The days of a list in strictly increasing Monday-to-Sunday position. */
  predicate MondayToSunday(ds: seq<Day>) {
    forall i, j :: 0 <= i < j < |ds| ==> Rank(ds[i]) < Rank(ds[j])
  }

  lemma {:induction false} TickedAmongKeepsOrder(m: EventModel, ds: seq<Day>)
    requires MondayToSunday(ds)
    ensures MondayToSunday(TickedAmong(m, ds))
    ensures forall i :: 0 <= i < |TickedAmong(m, ds)| ==> TickedAmong(m, ds)[i] in ds
  {
    if |ds| > 0 {
      var rest := ds[1..];
      OrderedTail(ds);
      TickedAmongKeepsOrder(m, rest);
      if DaySelected(m, ds[0]) {
        HeadBeforeTicked(m, ds);
        ConsInOrder(ds[0], TickedAmong(m, rest));
      }
    }
  }

  /** In a Monday-to-Sunday list the first day comes before every ticked day of the rest. */
  lemma HeadBeforeTicked(m: EventModel, ds: seq<Day>)
    requires MondayToSunday(ds) && |ds| > 0
    ensures forall i :: 0 <= i < |TickedAmong(m, ds[1..])| ==> Rank(ds[0]) < Rank(TickedAmong(m, ds[1..])[i])
  {
    var rest := ds[1..];
    var t := TickedAmong(m, rest);
    forall i | 0 <= i < |t| ensures Rank(ds[0]) < Rank(t[i]) {
      assert t[i] in rest;
      var k :| 0 <= k < |rest| && rest[k] == t[i];
      assert rest[k] == ds[k + 1];
    }
  }

  /** The tail of a Monday-to-Sunday list is Monday to Sunday. */
  lemma OrderedTail(ds: seq<Day>)
    requires MondayToSunday(ds) && |ds| > 0
    ensures MondayToSunday(ds[1..])
  {
    var rest := ds[1..];
    forall i, j | 0 <= i < j < |rest| ensures Rank(rest[i]) < Rank(rest[j]) {
      assert rest[i] == ds[i + 1] && rest[j] == ds[j + 1];
    }
  }

  /** A day before every day of a Monday-to-Sunday list can go in front of it. */
  lemma ConsInOrder(d: Day, t: seq<Day>)
    requires MondayToSunday(t)
    requires forall i :: 0 <= i < |t| ==> Rank(d) < Rank(t[i])
    ensures MondayToSunday([d] + t)
  {
    var s := [d] + t;
    forall i, j | 0 <= i < j < |s| ensures Rank(s[i]) < Rank(s[j]) {
      assert s[j] == t[j - 1];
      if i > 0 {
        assert s[i] == t[i - 1];
      }
    }
  }

  /**
   * Once any day was toggled, a day-carrying result lists exactly the
   * ticked days, each once, Monday to Sunday; untoggled days count as the
   * original event has them.
   */
  lemma ReconciledDaysAfterToggle(m: EventModel, newRef: Ref, todayNoon: DateTime)
    requires ParseKind(EventType(m)).Some? && HasDays(ParseKind(EventType(m)).value)
    requires |m.daySelections| > 0
    ensures var r := CreateUpdatedEvent(m, newRef, todayNoon);
      && DaysOf(r).Some?
      && MondayToSunday(DaysOf(r).value)
      && (forall d :: d in DaysOf(r).value <==> DaySelected(m, d))
      && (forall d :: d !in m.daySelections ==> (d in DaysOf(r).value <==> CarriesDay(m.event, d)))
  {
    WeekListsAll();
    TickedAmongKeepsOrder(m, MondayFirst);
  }

  lemma {:induction false} NothingTicked(m: EventModel, ds: seq<Day>)
    requires forall d :: !DaySelected(m, d)
    ensures TickedAmong(m, ds) == []
  {
    if |ds| > 0 {
      NothingTicked(m, ds[1..]);
    }
  }

  /** Toggling every day off yields an empty day list, not a default day. */
  lemma AllDaysOffGivesEmpty(m: EventModel, newRef: Ref, todayNoon: DateTime)
    requires ParseKind(EventType(m)).Some? && HasDays(ParseKind(EventType(m)).value)
    requires |m.daySelections| > 0
    requires forall d :: !DaySelected(m, d)
    ensures DaysOf(CreateUpdatedEvent(m, newRef, todayNoon)) == Some([])
  {
    NothingTicked(m, MondayFirst);
  }

  /**
   * Without toggles a day-carrying result keeps the original list; the
   * default [Monday] is substituted only when the original has no list (a
   * Daily event converted, or a list left null).
   */
  lemma ReconciledDaysUntoggled(m: EventModel, newRef: Ref, todayNoon: DateTime)
    requires ParseKind(EventType(m)).Some? && HasDays(ParseKind(EventType(m)).value)
    requires |m.daySelections| == 0
    ensures var r := CreateUpdatedEvent(m, newRef, todayNoon);
      && (DaysOf(m.event).Some? ==> DaysOf(r) == DaysOf(m.event))
      && (DaysOf(m.event).None? ==> DaysOf(r) == Some([Monday]))
  {
  }

  /**
   * A day-carrying result is [Monday] only if nothing was toggled and the
   * original has no list (the default), or nothing was toggled and the
   * original list is [Monday], or the toggles leave Monday the only ticked day.
   */
  lemma MondayOnlyWhen(m: EventModel, newRef: Ref, todayNoon: DateTime)
    requires ParseKind(EventType(m)).Some? && HasDays(ParseKind(EventType(m)).value)
    requires DaysOf(CreateUpdatedEvent(m, newRef, todayNoon)) == Some([Monday])
    ensures || (|m.daySelections| == 0 && DaysOf(m.event) == None)
            || (|m.daySelections| == 0 && DaysOf(m.event) == Some([Monday]))
            || (|m.daySelections| > 0 && forall d :: DaySelected(m, d) <==> d == Monday)
  {
    if |m.daySelections| > 0 {
      ReconciledDaysAfterToggle(m, newRef, todayNoon);
    }
  }

  /** A Daily event switched to Weekday gets Monday as its only day. */
  lemma DailyToWeekdayGetsMonday(e: ScheduleEvent, newRef: Ref, todayNoon: DateTime)
    requires e.Daily?
    ensures var m := Apply(Wrap(e), SetEventType("Weekday")).model;
      var r := CreateUpdatedEvent(m, newRef, todayNoon);
      r.Weekday? && r.daysOfWeek == Some([Monday]) && TimeOfDay(r.eventTime) == TimeOfDay(e.eventTime)
  {
    OnBaseDateKeepsTimeOfDay(TimeOfDay(e.eventTime));
  }

  /** {Mon, Wed, Fri} with Monday toggled off reconciles to [Wed, Fri]. */
  lemma MondayOffExample(t: DateTime, newRef: Ref, todayNoon: DateTime)
    ensures var e := Weekday(0, t, Some([Monday, Wednesday, Friday]), Some("true"), false);
      var m := Apply(Wrap(e), SetDaySelected(Monday, false)).model;
      CreateUpdatedEvent(m, newRef, todayNoon).daysOfWeek == Some([Wednesday, Friday])
  {
    var e := Weekday(0, t, Some([Monday, Wednesday, Friday]), Some("true"), false);
    var m := EventModel(e, Some("Weekday"), None, None, map[Monday := false], None, true);
    assert Apply(Wrap(e), SetDaySelected(Monday, false)).model == m;
    assert |m.daySelections| == 1;
    var ticked := [Wednesday, Friday];
    forall d ensures DaySelected(m, d) <==> d in ticked {
      assert CarriesDay(e, d) <==> d in [Monday, Wednesday, Friday];
    }
    TickedExactly(m, ticked);
  }

  /** When exactly the days of a Monday-to-Sunday list are ticked, the selection is that list. */
  lemma TickedExactly(m: EventModel, ticked: seq<Day>)
    requires MondayToSunday(ticked)
    requires forall d :: DaySelected(m, d) <==> d in ticked
    ensures TickedAmong(m, MondayFirst) == ticked
  {
    WeekListsAll();
    TickedAmongWhole(m, MondayFirst, ticked);
  }

  /** The checkbox order lists every day once, Monday to Sunday. */
  lemma WeekListsAll()
    ensures MondayToSunday(MondayFirst)
    ensures forall d :: d in MondayFirst
  {
    forall d ensures d in MondayFirst {
      assert MondayFirst[Rank(d)] == d;
    }
    forall i, j | 0 <= i < j < |MondayFirst| ensures Rank(MondayFirst[i]) < Rank(MondayFirst[j]) {
      RankOfPosition(i);
      RankOfPosition(j);
    }
  }

  /** The day at a position of the checkbox order has that position as its rank. */
  lemma RankOfPosition(i: nat)
    requires i < |MondayFirst|
    ensures Rank(MondayFirst[i]) == i
  {
    var d := MondayFirst[i];
    assert MondayFirst[Rank(d)] == d;
  }

  lemma TickedAmongWhole(m: EventModel, ds: seq<Day>, ticked: seq<Day>)
    requires MondayToSunday(ds) && forall d :: d in ds
    requires MondayToSunday(ticked)
    requires forall d :: DaySelected(m, d) <==> d in ticked
    ensures TickedAmong(m, ds) == ticked
  {
    TickedAmongKeepsOrder(m, ds);
    RankedListsWithSameDays(TickedAmong(m, ds), ticked);
  }

  /** Two Monday-to-Sunday lists holding the same days are equal. */
  lemma {:induction false} RankedListsWithSameDays(a: seq<Day>, b: seq<Day>)
    requires MondayToSunday(a) && MondayToSunday(b)
    requires forall d :: d in a <==> d in b
    ensures a == b
    decreases |a|
  {
    if |a| > 0 { assert a[0] in b; }
    if |b| > 0 { assert b[0] in a; }
    if |a| > 0 {
      RankedHeads(a, b);
      RankedHeads(b, a);
      RankedTailIsRanked(a);
      RankedTailIsRanked(b);
      forall d ensures d in a[1..] <==> d in b[1..] {
        RankedTail(a, d);
        RankedTail(b, d);
      }
      RankedListsWithSameDays(a[1..], b[1..]);
      assert a == [a[0]] + a[1..] && b == [b[0]] + b[1..];
    }
  }

  /** The head of a Monday-to-Sunday list comes no later than any day of a list with the same days. */
  lemma RankedHeads(a: seq<Day>, b: seq<Day>)
    requires MondayToSunday(a) && |a| > 0 && |b| > 0
    requires forall d :: d in a <==> d in b
    ensures Rank(a[0]) <= Rank(b[0])
  {
    assert b[0] in a;
    var i :| 0 <= i < |a| && a[i] == b[0];
    if i > 0 { assert Rank(a[0]) < Rank(a[i]); }
  }

  lemma RankedTailIsRanked(a: seq<Day>)
    requires MondayToSunday(a) && |a| > 0
    ensures MondayToSunday(a[1..])
  {
    var t := a[1..];
    forall x, y | 0 <= x < y < |t| ensures Rank(t[x]) < Rank(t[y]) {
      assert t[x] == a[x + 1] && t[y] == a[y + 1];
    }
  }

  /** In a Monday-to-Sunday list, the tail holds every day but the head. */
  lemma RankedTail(a: seq<Day>, d: Day)
    requires MondayToSunday(a) && |a| > 0
    ensures d in a[1..] <==> d in a && d != a[0]
  {
    if d in a[1..] {
      var k :| 0 <= k < |a[1..]| && a[1..][k] == d;
      assert a[k + 1] == d;
      assert Rank(a[0]) < Rank(a[k + 1]);
    }
    if d in a && d != a[0] {
      var k :| 0 <= k < |a| && a[k] == d;
      assert k != 0;
      assert a[1..][k - 1] == d;
    }
  }

  /** Choosing one of the four type names makes the result that variant, under a new reference. */
  lemma TypeChangeSelectsVariant(m: EventModel, k: EventKind, newRef: Ref, todayNoon: DateTime)
    ensures var r := CreateUpdatedEvent(Apply(m, SetEventType(KindName(k))).model, newRef, todayNoon);
      KindOf(r) == k && r.ref == newRef
  {
    ParseKindName(k);
  }

  /** Any other type name gives back the wrapped event itself, payload and flag writes included. */
  lemma UnknownTypeKeepsEvent(m: EventModel, name: string, newRef: Ref, todayNoon: DateTime)
    requires ParseKind(name) == None
    ensures var m' := Apply(m, SetEventType(name)).model;
      CreateUpdatedEvent(m', newRef, todayNoon) == m.event
  {
  }
}

=== FILE: main_view.dfy ===
/**
 * The part of the main window's view model that is logic rather than
 * dialogs and device I/O: the selection, the two modification flags and
 * the save that applies every pending edit. The serial-port menu state is
 * the SerialPorts module.
 */
module MainView {
  import opened Wrappers
  import opened Calendar
  import opened ScheduleEvents
  import opened EventModels
  import opened EventModelProps
  import opened ScheduleModelProps
  import opened ScheduleModels
  import opened CollectionModels
  import opened CollectionProps

  /**
   * The view model's state. The selected schedule and event are the
   * objects the lists show; they are found again in the lists by the
   * schedule or event object they wrap.
   */
  datatype MainWindow = MainWindow(
    collection: CollectionModel,
    selectedSchedule: Option<ScheduleModel>,
    selectedEvent: Option<EventModel>,
    isFileModified: bool,
    hasUnsavedChanges: bool)

  /** SaveChanges: every schedule applies its pending edits; nothing is unsaved, the file is modified. */
  function SaveChanges(w: MainWindow, todayNoon: DateTime): (r: MainWindow)
    ensures !r.hasUnsavedChanges && r.isFileModified
    ensures r.collection == ApplyAllPendingChanges(w.collection, todayNoon)
    ensures r.collection.collection.timezone == w.collection.collection.timezone
    ensures r.collection.fileName == w.collection.fileName
    ensures |r.collection.schedules| == |w.collection.schedules|
    ensures forall j :: 0 <= j < |r.collection.schedules| ==> !AnyDirty(r.collection.schedules[j].events)
    ensures forall j :: 0 <= j < |w.collection.schedules| ==>
      r.collection.schedules[j] == ApplyChanges(w.collection.schedules[j], todayNoon)
    ensures Coherent(w.collection) ==> Coherent(r.collection)
    ensures r.selectedSchedule == w.selectedSchedule && r.selectedEvent == w.selectedEvent
  {
    w.(collection := ApplyAllPendingChanges(w.collection, todayNoon), hasUnsavedChanges := false, isFileModified := true)
  }

  /** A second save right after the first changes no schedule. */
  lemma SaveTwice(w: MainWindow, noon1: DateTime, noon2: DateTime)
    requires Coherent(w.collection)
    ensures var once := SaveChanges(w, noon1);
      SaveChanges(once, noon2) == once
  {
    ApplyAllTwice(w.collection, noon1, noon2);
  }

  /**
   * RemoveSchedule: with a schedule selected, it leaves the collection,
   * the selection is cleared and the file is marked modified; with none
   * selected nothing happens.
   */
  function RemoveSchedule(w: MainWindow): (r: MainWindow)
    ensures w.selectedSchedule.None? ==> r == w
    ensures w.selectedSchedule.Some? ==> r.selectedSchedule.None? && r.isFileModified
    ensures w.selectedSchedule.Some? ==>
      r.collection == CollectionModels.RemoveSchedule(w.collection, w.selectedSchedule.value)
    ensures w.selectedSchedule.Some? && Coherent(w.collection) ==>
      && Coherent(r.collection)
      && forall i :: 0 <= i < |r.collection.collection.schedules| ==>
           r.collection.collection.schedules[i].ref != w.selectedSchedule.value.schedule.ref
    ensures w.selectedSchedule.Some? ==>
      && r.collection.collection.timezone == w.collection.collection.timezone
      && r.collection.fileName == w.collection.fileName
      && match IndexOfSchedule(w.collection.collection.schedules, w.selectedSchedule.value.schedule.ref)
         case None => r.collection.collection == w.collection.collection
         case Some(k) =>
           && r.collection.collection.schedules == DropAt(w.collection.collection.schedules, k)
           && (CollectionModels.Mirrors(w.collection) ==> r.collection.schedules == DropAt(w.collection.schedules, k))
    ensures r.hasUnsavedChanges == w.hasUnsavedChanges && r.selectedEvent == w.selectedEvent
  {
    match w.selectedSchedule
    case None => w
    case Some(sm) =>
      w.(collection := CollectionModels.RemoveSchedule(w.collection, sm), selectedSchedule := None, isFileModified := true)
  }

  /**
   * RemoveEvent: with a schedule and an event selected, the event leaves
   * that schedule, the event selection is cleared and the file is marked
   * modified; otherwise nothing happens.
   */
  function RemoveEvent(w: MainWindow): (r: MainWindow)
    ensures w.selectedSchedule.None? || w.selectedEvent.None? ==> r == w
    ensures w.selectedSchedule.Some? && w.selectedEvent.Some? ==> r.selectedEvent.None? && r.isFileModified
    ensures |r.collection.schedules| == |w.collection.schedules|
    ensures Coherent(w.collection) ==> Coherent(r.collection)
    ensures r.collection.collection.timezone == w.collection.collection.timezone
    ensures r.collection.fileName == w.collection.fileName
    ensures w.selectedSchedule.Some? && w.selectedEvent.Some? ==>
      var eref := w.selectedEvent.value.event.ref;
      match IndexOfSchedule(SchedulesOf(w.collection.schedules), w.selectedSchedule.value.schedule.ref)
      case None => r.collection == w.collection
      case Some(k) =>
        var before := w.collection.schedules[k];
        var after := r.collection.schedules[k];
        && (forall j :: 0 <= j < |w.collection.schedules| && j != k ==> r.collection.schedules[j] == w.collection.schedules[j])
        && after.schedule.ref == before.schedule.ref && after.schedule.name == before.schedule.name
        && after.schedule.events == RemoveRef(before.schedule.events, eref)
        && after.events == RemoveModelOf(before.events, eref)
        && (Coherent(w.collection) ==> !HasRef(after.schedule.events, eref))
    ensures r.hasUnsavedChanges == w.hasUnsavedChanges && r.selectedSchedule == w.selectedSchedule
  {
    if w.selectedSchedule.None? || w.selectedEvent.None? then w
    else
      var cm := w.collection;
      var cm' := match IndexOfSchedule(SchedulesOf(cm.schedules), w.selectedSchedule.value.schedule.ref)
        case None => cm
        case Some(k) => Replace(cm, k, ScheduleModels.RemoveEvent(cm.schedules[k], w.selectedEvent.value));
      w.(collection := cm', selectedEvent := None, isFileModified := true)
  }

  /**
   * An edit of the selected event through the editor panel. The overlay is
   * found in the selected schedule's list by the event object it wraps.
   * The selected schedule forwards an effective edit as a change of its
   * `Events`, and the window then has unsaved changes.
   */
  function EditSelectedEvent(w: MainWindow, edit: Edit): (r: MainWindow)
    ensures r.isFileModified == w.isFileModified
    ensures r.selectedSchedule == w.selectedSchedule && r.selectedEvent == w.selectedEvent
    ensures r.collection.collection.timezone == w.collection.collection.timezone
    ensures r.collection.fileName == w.collection.fileName
    ensures |r.collection.schedules| == |w.collection.schedules|
    ensures Coherent(w.collection) ==> Coherent(r.collection)
    ensures match Target(w)
      case None => r == w
      case Some((k, j)) =>
        && k < |w.collection.schedules| && j < |w.collection.schedules[k].events|
        && r.collection.schedules[k] == EditEvent(w.collection.schedules[k], j, edit).model
        && (forall i :: 0 <= i < |w.collection.schedules| && i != k ==> r.collection.schedules[i] == w.collection.schedules[i])
        && r.hasUnsavedChanges == (w.hasUnsavedChanges || TakesEffect(w.collection.schedules[k].events[j], edit))
  {
    match Target(w)
    case None => w
    case Some((k, j)) =>
      var e := EditEventAt(w.collection, k, j, edit);
      w.(collection := e.model, hasUnsavedChanges := w.hasUnsavedChanges || e.eventsChanged)
  }

  /** The positions of the selected schedule's model and of the selected event's overlay in it, if both are there. */
  function Target(w: MainWindow): (t: Option<(nat, nat)>)
    ensures t.Some? ==> t.value.0 < |w.collection.schedules| && t.value.1 < |w.collection.schedules[t.value.0].events|
  {
    if w.selectedSchedule.None? || w.selectedEvent.None? then None
    else match IndexOfSchedule(SchedulesOf(w.collection.schedules), w.selectedSchedule.value.schedule.ref)
      case None => None
      case Some(k) =>
        match IndexOfRef(EventsOf(w.collection.schedules[k].events), w.selectedEvent.value.event.ref)
        case None => None
        case Some(j) => Some((k, j))
  }

  /** An edit that does not take effect leaves a coherent window as it was. */
  lemma IneffectiveEditKeepsWindow(w: MainWindow, edit: Edit)
    requires Coherent(w.collection) && Target(w).Some?
    requires !TakesEffect(w.collection.schedules[Target(w).value.0].events[Target(w).value.1], edit)
    requires !edit.SetDirty?
    ensures EditSelectedEvent(w, edit) == w
  {
    var (k, j) := Target(w).value;
    EditNotifiesSchedule(w.collection.schedules[k], j, edit);
    ReplaceWithItself(w.collection, k);
  }

  /** Saving after any edit leaves nothing unsaved and nothing dirty. */
  lemma SaveAfterEdit(w: MainWindow, edit: Edit, todayNoon: DateTime)
    ensures var saved := SaveChanges(EditSelectedEvent(w, edit), todayNoon);
      && !saved.hasUnsavedChanges
      && forall j :: 0 <= j < |saved.collection.schedules| ==> !AnyDirty(saved.collection.schedules[j].events)
  {
  }

  /**
   * The timezone setters of the collection raise its property change, and
   * the window then marks the file modified.
   */
  function SetDaylightSaving(w: MainWindow, value: bool): (r: MainWindow)
    ensures r.collection == SetHasDaylightSavingTime(w.collection, value)
    ensures r.selectedSchedule == w.selectedSchedule && r.selectedEvent == w.selectedEvent
    ensures r.collection.fileName == w.collection.fileName
    ensures r.isFileModified && r.hasUnsavedChanges == w.hasUnsavedChanges
    ensures HasDaylightSavingTime(r.collection) == value
    ensures r.collection.collection.schedules == w.collection.collection.schedules
    ensures Coherent(w.collection) ==> Coherent(r.collection)
  {
    w.(collection := SetHasDaylightSavingTime(w.collection, value), isFileModified := true)
  }

  function SetUtcOffset(w: MainWindow, hours: real): (r: MainWindow)
    ensures r.collection == SetUtcOffsetHours(w.collection, hours)
    ensures r.selectedSchedule == w.selectedSchedule && r.selectedEvent == w.selectedEvent
    ensures r.collection.fileName == w.collection.fileName
    ensures r.isFileModified && r.hasUnsavedChanges == w.hasUnsavedChanges
    ensures r.collection.collection.timezone.utcOffsetHours == hours
    ensures r.collection.collection.schedules == w.collection.collection.schedules
    ensures Coherent(w.collection) ==> Coherent(r.collection)
  {
    w.(collection := SetUtcOffsetHours(w.collection, hours), isFileModified := true)
  }

  /**
   * A timezone change rebuilds every overlay, so a save right after it
   * changes no schedule: edits staged before the change are gone.
   */
  lemma SaveAfterDaylightSaving(w: MainWindow, value: bool, todayNoon: DateTime)
    requires Coherent(w.collection)
    ensures var t := SetDaylightSaving(w, value);
      SaveChanges(t, todayNoon).collection == t.collection
  {
    DstToggleDropsEdits(w.collection, value, todayNoon);
  }

  lemma SaveAfterUtcOffset(w: MainWindow, hours: real, todayNoon: DateTime)
    requires Coherent(w.collection)
    ensures var t := SetUtcOffset(w, hours);
      SaveChanges(t, todayNoon).collection == t.collection
  {
    UtcOffsetDropsEdits(w.collection, hours, todayNoon);
  }
}

=== FILE: schedule_event.dfy ===
/**
 * The scheduling library's event records, reduced to the fields the editor
 * reads. The set of variants is closed. Each record is an object in the
 * source; `ref` stands for its identity, which is what `List.Remove`
 * compares.
 */
module ScheduleEvents {
  import opened Wrappers
  import opened Calendar

  /** Identity of a heap object. */
  type Ref = nat

  datatype ScheduleEvent =
    | Daily(ref: Ref, eventTime: DateTime, data: Option<string>, isDisabled: bool)
    | Weekday(ref: Ref, eventTime: DateTime, daysOfWeek: Option<seq<Day>>, data: Option<string>, isDisabled: bool)
    | SunriseOffset(ref: Ref, offset: TimeSpan, daysOfWeek: Option<seq<Day>>, data: Option<string>, isDisabled: bool)
    | SunsetOffset(ref: Ref, offset: TimeSpan, daysOfWeek: Option<seq<Day>>, data: Option<string>, isDisabled: bool)

  /** ScheduleEventType. */
  datatype EventKind = DailyKind | WeekdayKind | SunriseOffsetKind | SunsetOffsetKind

  function KindOf(e: ScheduleEvent): EventKind {
    match e
    case Daily(_, _, _, _) => DailyKind
    case Weekday(_, _, _, _, _) => WeekdayKind
    case SunriseOffset(_, _, _, _, _) => SunriseOffsetKind
    case SunsetOffset(_, _, _, _, _) => SunsetOffsetKind
  }

  /** `EventType.ToString()`: the name the type picker shows and the editor stores. */
  function KindName(k: EventKind): string {
    match k
    case DailyKind => "Daily"
    case WeekdayKind => "Weekday"
    case SunriseOffsetKind => "SunriseOffset"
    case SunsetOffsetKind => "SunsetOffset"
  }

  /** The variant a type name selects, or None for a name outside the four. */
  function ParseKind(name: string): (r: Option<EventKind>)
    ensures r.Some? ==> KindName(r.value) == name
  {
    if name == "Daily" then Some(DailyKind)
    else if name == "Weekday" then Some(WeekdayKind)
    else if name == "SunriseOffset" then Some(SunriseOffsetKind)
    else if name == "SunsetOffset" then Some(SunsetOffsetKind)
    else None
  }

  /** Every variant's name selects that variant again. */
  lemma ParseKindName(k: EventKind)
    ensures ParseKind(KindName(k)) == Some(k)
  {
  }

  /** The variants that carry a day list (and show the day checkboxes). */
  predicate HasDays(k: EventKind) {
    k == WeekdayKind || k == SunriseOffsetKind || k == SunsetOffsetKind
  }

  /** The variants edited with a clock time. */
  predicate HasClockTime(k: EventKind) {
    k == DailyKind || k == WeekdayKind
  }

  /** The variants edited with a sun offset. */
  predicate HasOffset(k: EventKind) {
    k == SunriseOffsetKind || k == SunsetOffsetKind
  }

  /** The day list an event carries; a Daily event carries none. */
  function DaysOf(e: ScheduleEvent): (r: Option<seq<Day>>)
    ensures !HasDays(KindOf(e)) ==> r == None
  {
    match e
    case Daily(_, _, _, _) => None
    case Weekday(_, _, days, _, _) => days
    case SunriseOffset(_, _, days, _, _) => days
    case SunsetOffset(_, _, days, _, _) => days
  }

  /** `DaysOfWeek?.Contains(day) ?? false`. */
  predicate CarriesDay(e: ScheduleEvent, d: Day) {
    DaysOf(e).Some? && d in DaysOf(e).value
  }

  /** No two events of the list are the same object. */
  predicate DistinctRefs(es: seq<ScheduleEvent>) {
    forall i, j :: 0 <= i < j < |es| ==> es[i].ref != es[j].ref
  }

  predicate HasRef(es: seq<ScheduleEvent>, r: Ref) {
    exists i :: 0 <= i < |es| && es[i].ref == r
  }

  /** A reference no event of the list uses: one above the largest. */
  function FreshRef(es: seq<ScheduleEvent>): (r: Ref)
    ensures forall i :: 0 <= i < |es| ==> es[i].ref < r
  {
    if |es| == 0 then 0
    else
      var rest := FreshRef(es[1..]);
      assert forall i :: 1 <= i < |es| ==> es[i].ref == es[1..][i - 1].ref;
      if es[0].ref < rest then rest else es[0].ref + 1
  }
}

=== FILE: schedule_model.dfy ===
/**
 * ScheduleModel: one schedule and the list of event overlays shown for it.
 *
 * The overlay list mirrors the schedule's event list position by position.
 * `ApplyChanges` folds every dirty overlay back into the schedule: it
 * removes the overlay's event object from the list, appends the reconciled
 * event at the end, and rebuilds the overlays.
 */
module ScheduleModels {
  import opened Wrappers
  import opened Calendar
  import opened ScheduleEvents
  import opened EventModels

  /** The library's Schedule object: a name and an event list; `ref` is its identity. */
  datatype Schedule = Schedule(ref: Ref, name: string, events: seq<ScheduleEvent>)

  datatype ScheduleModel = ScheduleModel(schedule: Schedule, events: seq<EventModel>)

  /** The wrapped events of an overlay list, in order. */
  function EventsOf(ms: seq<EventModel>): (es: seq<ScheduleEvent>)
    ensures |es| == |ms| && forall i :: 0 <= i < |ms| ==> es[i] == ms[i].event
  {
    seq(|ms|, i requires 0 <= i < |ms| => ms[i].event)
  }

  /** The overlay at each position wraps the schedule's event at that position. */
  predicate Mirrors(sm: ScheduleModel) {
    EventsOf(sm.events) == sm.schedule.events
  }

  /** A mirrored schedule whose event objects are pairwise distinct. */
  predicate Wf(sm: ScheduleModel) {
    Mirrors(sm) && DistinctRefs(sm.schedule.events)
  }

  /**
   * Every overlay freshly built: exactly the constructor's wrap of its
   * event, so clean, with nothing staged and the type name read from the
   * event itself.
   */
  predicate AllFresh(ms: seq<EventModel>) {
    forall i :: 0 <= i < |ms| ==> ms[i] == Wrap(ms[i].event)
  }

  predicate AnyDirty(ms: seq<EventModel>) {
    exists i :: 0 <= i < |ms| && ms[i].isDirty
  }

  /** The constructor: a fresh overlay for each event of the schedule, in order. */
  function Create(s: Schedule): (sm: ScheduleModel)
    ensures sm.schedule == s && Mirrors(sm) && AllFresh(sm.events)
    ensures DistinctRefs(s.events) ==> Wf(sm)
  {
    ScheduleModel(s, seq(|s.events|, i requires 0 <= i < |s.events| => Wrap(s.events[i])))
  }

  /**
   * Both RefreshEvents overloads: the overlays are rebuilt from the schedule,
   * so whatever was staged and not applied is dropped.
   */
  function RefreshEvents(sm: ScheduleModel): (r: ScheduleModel)
    ensures r.schedule == sm.schedule && Mirrors(r) && AllFresh(r.events)
    ensures Wf(sm) ==> Wf(r)
  {
    Create(sm.schedule)
  }

  // ------------------------------------------------------------ editing

  /** A write to an event object reaches every holder of that object: its Data and IsDisabled. */
  function WriteThrough(e: ScheduleEvent, written: ScheduleEvent): (r: ScheduleEvent)
    ensures r.ref == e.ref && KindOf(r) == KindOf(e)
  {
    if e.ref == written.ref then e.(data := written.data, isDisabled := written.isDisabled) else e
  }

  function WriteThroughAll(es: seq<ScheduleEvent>, written: ScheduleEvent): (r: seq<ScheduleEvent>)
    ensures |r| == |es| && forall i :: 0 <= i < |es| ==> r[i] == WriteThrough(es[i], written)
  {
    seq(|es|, i requires 0 <= i < |es| => WriteThrough(es[i], written))
  }

  /** The schedule after an edit, and whether the edit raised the schedule's `Events` notification. */
  datatype Edited = Edited(model: ScheduleModel, eventsChanged: bool)

  /**
   * A property write on the overlay at position `i`. Its Data and
   * IsDisabled writes land in the shared event object; a `Changed` of the
   * overlay is forwarded as a change of `Events` (OnEventChanged).
   */
  function EditEvent(sm: ScheduleModel, i: nat, edit: Edit): (r: Edited)
    requires i < |sm.events|
    ensures |r.model.events| == |sm.events|
    ensures r.model.schedule.ref == sm.schedule.ref && r.model.schedule.name == sm.schedule.name
    ensures r.model.events[i] == Apply(sm.events[i], edit).model
    ensures forall j :: 0 <= j < |sm.events| && j != i ==>
      r.model.events[j].(event := sm.events[j].event) == sm.events[j]
    ensures Wf(sm) ==> forall j :: 0 <= j < |sm.events| && j != i ==> r.model.events[j] == sm.events[j]
    ensures r.eventsChanged ==> r.model.events[i].isDirty
    ensures !r.eventsChanged && !edit.SetDirty? ==> r.model == sm
    ensures Mirrors(sm) ==> Mirrors(r.model)
    ensures Wf(sm) ==> Wf(r.model)
  {
    var step := Apply(sm.events[i], edit);
    var written := step.model.event;
    var models := seq(|sm.events|, j requires 0 <= j < |sm.events| =>
      if j == i then step.model else sm.events[j].(event := WriteThrough(sm.events[j].event, written)));
    if !step.changed && !edit.SetDirty? then
      Edited(sm, false)
    else
      assert Mirrors(sm) ==> EventsOf(models) == WriteThroughAll(sm.schedule.events, written);
      assert forall j :: 0 <= j < |sm.schedule.events| ==>
        WriteThroughAll(sm.schedule.events, written)[j].ref == sm.schedule.events[j].ref;
      Edited(ScheduleModel(sm.schedule.(events := WriteThroughAll(sm.schedule.events, written)), models), step.changed)
  }

  /** AddEvent: the event joins the end of the schedule and a fresh overlay the end of the list. */
  function AddEvent(sm: ScheduleModel, e: ScheduleEvent): (r: ScheduleModel)
    ensures r.schedule == sm.schedule.(events := sm.schedule.events + [e])
    ensures r.events == sm.events + [Wrap(e)]
    ensures Mirrors(sm) ==> Mirrors(r)
  {
    assert Mirrors(sm) ==> EventsOf(sm.events + [Wrap(e)]) == sm.schedule.events + [e];
    ScheduleModel(sm.schedule.(events := sm.schedule.events + [e]), sm.events + [Wrap(e)])
  }

  /** Position of the first event that is object `r`, as `List.IndexOf` compares. */
  function IndexOfRef(es: seq<ScheduleEvent>, r: Ref): (k: Option<nat>)
    ensures k.Some? ==> k.value < |es| && es[k.value].ref == r && forall j :: 0 <= j < k.value ==> es[j].ref != r
    ensures k.None? ==> !HasRef(es, r)
  {
    if |es| == 0 then None
    else if es[0].ref == r then Some(0)
    else match IndexOfRef(es[1..], r)
      case Some(k) => Some(k + 1)
      case None => None
  }

  /** The list without its entry `k`: the entries before it, then the entries after it, in order. */
  function DropAt<T>(s: seq<T>, k: nat): (r: seq<T>)
    requires k < |s|
    ensures |r| == |s| - 1
    ensures forall i :: 0 <= i < |r| ==> r[i] == s[if i < k then i else i + 1]
  {
    s[..k] + s[k + 1..]
  }

  /** `k` is the first position of the list holding object `r`. */
  predicate FirstAt(es: seq<ScheduleEvent>, r: Ref, k: nat) {
    k < |es| && es[k].ref == r && forall j :: 0 <= j < k ==> es[j].ref != r
  }

  /** `List.Remove`: drops the first occurrence of object `r`, if any. */
  function RemoveRef(es: seq<ScheduleEvent>, r: Ref): (res: seq<ScheduleEvent>)
    ensures !HasRef(es, r) ==> res == es
    ensures HasRef(es, r) ==> |res| == |es| - 1
    ensures forall k :: FirstAt(es, r, k) ==> res == DropAt(es, k)
    ensures forall e :: e in res ==> e in es
  {
    match IndexOfRef(es, r)
    case None => es
    case Some(k) =>
      assert forall k' :: FirstAt(es, r, k') ==> k' == k;
      DropAt(es, k)
  }

  /** Drops the first overlay of object `r`, and so the overlay a removal names. */
  function RemoveModelOf(ms: seq<EventModel>, r: Ref): (res: seq<EventModel>)
    ensures EventsOf(res) == RemoveRef(EventsOf(ms), r)
    ensures !HasRef(EventsOf(ms), r) ==> res == ms
    ensures forall k :: FirstAt(EventsOf(ms), r, k) ==> res == DropAt(ms, k)
  {
    var es := EventsOf(ms);
    match IndexOfRef(es, r)
    case None => ms
    case Some(k) =>
      assert EventsOf(DropAt(ms, k)) == DropAt(es, k);
      assert forall k' :: FirstAt(es, r, k') ==> k' == k;
      DropAt(ms, k)
  }

  /** Removing the first occurrence of an object from a list without repeats removes it entirely. */
  lemma RemoveRefKeepsDistinct(es: seq<ScheduleEvent>, r: Ref)
    requires DistinctRefs(es)
    ensures DistinctRefs(RemoveRef(es, r)) && !HasRef(RemoveRef(es, r), r)
  {
    match IndexOfRef(es, r)
    case None =>
    case Some(k) =>
      var res := es[..k] + es[k + 1..];
      assert res == RemoveRef(es, r);
      forall j | 0 <= j < |res| ensures res[j] == es[Orig(j, k)] && Orig(j, k) != k { }
      forall i, j | 0 <= i < j < |res| ensures res[i].ref != res[j].ref {
        assert Orig(i, k) < Orig(j, k);
      }
      forall j | 0 <= j < |res| ensures res[j].ref != r {
        assert es[Orig(j, k)].ref != es[k].ref;
      }
  }

  /** The position in the original list of position `j` after removing position `k`. */
  function Orig(j: nat, k: nat): nat {
    if j < k then j else j + 1
  }

  /**
   * RemoveEvent: the overlay's event object leaves the schedule and the
   * overlay leaves the list. Both lists lose the entry at the object's
   * first position and keep the rest in order.
   */
  function RemoveEvent(sm: ScheduleModel, m: EventModel): (r: ScheduleModel)
    ensures r.schedule.ref == sm.schedule.ref && r.schedule.name == sm.schedule.name
    ensures forall k :: FirstAt(sm.schedule.events, m.event.ref, k) ==>
      && r.schedule.events == DropAt(sm.schedule.events, k)
      && (Mirrors(sm) ==> r.events == DropAt(sm.events, k))
    ensures Mirrors(sm) ==> Mirrors(r)
    ensures Wf(sm) ==> Wf(r) && !HasRef(r.schedule.events, m.event.ref)
    ensures HasRef(sm.schedule.events, m.event.ref) ==> |r.schedule.events| == |sm.schedule.events| - 1
    ensures !HasRef(sm.schedule.events, m.event.ref) ==> r.schedule == sm.schedule
    ensures Mirrors(sm) && !HasRef(sm.schedule.events, m.event.ref) ==> r == sm
  {
    var r := ScheduleModel(sm.schedule.(events := RemoveRef(sm.schedule.events, m.event.ref)),
                           RemoveModelOf(sm.events, m.event.ref));
    if Wf(sm) then
      RemoveRefKeepsDistinct(sm.schedule.events, m.event.ref);
      r
    else r
  }

  // ----------------------------------------------------- applying changes

  /** The dirty overlays, in list order (`Events.Where(e => e.IsDirty)`). */
  function DirtyModels(ms: seq<EventModel>): (r: seq<EventModel>)
    ensures forall k :: 0 <= k < |r| ==> r[k].isDirty
    ensures |r| == 0 <==> !AnyDirty(ms)
  {
    if |ms| == 0 then []
    else
      var rest := DirtyModels(ms[1..]);
      assert AnyDirty(ms) <==> ms[0].isDirty || AnyDirty(ms[1..]) by {
        if AnyDirty(ms) && !ms[0].isDirty {
          var i :| 0 <= i < |ms| && ms[i].isDirty;
          assert ms[1..][i - 1].isDirty;
        }
        if AnyDirty(ms[1..]) {
          var i :| 0 <= i < |ms[1..]| && ms[1..][i].isDirty;
          assert ms[i + 1].isDirty;
        }
      }
      (if ms[0].isDirty then [ms[0]] else []) + rest
  }

  /** The events of the clean overlays, in list order. */
  function CleanEvents(ms: seq<EventModel>): (r: seq<ScheduleEvent>)
    ensures |r| + |DirtyModels(ms)| == |ms|
  {
    if |ms| == 0 then []
    else (if ms[0].isDirty then [] else [ms[0].event]) + CleanEvents(ms[1..])
  }

  function RefsOf(ms: seq<EventModel>): (rs: seq<Ref>)
    ensures |rs| == |ms| && forall k :: 0 <= k < |ms| ==> rs[k] == ms[k].event.ref
  {
    seq(|ms|, k requires 0 <= k < |ms| => ms[k].event.ref)
  }

  /** The reconciled events of `dirty`, the k-th a new object with reference `nextRef + k`. */
  function Updated(dirty: seq<EventModel>, nextRef: Ref, todayNoon: DateTime): (r: seq<ScheduleEvent>)
    ensures |r| == |dirty|
    ensures forall k :: 0 <= k < |dirty| ==> r[k] == CreateUpdatedEvent(dirty[k], nextRef + k, todayNoon)
  {
    seq(|dirty|, k requires 0 <= k < |dirty| => CreateUpdatedEvent(dirty[k], nextRef + k, todayNoon))
  }

  /** The loop of ApplyChanges over the dirty overlays: remove the old object, append the new event. */
  function ApplyDirty(es: seq<ScheduleEvent>, dirty: seq<EventModel>, nextRef: Ref, todayNoon: DateTime): seq<ScheduleEvent>
    decreases |dirty|
  {
    if |dirty| == 0 then es
    else
      var m := dirty[0];
      ApplyDirty(RemoveRef(es, m.event.ref) + [CreateUpdatedEvent(m, nextRef, todayNoon)], dirty[1..], nextRef + 1, todayNoon)
  }

  /**
   * ApplyChanges. With no dirty overlay nothing happens; otherwise the
   * schedule's list is rewritten and the overlays are rebuilt from it, all
   * clean. New event objects get references above every current one.
   */
  function ApplyChanges(sm: ScheduleModel, todayNoon: DateTime): (r: ScheduleModel)
    ensures !AnyDirty(sm.events) ==> r == sm
    ensures AnyDirty(sm.events) ==> Mirrors(r) && AllFresh(r.events)
    ensures r.schedule.ref == sm.schedule.ref && r.schedule.name == sm.schedule.name
    ensures !AnyDirty(r.events)
  {
    var dirty := DirtyModels(sm.events);
    if |dirty| == 0 then sm
    else
      var es := sm.schedule.events;
      var r := RefreshEvents(ScheduleModel(sm.schedule.(events := ApplyDirty(es, dirty, FreshRef(es), todayNoon)), sm.events));
      assert !AnyDirty(r.events) by {
        forall i | 0 <= i < |r.events| ensures !r.events[i].isDirty { }
      }
      r
  }
}

=== FILE: schedule_model_props.dfy ===
/**
 * What a schedule's overlay list promises: it mirrors the schedule after
 * every operation, ApplyChanges keeps the clean events in order and
 * appends the reconciled ones, and a second ApplyChanges does nothing.
 */
module ScheduleModelProps {
  import opened Wrappers
  import opened Calendar
  import opened ScheduleEvents
  import opened EventModels
  import opened EventModelProps
  import opened ScheduleModels

  /** The events of `es` that are none of the objects `rs`, in order. */
  function Without(es: seq<ScheduleEvent>, rs: seq<Ref>): seq<ScheduleEvent> {
    if |es| == 0 then []
    else (if es[0].ref in rs then [] else [es[0]]) + Without(es[1..], rs)
  }

  lemma {:induction false} WithoutConcat(a: seq<ScheduleEvent>, b: seq<ScheduleEvent>, rs: seq<Ref>)
    ensures Without(a + b, rs) == Without(a, rs) + Without(b, rs)
  {
    if |a| > 0 {
      assert (a + b)[1..] == a[1..] + b;
      WithoutConcat(a[1..], b, rs);
    } else {
      assert a + b == b;
    }
  }

  /** Two ref lists that agree on every event of `es` remove the same events. */
  lemma {:induction false} WithoutAgrees(es: seq<ScheduleEvent>, rs1: seq<Ref>, rs2: seq<Ref>)
    requires forall e :: e in es ==> (e.ref in rs1 <==> e.ref in rs2)
    ensures Without(es, rs1) == Without(es, rs2)
  {
    if |es| > 0 {
      assert es[0] in es;
      WithoutAgrees(es[1..], rs1, rs2);
    }
  }

  /** In a list without repeats, removing the first occurrence of `r` is removing every occurrence. */
  lemma WithoutAfterRemove(es: seq<ScheduleEvent>, r: Ref, rs: seq<Ref>)
    requires DistinctRefs(es)
    ensures Without(RemoveRef(es, r), rs) == Without(es, [r] + rs)
  {
    match IndexOfRef(es, r)
    case None =>
      WithoutAgrees(es, rs, [r] + rs);
    case Some(k) =>
      assert es == es[..k] + [es[k]] + es[k + 1..];
      WithoutConcat(es[..k] + [es[k]], es[k + 1..], [r] + rs);
      WithoutConcat(es[..k], [es[k]], [r] + rs);
      WithoutConcat(es[..k], es[k + 1..], rs);
      WithoutAgrees(es[..k], rs, [r] + rs);
      forall e | e in es[k + 1..] ensures e.ref != r {
        var j :| k + 1 <= j < |es| && es[j] == e;
      }
      WithoutAgrees(es[k + 1..], rs, [r] + rs);
  }

  lemma {:induction false} WithoutNothing(es: seq<ScheduleEvent>)
    ensures Without(es, []) == es
  {
    if |es| > 0 {
      WithoutNothing(es[1..]);
      assert es == [es[0]] + es[1..];
    }
  }

  predicate NoRepeats(rs: seq<Ref>) {
    forall i, j :: 0 <= i < j < |rs| ==> rs[i] != rs[j]
  }

  lemma NoRepeatsCons(r: Ref, rs: seq<Ref>)
    ensures NoRepeats([r] + rs) <==> r !in rs && NoRepeats(rs)
  {
    var s := [r] + rs;
    if NoRepeats(s) {
      forall i, j | 0 <= i < j < |rs| ensures rs[i] != rs[j] {
        assert s[i + 1] != s[j + 1];
      }
      forall k | 0 <= k < |rs| ensures rs[k] != r {
        assert s[0] != s[k + 1];
      }
    }
  }

  /** No object occurs twice among the overlays. */
  predicate DistinctModels(ms: seq<EventModel>) {
    NoRepeats(RefsOf(ms))
  }

  lemma RefsOfCons(ms: seq<EventModel>)
    requires |ms| > 0
    ensures RefsOf(ms) == [ms[0].event.ref] + RefsOf(ms[1..])
  {
  }

  /** The dirty overlays' objects are among the overlays' objects. */
  lemma {:induction false} DirtyRefsAmong(ms: seq<EventModel>)
    ensures forall x :: x in RefsOf(DirtyModels(ms)) ==> x in RefsOf(ms)
  {
    if |ms| > 0 {
      DirtyRefsAmong(ms[1..]);
      RefsOfCons(ms);
      var rest := DirtyModels(ms[1..]);
      if ms[0].isDirty {
        assert DirtyModels(ms) == [ms[0]] + rest;
        RefsOfCons(DirtyModels(ms));
        assert DirtyModels(ms)[1..] == rest;
      } else {
        assert DirtyModels(ms) == rest;
      }
    }
  }

  /** The dirty overlays of a list without repeats are without repeats too. */
  lemma {:induction false} DirtyModelsDistinct(ms: seq<EventModel>)
    requires DistinctModels(ms)
    ensures DistinctModels(DirtyModels(ms))
  {
    if |ms| > 0 {
      RefsOfCons(ms);
      NoRepeatsCons(ms[0].event.ref, RefsOf(ms[1..]));
      DirtyModelsDistinct(ms[1..]);
      var rest := DirtyModels(ms[1..]);
      if ms[0].isDirty {
        assert DirtyModels(ms) == [ms[0]] + rest;
        RefsOfCons(DirtyModels(ms));
        assert DirtyModels(ms)[1..] == rest;
        DirtyRefsAmong(ms[1..]);
        NoRepeatsCons(ms[0].event.ref, RefsOf(rest));
      } else {
        assert DirtyModels(ms) == rest;
      }
    }
  }

  lemma WithoutCons(e: ScheduleEvent, es: seq<ScheduleEvent>, rs: seq<Ref>)
    ensures Without([e] + es, rs) == (if e.ref in rs then [] else [e]) + Without(es, rs)
  {
    assert ([e] + es)[1..] == es;
  }

  lemma EventsOfCons(ms: seq<EventModel>)
    requires |ms| > 0
    ensures EventsOf(ms) == [ms[0].event] + EventsOf(ms[1..])
  {
  }

  lemma DirtyCons(ms: seq<EventModel>)
    requires |ms| > 0
    ensures RefsOf(DirtyModels(ms)) ==
      (if ms[0].isDirty then [ms[0].event.ref] else []) + RefsOf(DirtyModels(ms[1..]))
  {
    var rest := DirtyModels(ms[1..]);
    if ms[0].isDirty {
      assert DirtyModels(ms) == [ms[0]] + rest;
      RefsOfCons(DirtyModels(ms));
      assert DirtyModels(ms)[1..] == rest;
    } else {
      assert DirtyModels(ms) == rest;
    }
  }

  /** An object absent from `es` does not change what a ref list removes from it. */
  lemma WithoutIgnoresAbsent(es: seq<ScheduleEvent>, r: Ref, rs: seq<Ref>)
    requires forall i :: 0 <= i < |es| ==> es[i].ref != r
    ensures Without(es, [r] + rs) == Without(es, rs)
  {
    WithoutAgrees(es, rs, [r] + rs);
  }

  /**
   * For a list without repeats, dropping the objects of the dirty
   * overlays leaves exactly the events of the clean overlays.
   */
  lemma {:induction false} CleanIsWithoutDirty(ms: seq<EventModel>)
    requires DistinctModels(ms)
    ensures Without(EventsOf(ms), RefsOf(DirtyModels(ms))) == CleanEvents(ms)
  {
    if |ms| > 0 {
      var tail := ms[1..];
      var e0 := ms[0].event;
      var rs := RefsOf(DirtyModels(tail));
      RefsOfCons(ms);
      NoRepeatsCons(e0.ref, RefsOf(tail));
      CleanIsWithoutDirty(tail);
      DirtyRefsAmong(tail);
      EventsOfCons(ms);
      DirtyCons(ms);
      var all := RefsOf(DirtyModels(ms));
      WithoutCons(e0, EventsOf(tail), all);
      if ms[0].isDirty {
        assert all == [e0.ref] + rs;
        assert Without(EventsOf(ms), all) == Without(EventsOf(tail), all);
        assert forall i :: 0 <= i < |tail| ==> EventsOf(tail)[i].ref == RefsOf(tail)[i];
        WithoutIgnoresAbsent(EventsOf(tail), e0.ref, rs);
        assert CleanEvents(ms) == CleanEvents(tail);
      } else {
        assert all == rs;
        assert CleanEvents(ms) == [e0] + CleanEvents(tail);
      }
    }
  }

  /** One step of ApplyChanges keeps the list free of repeats and below the next reference. */
  lemma ApplyStepDistinct(es: seq<ScheduleEvent>, r0: Ref, u: ScheduleEvent, nextRef: Ref)
    requires DistinctRefs(es) && forall i :: 0 <= i < |es| ==> es[i].ref < nextRef
    requires r0 < nextRef && (u.ref == nextRef || u.ref == r0)
    ensures var es' := RemoveRef(es, r0) + [u];
      DistinctRefs(es') && forall i :: 0 <= i < |es'| ==> es'[i].ref < nextRef + 1
  {
    var removed := RemoveRef(es, r0);
    var es' := removed + [u];
    RemoveRefKeepsDistinct(es, r0);
    forall x | x in removed ensures x.ref != u.ref && x.ref < nextRef {
      var j :| 0 <= j < |es| && es[j] == x;
    }
    forall i, j | 0 <= i < j < |es'| ensures es'[i].ref != es'[j].ref {
      if j == |removed| {
        assert es'[i] in removed;
      } else {
        assert es'[i] == removed[i] && es'[j] == removed[j];
      }
    }
    forall i | 0 <= i < |es'| ensures es'[i].ref < nextRef + 1 {
      if i < |removed| {
        assert es'[i] in removed;
      } else {
        assert es'[i] == u;
      }
    }
  }

  /** What one step leaves of the original list is what removing its object and the later ones leaves. */
  lemma StepWithout(es: seq<ScheduleEvent>, r0: Ref, u: ScheduleEvent, later: seq<Ref>)
    requires DistinctRefs(es) && u.ref !in later
    ensures Without(RemoveRef(es, r0) + [u], later) == Without(es, [r0] + later) + [u]
  {
    WithoutConcat(RemoveRef(es, r0), [u], later);
    assert Without([u], later) == [u];
    WithoutAfterRemove(es, r0, later);
  }

  /** The loop of ApplyChanges with the new events given: remove object `rs[k]`, append `us[k]`. */
  function ReplaceAll(es: seq<ScheduleEvent>, rs: seq<Ref>, us: seq<ScheduleEvent>): seq<ScheduleEvent>
    requires |rs| == |us|
    decreases |rs|
  {
    if |rs| == 0 then es else ReplaceAll(RemoveRef(es, rs[0]) + [us[0]], rs[1..], us[1..])
  }

  lemma {:induction false} ApplyDirtyIsReplaceAll(es: seq<ScheduleEvent>, dirty: seq<EventModel>, nextRef: Ref, todayNoon: DateTime)
    ensures ApplyDirty(es, dirty, nextRef, todayNoon) == ReplaceAll(es, RefsOf(dirty), Updated(dirty, nextRef, todayNoon))
    decreases |dirty|
  {
    if |dirty| > 0 {
      var u := CreateUpdatedEvent(dirty[0], nextRef, todayNoon);
      ApplyDirtyIsReplaceAll(RemoveRef(es, dirty[0].event.ref) + [u], dirty[1..], nextRef + 1, todayNoon);
      assert RefsOf(dirty)[1..] == RefsOf(dirty[1..]);
      assert Updated(dirty, nextRef, todayNoon)[1..] == Updated(dirty[1..], nextRef + 1, todayNoon);
    }
  }

  /**
   * What the loop needs of its inputs: the list has no repeats and only
   * references below `nextRef`, the objects to replace are distinct and
   * below it too, and each new event is a new object (`nextRef + k`) or
   * the object it replaces.
   */
  predicate ReplaceReady(es: seq<ScheduleEvent>, rs: seq<Ref>, us: seq<ScheduleEvent>, nextRef: Ref) {
    && |rs| == |us|
    && DistinctRefs(es) && (forall i :: 0 <= i < |es| ==> es[i].ref < nextRef)
    && NoRepeats(rs) && (forall k :: 0 <= k < |rs| ==> rs[k] < nextRef)
    && (forall k :: 0 <= k < |us| ==> us[k].ref == nextRef + k || us[k].ref == rs[k])
  }

  /** One turn of the loop keeps its inputs ready, and the appended event is not replaced later. */
  lemma ReplaceReadyStep(es: seq<ScheduleEvent>, rs: seq<Ref>, us: seq<ScheduleEvent>, nextRef: Ref)
    requires ReplaceReady(es, rs, us, nextRef) && |rs| > 0
    ensures ReplaceReady(RemoveRef(es, rs[0]) + [us[0]], rs[1..], us[1..], nextRef + 1)
    ensures us[0].ref !in rs[1..]
  {
    ApplyStepDistinct(es, rs[0], us[0], nextRef);
    ReadyTail(rs, us, nextRef);
  }

  /** The references and new events left after one turn still meet the loop's demands on them. */
  lemma ReadyTail(rs: seq<Ref>, us: seq<ScheduleEvent>, nextRef: Ref)
    requires |rs| == |us| > 0
    requires NoRepeats(rs) && forall k :: 0 <= k < |rs| ==> rs[k] < nextRef
    requires forall k :: 0 <= k < |us| ==> us[k].ref == nextRef + k || us[k].ref == rs[k]
    ensures NoRepeats(rs[1..]) && forall k :: 0 <= k < |rs[1..]| ==> rs[1..][k] < nextRef + 1
    ensures forall k :: 0 <= k < |us[1..]| ==> us[1..][k].ref == nextRef + 1 + k || us[1..][k].ref == rs[1..][k]
    ensures us[0].ref !in rs[1..]
  {
    var later := rs[1..];
    assert rs == [rs[0]] + later;
    NoRepeatsCons(rs[0], later);
    forall k | 0 <= k < |later| ensures later[k] < nextRef + 1 {
      assert later[k] == rs[k + 1];
    }
    forall k | 0 <= k < |us[1..]| ensures us[1..][k].ref == nextRef + 1 + k || us[1..][k].ref == later[k] {
      assert us[1..][k] == us[k + 1] && later[k] == rs[k + 1];
    }
  }

  /** The induction behind ApplyChanges: the loop drops the replaced objects and appends the new events in order. */
  lemma {:induction false} ReplaceAllShape(es: seq<ScheduleEvent>, rs: seq<Ref>, us: seq<ScheduleEvent>, nextRef: Ref)
    requires ReplaceReady(es, rs, us, nextRef)
    ensures ReplaceAll(es, rs, us) == Without(es, rs) + us
    decreases |rs|
  {
    if |rs| == 0 {
      WithoutNothing(es);
    } else {
      ReplaceReadyStep(es, rs, us, nextRef);
      ReplaceAllShape(RemoveRef(es, rs[0]) + [us[0]], rs[1..], us[1..], nextRef + 1);
      ShapeFromTail(es, rs, us);
    }
  }

  /** The step of the induction: the tail's shape gives the whole list's shape. */
  lemma ShapeFromTail(es: seq<ScheduleEvent>, rs: seq<Ref>, us: seq<ScheduleEvent>)
    requires |rs| == |us| > 0 && DistinctRefs(es) && us[0].ref !in rs[1..]
    requires var es' := RemoveRef(es, rs[0]) + [us[0]];
      ReplaceAll(es', rs[1..], us[1..]) == Without(es', rs[1..]) + us[1..]
    ensures ReplaceAll(es, rs, us) == Without(es, rs) + us
  {
    var es' := RemoveRef(es, rs[0]) + [us[0]];
    StepWithout(es, rs[0], us[0], rs[1..]);
    assert rs == [rs[0]] + rs[1..];
    ShapeStep(es, es', rs, us);
  }

  /** One turn of the loop, put together from its pieces. */
  lemma ShapeStep(es: seq<ScheduleEvent>, es': seq<ScheduleEvent>, rs: seq<Ref>, us: seq<ScheduleEvent>)
    requires |rs| == |us| > 0
    requires es' == RemoveRef(es, rs[0]) + [us[0]]
    requires ReplaceAll(es', rs[1..], us[1..]) == Without(es', rs[1..]) + us[1..]
    requires Without(es', rs[1..]) == Without(es, rs) + [us[0]]
    ensures ReplaceAll(es, rs, us) == Without(es, rs) + us
  {
    ReplaceAllUnfold(es, es', rs, us);
    AppendHeadTail(Without(es, rs), us);
  }

  lemma ReplaceAllUnfold(es: seq<ScheduleEvent>, es': seq<ScheduleEvent>, rs: seq<Ref>, us: seq<ScheduleEvent>)
    requires |rs| == |us| > 0
    requires es' == RemoveRef(es, rs[0]) + [us[0]]
    ensures ReplaceAll(es, rs, us) == ReplaceAll(es', rs[1..], us[1..])
  {
  }

  lemma AppendHeadTail(w: seq<ScheduleEvent>, us: seq<ScheduleEvent>)
    requires |us| > 0
    ensures (w + [us[0]]) + us[1..] == w + us
  {
    assert us == [us[0]] + us[1..];
  }

  /** The loop's result has no repeated object. */
  lemma {:induction false} ReplaceAllDistinct(es: seq<ScheduleEvent>, rs: seq<Ref>, us: seq<ScheduleEvent>, nextRef: Ref)
    requires ReplaceReady(es, rs, us, nextRef)
    ensures DistinctRefs(ReplaceAll(es, rs, us))
    decreases |rs|
  {
    if |rs| > 0 {
      ReplaceReadyStep(es, rs, us, nextRef);
      ReplaceAllDistinct(RemoveRef(es, rs[0]) + [us[0]], rs[1..], us[1..], nextRef + 1);
    }
  }

  lemma ApplyDirtyShape(es: seq<ScheduleEvent>, dirty: seq<EventModel>, nextRef: Ref, todayNoon: DateTime)
    requires DistinctRefs(es) && forall i :: 0 <= i < |es| ==> es[i].ref < nextRef
    requires DistinctModels(dirty) && forall k :: 0 <= k < |dirty| ==> dirty[k].event.ref < nextRef
    ensures ApplyDirty(es, dirty, nextRef, todayNoon) == Without(es, RefsOf(dirty)) + Updated(dirty, nextRef, todayNoon)
    ensures DistinctRefs(ApplyDirty(es, dirty, nextRef, todayNoon))
  {
    ApplyDirtyIsReplaceAll(es, dirty, nextRef, todayNoon);
    assert ReplaceReady(es, RefsOf(dirty), Updated(dirty, nextRef, todayNoon), nextRef);
    ReplaceAllShape(es, RefsOf(dirty), Updated(dirty, nextRef, todayNoon), nextRef);
    ReplaceAllDistinct(es, RefsOf(dirty), Updated(dirty, nextRef, todayNoon), nextRef);
  }

  /**
   * ApplyChanges on a schedule whose events are distinct objects: the
   * clean overlays' events stay, in their order, and the reconciled event
   * of every dirty overlay follows at the end, in overlay order; the
   * result again has distinct objects.
   */
  lemma ApplyChangesShape(sm: ScheduleModel, todayNoon: DateTime)
    requires Wf(sm)
    ensures var es := sm.schedule.events;
      ApplyChanges(sm, todayNoon).schedule.events ==
        CleanEvents(sm.events) + Updated(DirtyModels(sm.events), FreshRef(es), todayNoon)
    ensures Wf(ApplyChanges(sm, todayNoon))
  {
    var ms := sm.events;
    var es := sm.schedule.events;
    var dirty := DirtyModels(ms);
    assert forall i :: 0 <= i < |ms| ==> RefsOf(ms)[i] == es[i].ref;
    assert DistinctModels(ms);
    CleanIsWithoutDirty(ms);
    if |dirty| == 0 {
      WithoutNothing(es);
      assert RefsOf(dirty) == [];
    } else {
      DirtyModelsDistinct(ms);
      DirtyRefsAmong(ms);
      forall k | 0 <= k < |dirty| ensures dirty[k].event.ref < FreshRef(es) {
        assert RefsOf(dirty)[k] in RefsOf(ms);
      }
      ApplyDirtyShape(es, dirty, FreshRef(es), todayNoon);
    }
  }

  /** ApplyChanges keeps the number of events of the schedule. */
  lemma ApplyChangesKeepsCount(sm: ScheduleModel, todayNoon: DateTime)
    requires Wf(sm)
    ensures |ApplyChanges(sm, todayNoon).schedule.events| == |sm.schedule.events|
    ensures |ApplyChanges(sm, todayNoon).events| == |sm.events|
  {
    ApplyChangesShape(sm, todayNoon);
  }

  /** After ApplyChanges nothing is dirty, so applying again changes nothing. */
  lemma ApplyChangesTwice(sm: ScheduleModel, todayNoon: DateTime, later: DateTime)
    ensures ApplyChanges(ApplyChanges(sm, todayNoon), later) == ApplyChanges(sm, todayNoon)
  {
  }

  /** The event `e` was made from the overlay `m` under the object `r`: it has the overlay's type, payload and flag. */
  predicate CarriesEdit(e: ScheduleEvent, m: EventModel, r: Ref) {
    && ParseKind(EventType(m)) == Some(KindOf(e))
    && e.data == Some(Data(m).GetOr("true"))
    && e.isDisabled == IsDisabled(m)
    && e.ref == r
  }

  /** An applied edit reaches the schedule: a dirty overlay's new event carries its type, Data and IsDisabled. */
  lemma AppliedEditReachesSchedule(sm: ScheduleModel, k: nat, todayNoon: DateTime)
    requires Wf(sm)
    requires k < |DirtyModels(sm.events)|
    requires ParseKind(EventType(DirtyModels(sm.events)[k])).Some?
    ensures |CleanEvents(sm.events)| + k < |ApplyChanges(sm, todayNoon).schedule.events|
    ensures CarriesEdit(ApplyChanges(sm, todayNoon).schedule.events[|CleanEvents(sm.events)| + k],
                        DirtyModels(sm.events)[k], FreshRef(sm.schedule.events) + k)
  {
    var clean := CleanEvents(sm.events);
    var dirty := DirtyModels(sm.events);
    var next := FreshRef(sm.schedule.events);
    var after := ApplyChanges(sm, todayNoon).schedule.events;
    assert after == clean + Updated(dirty, next, todayNoon) by {
      ApplyChangesShape(sm, todayNoon);
    }
    UpdatedEventAt(clean, dirty, next, todayNoon, k, after);
  }

  /** In the clean events followed by the updated ones, the k-th updated event sits after the clean ones and carries its overlay's edit. */
  lemma UpdatedEventAt(clean: seq<ScheduleEvent>, dirty: seq<EventModel>, nextRef: Ref, todayNoon: DateTime, k: nat, after: seq<ScheduleEvent>)
    requires k < |dirty| && after == clean + Updated(dirty, nextRef, todayNoon)
    requires ParseKind(EventType(dirty[k])).Some?
    ensures |clean| + k < |after| && CarriesEdit(after[|clean| + k], dirty[k], nextRef + k)
  {
    assert after[|clean| + k] == CreateUpdatedEvent(dirty[k], nextRef + k, todayNoon);
  }

  /** A new object added and then removed leaves the schedule as it was. */
  lemma AddThenRemove(sm: ScheduleModel, e: ScheduleEvent)
    requires Wf(sm) && !HasRef(sm.schedule.events, e.ref)
    ensures Wf(AddEvent(sm, e))
    ensures RemoveEvent(AddEvent(sm, e), Wrap(e)) == sm
  {
    var es := sm.schedule.events;
    var a := AddEvent(sm, e);
    IndexOfAppended(es, e);
    assert (es + [e])[..|es|] == es;
    assert EventsOf(sm.events + [Wrap(e)]) == es + [e];
    assert (sm.events + [Wrap(e)])[..|es|] == sm.events;
    forall i | 0 <= i < |es| ensures es[i].ref != e.ref { }
  }

  lemma {:induction false} IndexOfAppended(es: seq<ScheduleEvent>, e: ScheduleEvent)
    requires !HasRef(es, e.ref)
    ensures IndexOfRef(es + [e], e.ref) == Some(|es|)
  {
    if |es| > 0 {
      assert (es + [e])[1..] == es[1..] + [e];
      forall i | 0 <= i < |es[1..]| ensures es[1..][i].ref != e.ref {
        assert es[1..][i] == es[i + 1];
      }
      IndexOfAppended(es[1..], e);
    }
  }

  /** An effective edit on an overlay dirties it and raises the schedule's `Events` change. */
  lemma EditNotifiesSchedule(sm: ScheduleModel, i: nat, edit: Edit)
    requires i < |sm.events|
    ensures EditEvent(sm, i, edit).eventsChanged <==> TakesEffect(sm.events[i], edit)
    ensures TakesEffect(sm.events[i], edit) ==> AnyDirty(EditEvent(sm, i, edit).model.events)
  {
    ChangedIffEffective(sm.events[i], edit);
  }

  /** A payload written through one overlay is what the schedule's list holds for that object. */
  lemma DataWriteReachesSchedule(sm: ScheduleModel, i: nat, d: Option<string>)
    requires Wf(sm) && i < |sm.events|
    ensures var after := EditEvent(sm, i, SetData(d)).model;
      && after.schedule.events[i].data == d
      && forall j :: 0 <= j < |sm.events| && j != i ==> after.schedule.events[j] == sm.schedule.events[j]
  {
    var es := sm.schedule.events;
    assert es[i] == sm.events[i].event;
    forall j | 0 <= j < |es| && j != i ensures es[j].ref != es[i].ref { }
  }

  /**
   * A mirrored list of freshly built overlays is exactly what the
   * constructor builds from the schedule: being rebuilt says everything.
   */
  lemma FreshIsCreated(sm: ScheduleModel)
    requires Mirrors(sm) && AllFresh(sm.events)
    ensures sm == Create(sm.schedule)
  {
  }
}

=== FILE: serial_ports.dfy ===
/**
 * The serial-port menu state of the main window: the list of ports with
 * their check marks, and the name of the chosen port. Fetching the port
 * names from the device layer is outside the model; the list logic takes
 * the fetched names as input.
 */
module SerialPorts {
  import opened Wrappers

  // ------------------------------------------------------------- ordering of names

  /** Ordinal order of strings: character by character, a prefix first. */
  predicate LessEq(a: string, b: string) {
    |a| == 0 || (|b| > 0 && (a[0] < b[0] || (a[0] == b[0] && LessEq(a[1..], b[1..]))))
  }

  lemma {:induction false} LessEqTotal(a: string, b: string)
    ensures LessEq(a, b) || LessEq(b, a)
  {
    if |a| > 0 && |b| > 0 && a[0] == b[0] {
      LessEqTotal(a[1..], b[1..]);
    }
  }

  lemma {:induction false} LessEqReflexive(a: string)
    ensures LessEq(a, a)
  {
    if |a| > 0 {
      LessEqReflexive(a[1..]);
    }
  }

  lemma {:induction false} LessEqTransitive(a: string, b: string, c: string)
    requires LessEq(a, b) && LessEq(b, c)
    ensures LessEq(a, c)
  {
    if |a| > 0 && a[0] == b[0] && b[0] == c[0] {
      LessEqTransitive(a[1..], b[1..], c[1..]);
    }
  }

  lemma {:induction false} LessEqAntisymmetric(a: string, b: string)
    requires LessEq(a, b) && LessEq(b, a)
    ensures a == b
  {
    if |a| > 0 {
      LessEqAntisymmetric(a[1..], b[1..]);
      assert a == [a[0]] + a[1..] && b == [b[0]] + b[1..];
    }
  }

  predicate Sorted(s: seq<string>) {
    forall i, j :: 0 <= i < j < |s| ==> LessEq(s[i], s[j])
  }

  /** `h` is not above any name of `s`. */
  predicate Below(h: string, s: seq<string>) {
    forall j :: 0 <= j < |s| ==> LessEq(h, s[j])
  }

  /** `x` placed into a list before the first element not below it. */
  function Insert(x: string, s: seq<string>): (r: seq<string>)
    ensures multiset(r) == multiset(s) + multiset{x}
  {
    if |s| == 0 then [x]
    else if LessEq(x, s[0]) then [x] + s
    else
      assert s == [s[0]] + s[1..];
      [s[0]] + Insert(x, s[1..])
  }

  /** Inserting into an ordered list keeps it ordered. */
  lemma {:induction false} InsertSorted(x: string, s: seq<string>)
    requires Sorted(s)
    ensures Sorted(Insert(x, s))
  {
    if |s| > 0 {
      if LessEq(x, s[0]) {
        InsertAtHead(x, s);
      } else {
        InsertSorted(x, s[1..]);
        InsertBelowHead(x, s);
      }
    }
  }

  /** A name not above the head of an ordered list goes in front and keeps it ordered. */
  lemma InsertAtHead(x: string, s: seq<string>)
    requires Sorted(s) && |s| > 0 && LessEq(x, s[0])
    ensures Sorted([x] + s)
  {
    forall j | 0 <= j < |s| ensures LessEq(x, s[j]) {
      if j > 0 { LessEqTransitive(x, s[0], s[j]); }
    }
    ConsSorted(x, s);
  }

  /** A name above the head goes into the tail, and the head stays below everything. */
  lemma InsertBelowHead(x: string, s: seq<string>)
    requires Sorted(s) && |s| > 0 && !LessEq(x, s[0]) && Sorted(Insert(x, s[1..]))
    ensures Sorted(Insert(x, s))
  {
    var rest := Insert(x, s[1..]);
    HeadBelowInserted(x, s);
    ConsSorted(s[0], rest);
    assert Insert(x, s) == [s[0]] + rest;
  }

  /** The head of an ordered list is below every name of the tail with a larger name inserted. */
  lemma HeadBelowInserted(x: string, s: seq<string>)
    requires Sorted(s) && |s| > 0 && !LessEq(x, s[0])
    ensures Below(s[0], Insert(x, s[1..]))
  {
    var rest := Insert(x, s[1..]);
    LessEqTotal(x, s[0]);
    forall j | 0 <= j < |rest| ensures LessEq(s[0], rest[j]) {
      assert rest[j] in multiset(rest);
      if rest[j] != x {
        assert rest[j] in multiset(s[1..]);
        var k :| 0 <= k < |s[1..]| && s[1..][k] == rest[j];
        assert s[k + 1] == rest[j];
      }
    }
  }

  /** An ordered list stays ordered with a name in front that is below all of it. */
  lemma ConsSorted(h: string, s: seq<string>)
    requires Sorted(s) && Below(h, s)
    ensures Sorted([h] + s)
  {
    var r := [h] + s;
    forall i, j | 0 <= i < j < |r| ensures LessEq(r[i], r[j]) {
      assert r[j] == s[j - 1];
      if i > 0 {
        assert r[i] == s[i - 1];
      }
    }
  }

  /** The names in ascending ordinal order (`OrderBy(p => p)`), duplicates kept. */
  function Sort(s: seq<string>): (r: seq<string>)
    ensures Sorted(r) && multiset(r) == multiset(s)
  {
    if |s| == 0 then []
    else
      assert s == [s[0]] + s[1..];
      InsertSorted(s[0], Sort(s[1..]));
      Insert(s[0], Sort(s[1..]))
  }

  /** Two ordered lists with the same names are the same list, so Sort has only one possible result. */
  lemma {:induction false} SortedUnique(a: seq<string>, b: seq<string>)
    requires Sorted(a) && Sorted(b) && multiset(a) == multiset(b)
    ensures a == b
    decreases |a|
  {
    assert |a| == |multiset(a)| == |multiset(b)| == |b|;
    if |a| > 0 {
      SortedHeads(a, b);
      SortedHeads(b, a);
      LessEqAntisymmetric(a[0], b[0]);
      SameTails(a, b);
      SortedUnique(a[1..], b[1..]);
      assert a == [a[0]] + a[1..] && b == [b[0]] + b[1..];
    }
  }

  /** The head of an ordered list is below every name of a list with the same names. */
  lemma SortedHeads(a: seq<string>, b: seq<string>)
    requires Sorted(a) && multiset(a) == multiset(b) && |a| > 0 && |b| > 0
    ensures LessEq(a[0], b[0])
  {
    assert b[0] in multiset(a);
    var j :| 0 <= j < |a| && a[j] == b[0];
    if j == 0 { LessEqReflexive(a[0]); }
  }

  lemma SameTails(a: seq<string>, b: seq<string>)
    requires |a| > 0 && |b| > 0 && a[0] == b[0] && multiset(a) == multiset(b)
    ensures multiset(a[1..]) == multiset(b[1..])
  {
    assert a == [a[0]] + a[1..] && b == [b[0]] + b[1..];
    assert multiset(a[1..]) == multiset(a) - multiset{a[0]};
    assert multiset(b[1..]) == multiset(b) - multiset{b[0]};
  }

  // ------------------------------------------------------------- the port list

  /** A menu entry: a port name and whether it carries the check mark. */
  datatype Port = Port(name: string, isSelected: bool)

  function NamesOf(ports: seq<Port>): (ns: seq<string>)
    ensures |ns| == |ports| && forall i :: 0 <= i < |ports| ==> ns[i] == ports[i].name
  {
    seq(|ports|, i requires 0 <= i < |ports| => ports[i].name)
  }

  /** The menu state: the entries and the chosen port name, which may be null. */
  datatype PortMenu = PortMenu(ports: seq<Port>, selected: Option<string>)

  /**
   * The list rebuild after the names are fetched: one entry per fetched
   * name in ascending order, checked when it equals the current choice;
   * a non-empty choice that was not fetched is cleared.
   */
  function RefreshPortList(fetched: seq<string>, current: Option<string>): (r: PortMenu)
    ensures multiset(NamesOf(r.ports)) == multiset(fetched) && Sorted(NamesOf(r.ports))
    ensures forall i :: 0 <= i < |r.ports| ==> (r.ports[i].isSelected <==> current == Some(r.ports[i].name))
    ensures r.selected.None? <==> current.None? || (current.value != "" && current.value !in fetched)
    ensures r.selected.Some? ==> r.selected == current
  {
    var names := Sort(fetched);
    var ports := seq(|names|, i requires 0 <= i < |names| => Port(names[i], current == Some(names[i])));
    assert NamesOf(ports) == names;
    var selected := if current.Some? && current.value != "" && current.value !in fetched then None else current;
    PortMenu(ports, selected)
  }

  /** Position of the first entry named `name`. */
  function FirstNamed(ports: seq<Port>, name: string): (k: Option<nat>)
    ensures k.Some? ==> k.value < |ports| && ports[k.value].name == name && forall j :: 0 <= j < k.value ==> ports[j].name != name
    ensures k.None? ==> forall j :: 0 <= j < |ports| ==> ports[j].name != name
  {
    if |ports| == 0 then None
    else if ports[0].name == name then Some(0)
    else match FirstNamed(ports[1..], name)
      case Some(k) => Some(k + 1)
      case None => None
  }

  /**
   * SelectSerialPort: every check mark is cleared, then the first entry
   * with the name is checked and becomes the choice. With no such entry the
   * choice stays as it was.
   */
  function SelectSerialPort(menu: PortMenu, name: string): (r: PortMenu)
    ensures NamesOf(r.ports) == NamesOf(menu.ports)
    ensures forall i :: 0 <= i < |r.ports| ==> (r.ports[i].isSelected <==>
      (r.ports[i].name == name && forall j :: 0 <= j < i ==> menu.ports[j].name != name))
    ensures (exists i :: 0 <= i < |menu.ports| && menu.ports[i].name == name) ==> r.selected == Some(name)
    ensures (forall i :: 0 <= i < |menu.ports| ==> menu.ports[i].name != name) ==>
      r.selected == menu.selected && forall i :: 0 <= i < |r.ports| ==> !r.ports[i].isSelected
  {
    var k := FirstNamed(menu.ports, name);
    var ports := seq(|menu.ports|, i requires 0 <= i < |menu.ports| => Port(menu.ports[i].name, k == Some(i)));
    assert NamesOf(ports) == NamesOf(menu.ports);
    PortMenu(ports, if k.Some? then Some(name) else menu.selected)
  }

  /** At most one entry carries the check mark. */
  predicate AtMostOneChecked(ports: seq<Port>) {
    forall i, j :: 0 <= i < j < |ports| ==> !(ports[i].isSelected && ports[j].isSelected)
  }

  /** After a selection exactly one entry is checked if the name was listed, none otherwise, and only under that name. */
  lemma SelectionIsSingle(menu: PortMenu, name: string)
    ensures var r := SelectSerialPort(menu, name);
      && AtMostOneChecked(r.ports)
      && (forall i :: 0 <= i < |r.ports| && r.ports[i].isSelected ==> r.ports[i].name == name && r.selected == Some(name))
  {
  }

  /** Selecting the same port twice is the same as selecting it once. */
  lemma SelectTwice(menu: PortMenu, name: string)
    ensures SelectSerialPort(SelectSerialPort(menu, name), name) == SelectSerialPort(menu, name)
  {
    var once := SelectSerialPort(menu, name);
    var twice := SelectSerialPort(once, name);
    assert NamesOf(twice.ports) == NamesOf(once.ports);
    forall i | 0 <= i < |once.ports| ensures twice.ports[i] == once.ports[i] {
      assert once.ports[i].name == NamesOf(once.ports)[i];
      assert forall j :: 0 <= j < i ==> once.ports[j].name == menu.ports[j].name;
    }
  }

  /**
   * A rebuild with the same names keeps a choice made from the list and
   * checks every entry with that name, which after a fresh rebuild of
   * names without repeats is exactly one.
   */
  lemma RefreshKeepsSelection(fetched: seq<string>, current: Option<string>, name: string)
    requires exists i :: 0 <= i < |fetched| && fetched[i] == name
    ensures var chosen := SelectSerialPort(RefreshPortList(fetched, current), name);
      var again := RefreshPortList(fetched, chosen.selected);
      && again.selected == Some(name)
      && forall i :: 0 <= i < |again.ports| ==> (again.ports[i].isSelected <==> again.ports[i].name == name)
  {
    var menu := RefreshPortList(fetched, current);
    var i :| 0 <= i < |fetched| && fetched[i] == name;
    assert name in multiset(fetched);
    assert name in multiset(NamesOf(menu.ports));
    var k :| 0 <= k < |menu.ports| && NamesOf(menu.ports)[k] == name;
    assert menu.ports[k].name == name;
  }
}

=== FILE: text.dfy ===
/** String helpers the editor takes from .NET: lower-casing and joining. */
module Text {

  /** `char.ToLower` restricted to ASCII: 'A'..'Z' become 'a'..'z', every other character is kept. */
  function LowerChar(c: char): (r: char)
    ensures 'A' <= c <= 'Z' ==> 'a' <= r <= 'z'
    ensures !('A' <= c <= 'Z') ==> r == c
  {
    if 'A' <= c <= 'Z' then ((c as int) + 32) as char else c
  }

  /** `string.ToLower()`, with ASCII case folding. */
  function ToLower(s: string): (r: string)
    ensures |r| == |s|
    ensures forall i :: 0 <= i < |s| ==> r[i] == LowerChar(s[i])
  {
    if |s| == 0 then "" else [LowerChar(s[0])] + ToLower(s[1..])
  }

  /** A string with no upper-case ASCII letter is its own lower-case form. */
  lemma ToLowerOfLower(s: string)
    requires forall i :: 0 <= i < |s| ==> !('A' <= s[i] <= 'Z')
    ensures ToLower(s) == s
  {
  }

  /** `string.Join(sep, parts)`. */
  function Join(sep: string, parts: seq<string>): string
  {
    if |parts| == 0 then ""
    else if |parts| == 1 then parts[0]
    else parts[0] + sep + Join(sep, parts[1..])
  }
}

=== FILE: wrappers.dfy ===
/** Nullable values of the editor (a C# `T?` or a reference that may be null). */
module Wrappers {

  datatype Option<+T> = None | Some(value: T) {

    /** The value, or `default` when there is none (C#'s `??`). */
    function GetOr(default: T): T {
      match this
      case Some(v) => v
      case None => default
    }

    /** This value if there is one, else `other` (C#'s `??` between two nullable values). */
    function OrElse(other: Option<T>): Option<T> {
      match this
      case Some(_) => this
      case None => other
    }
  }
}
